=== FILE: README.md ===
# vrscene export core of V-Ray for Blender, in Dafny

This project models the part of the V-Ray for Blender exporter that turns a
Blender scene into vrscene text, and proves properties of that model:

- **The plugin writer's write queue** (`write_queue.dfy`, `plugin_writer.dfy`).
  Every vrscene file has a `PluginWriter`. It writes text to the Python file
  object through a FIFO of write items. An asynchronous item becomes ready
  only when a worker completes it. `processItems` drains the ready prefix and
  then writes the new text, or queues it. `blockFlushAll` writes everything
  that is left. The model is a sequential state machine: a sequence of slots,
  a sink (`seq<string>`), and explicit write, defer, complete and flush events.
  The main result is that the file receives the submitted text in submission
  order, whatever order the workers complete in.
- **The value codec** (`value_codec.dfy`). It models the `operator<<`
  overloads that print attribute values and the string-list printer. Number
  formatting, `StripString`, the hex packing of transforms and the
  header-only list printers stay abstract, as fields of a `Fmt` record. The
  text around them is modelled exactly: prefixes, separators, wrapping,
  indentation and closing brackets. Where one `<<` chain calls both
  `indent()` and `unindent()` (W:328), the model evaluates it left to right.
- **The file exporter** (`exporter_file.dfy`). It covers:
  - `set_export_file`: one writer per file name, and the alias groups of
    plugin categories;
  - `init` and `sync`;
  - `export_plugin_impl`: the geometry redirect, the fallback chain, the
    frame-scope rule and the record framing.
- **The exporter settings** (`export_settings.dfy`). `ExporterSettings::update`
  is modelled as a pure function from the property reads (a `Raw` record)
  and the previous settings to the new settings. `is_first_frame` and
  `check_data_updates` are modelled too.
- **The scene-sync rules** (`scene_sync.dfy`):
  - `get_layer`;
  - the hidden rule and the id-cache dedup of `sync_object`;
  - `ob_has_dupli` and `ob_is_duplicator_renderable`;
  - the slot counting, filling and naming of `sync_dupli`;
  - the object walk of `sync_objects`, with its interruption checks;
  - the work-mode gates of `render_start` and `sync`.
- **The node utilities** (`node_utils.dfy`). These are the first-match
  socket and node lookups and the table from socket type names to socket
  types.

`base.dfy` holds the shared `Option` type and string helpers.

All source paths below are relative to the repository root. They are
abbreviated as follows:

- `W` = `intern/vray_for_blender_rt/src/plugin_exporter/vfb_plugin_writer.cpp`
- `F` = `intern/vray_for_blender_rt/src/plugin_exporter/vfb_plugin_exporter_file.cpp`
- `S` = `intern/vray_for_blender_rt/src/vfb_export_settings.cpp`
- `X` = `intern/vray_for_blender_rt/src/vfb_scene_exporter.cpp`
- `N` = `intern/vray_for_blender_rt/src/scene_exporter/utils/vfb_utils_nodes.cpp`

The table spells the paths out in full.

## Model

| member | source | states |
|---|---|---|
| WriteQueue.SyncItem | intern/vray_for_blender_rt/src/plugin_exporter/vfb_plugin_writer.cpp:38-44 | A synchronous item is ready from the start, and its data is the string it was built with. |
| WriteQueue.AsyncDone | intern/vray_for_blender_rt/src/plugin_exporter/vfb_plugin_writer.cpp:46-58 | Completing an asynchronous item makes it ready. Its data becomes the worker's text, or the empty string for a null pointer. The stored synchronous string is untouched. |
| WriteQueue.Move | intern/vray_for_blender_rt/src/plugin_exporter/vfb_plugin_writer.cpp:66-73 | The moved-to item equals the original. The moved-from item is left not ready, with empty data. |
| WriteQueue.ReadyPrefixLen | intern/vray_for_blender_rt/src/plugin_exporter/vfb_plugin_writer.cpp:110-114 | Every item before the returned position is ready, and the item at it (if any) is pending. With ReadyPrefixLenUnique, it is the only such position. |
| WriteQueue.ProcessItems | intern/vray_for_blender_rt/src/plugin_exporter/vfb_plugin_writer.cpp:105-124 | The source's counted loop pops at most the initial queue length and stops at the first pending head. It leaves the same queue and file as the reference `Process`: drain the ready prefix to the file, then write a non-empty text directly if the queue is empty, or queue it otherwise. |
| WriteQueue.DrainStopsAtPending | intern/vray_for_blender_rt/src/plugin_exporter/vfb_plugin_writer.cpp:110-114 | A pending head stops the drain at once, even when later items are ready. |
| WriteQueue.DrainShape | intern/vray_for_blender_rt/src/plugin_exporter/vfb_plugin_writer.cpp:110-114 | The drain never removes more than the queue held. It removes a run of ready items from the head, and what remains is the rest of the queue, starting with a pending item. The removed items' texts are appended to the file in queue order, after what it already held. |
| WriteQueue.BlockFlushAll | intern/vray_for_blender_rt/src/plugin_exporter/vfb_plugin_writer.cpp:127-139 | Once every item is ready, the flush leaves the queue empty and appends each item's text to the file, in queue order. |
| WriteQueue.DrainPreserves | intern/vray_for_blender_rt/src/plugin_exporter/vfb_plugin_writer.cpp:110-114 | Draining keeps the queue invariant. It does not change the file text followed by what the queue will eventually write. |
| WriteQueue.WritePreserves | intern/vray_for_blender_rt/src/plugin_exporter/vfb_plugin_writer.cpp:105-124 | A write keeps the invariant. It extends the file text plus the eventual queue text by exactly the written text, or by nothing for an empty text. |
| WriteQueue.DonePreserves | intern/vray_for_blender_rt/src/plugin_exporter/vfb_plugin_writer.cpp:46-58 | A worker completing an item with the text it was assigned does not change what the file will eventually hold. |
| WriteQueue.StepPreserves | intern/vray_for_blender_rt/src/plugin_exporter/vfb_plugin_writer.cpp:105-139 | Each event (write, defer, complete, flush) keeps the invariant. It extends the eventual output by exactly the text that event submits. |
| WriteQueue.RunKeepsOrder | intern/vray_for_blender_rt/src/plugin_exporter/vfb_plugin_writer.cpp:105-139 | After any well-formed trace, the file text followed by the queue's eventual text is the submitted text in submission order. |
| WriteQueue.FlushDeliversInOrder | intern/vray_for_blender_rt/src/plugin_exporter/vfb_plugin_writer.cpp:127-139 | After a trace that ends in a flush, the queue is empty and the file holds exactly the submitted text, in submission order. |
| WriteQueue.SubmittedByProducers | intern/vray_for_blender_rt/src/plugin_exporter/vfb_plugin_writer.cpp:105-124 | The submitted text depends only on the writes and deferrals, not on the completions. |
| WriteQueue.CompletionOrderIrrelevant | intern/vray_for_blender_rt/src/plugin_exporter/vfb_plugin_writer.cpp:105-139 | Two traces with the same writes and deferrals in the same order, each ending in a flush, leave the same file text, whatever order their items complete in. |
| ValueCodec.Indentation | intern/vray_for_blender_rt/src/plugin_exporter/vfb_plugin_writer.cpp:141-151 | The indentation is empty for any depth outside 0 to 4. |
| ValueCodec.IndentationIsRepeat | intern/vray_for_blender_rt/src/plugin_exporter/vfb_plugin_writer.cpp:141-151 | For depth 0 to 4, the indentation is exactly `depth` copies of the indent unit. |
| ValueCodec.Vector2Text | intern/vray_for_blender_rt/src/plugin_exporter/vfb_plugin_writer.cpp:188-191 | A 2-vector prints as the 3-component `Vector` with zero as its third component, given that `%g` prints zero as `0`. |
| ValueCodec.TransformText | intern/vray_for_blender_rt/src/plugin_exporter/vfb_plugin_writer.cpp:198-213 | The prefix tells the two encodings apart: ASCII output starts `Transform(` and carries the matrix and offset unchanged between the brackets; every other format starts `TransformHex("` and carries the packed hex string unchanged up to the closing `")`. |
| ValueCodec.PluginTextSplits | intern/vray_for_blender_rt/src/plugin_exporter/vfb_plugin_writer.cpp:215-222 | Splitting a plugin reference's text at its first `::` gives back the stripped plugin name and the stripped output, for every output, even one that strips to nothing. An empty output adds no `::`. |
| ValueCodec.ValueListWrapping | intern/vray_for_blender_rt/src/plugin_exporter/vfb_plugin_writer.cpp:261-264 | An untyped value list goes to the list printer with no name and one item per element, in order, each item being that element printed by the same codec at the same depth. It asks for 2 items per line exactly when the list has more than 10 elements, and for 0 otherwise. |
| ValueCodec.RenderAllPointwise | intern/vray_for_blender_rt/src/plugin_exporter/vfb_plugin_writer.cpp:266-292 | Rendering a list of values element by element gives, at each position, exactly what the value dispatch prints for that element alone. |
| ValueCodec.PrintChannelBlock | intern/vray_for_blender_rt/src/plugin_exporter/vfb_plugin_writer.cpp:233-238 | One pass of the map-channels loop prints `List(<index>,`, the vertex list one level deeper, the face list and `)` on its own line, preceded by a comma for every channel but the first, and leaves the depth as it found it. |
| ValueCodec.PrintMapChannels | intern/vray_for_blender_rt/src/plugin_exporter/vfb_plugin_writer.cpp:224-243 | The loop with its running index and `addComma` flag prints one block per channel, numbered from 0 in map order, with a comma before every block but the first, inside `List(` and `)`, and leaves the depth where it found it. |
| ValueCodec.InstancerUniformLines | intern/vray_for_blender_rt/src/plugin_exporter/vfb_plugin_writer.cpp:245-259 | Every item line of an instancer, the first included, is `,\n`, then the indentation one level deeper, then the item. The list closes on a new line at the outer indentation. |
| ValueCodec.EmptyInstancerText | intern/vray_for_blender_rt/src/plugin_exporter/vfb_plugin_writer.cpp:245-259 | An instancer with no items prints as `List(<frame>`, then a newline, the indentation and `)`. |
| ValueCodec.PrintStringList | intern/vray_for_blender_rt/src/plugin_exporter/vfb_plugin_writer.cpp:294-322 | The source's loop produces the as-written list text, and leaves the depth where it found it. |
| ValueCodec.PrintStringListItems | intern/vray_for_blender_rt/src/plugin_exporter/vfb_plugin_writer.cpp:308-316 | The loop over elements 1 onwards emits, for each element in order, its separator followed by the quoted element. |
| ValueCodec.StringListLineBreaks | intern/vray_for_blender_rt/src/plugin_exporter/vfb_plugin_writer.cpp:294-322 | When the name, indentation and elements contain no line break, a non-empty list printed with a positive items-per-line n has exactly 2 + (count - 1) / n line breaks: after `(`, before each element whose position is a multiple of n, and before `)`. A list printed on a single line, and an empty list, have none. |
| ValueCodec.RenderStringList | intern/vray_for_blender_rt/src/plugin_exporter/vfb_plugin_writer.cpp:283-322 | A string-list attribute is printed by the printer as written. It ends with `)` when it is empty or wraps, and a non-empty single-line list ends with the closing quote of its last element. |
| ValueCodec.EmptyStringList | intern/vray_for_blender_rt/src/plugin_exporter/vfb_plugin_writer.cpp:297-301 | An empty string list prints as `List<name>()`, both as written and corrected. |
| ValueCodec.NegativeItemsPerLine | intern/vray_for_blender_rt/src/plugin_exporter/vfb_plugin_writer.cpp:302 | A negative items-per-line value prints exactly like 0. |
| ValueCodec.SingleLineStringListUnclosed | intern/vray_for_blender_rt/src/plugin_exporter/vfb_plugin_writer.cpp:317-321 | As written, a non-empty single-line string list ends with the closing quote of its last element, with no `)`. |
| ValueCodec.StringListClosed | intern/vray_for_blender_rt/src/plugin_exporter/vfb_plugin_writer.cpp:294-322 | The corrected string list always ends with `)`. |
| ValueCodec.StringListFixIsMinimal | intern/vray_for_blender_rt/src/plugin_exporter/vfb_plugin_writer.cpp:317-321 | The corrected text is the as-written text plus one `)` for a non-empty single-line list. In every other case it is identical. |
| PluginWriter.NewWriter | intern/vray_for_blender_rt/src/plugin_exporter/vfb_plugin_writer.cpp:76-83 | A new writer keeps its file and format, starts at depth 1 with no animation frame, and has nothing queued or written. |
| PluginWriter.Stream | intern/vray_for_blender_rt/src/plugin_exporter/vfb_plugin_writer.cpp:168-171 | Streaming the empty string changes nothing, not even the queue. |
| PluginWriter.ProcessAllDone | intern/vray_for_blender_rt/src/plugin_exporter/vfb_plugin_writer.cpp:105-124 | With nothing pending, a write leaves nothing pending. It extends the file plus queue text by exactly that write. |
| PluginWriter.ApplyAppends | intern/vray_for_blender_rt/src/plugin_exporter/vfb_plugin_writer.cpp:97-124 | A run of writer operations on a writer with nothing pending leaves nothing pending and keeps file, format and depth. It adds exactly the non-empty texts, in order, to what the file will hold. |
| PluginWriter.FlushWriter | intern/vray_for_blender_rt/src/plugin_exporter/vfb_plugin_writer.cpp:127-139 | Flushing a writer empties its queue into its file in order, and keeps the file and format. |
| VrsceneExporter.AliasGroupIff | intern/vray_for_blender_rt/src/plugin_exporter/vfb_plugin_exporter_file.cpp:71-91 | Two categories share an alias group if and only if they are in the same one of {Channel, Filter, Settings}, {BRDF, Material} and {Texture, Uvwgen}, or are the same category. |
| VrsceneExporter.Bind | intern/vray_for_blender_rt/src/plugin_exporter/vfb_plugin_exporter_file.cpp:71-91 | Binding a group maps every member of the group to the file and leaves every other category as it was. |
| VrsceneExporter.SetExportFile | intern/vray_for_blender_rt/src/plugin_exporter/vfb_plugin_exporter_file.cpp:52-95 | A null file changes nothing. Otherwise existing writers are kept, and a writer is created, with the export format, only for a name not seen before. The whole alias group of the category is bound to that file, and other categories keep their bindings. |
| VrsceneExporter.SetExportFileReuses | intern/vray_for_blender_rt/src/plugin_exporter/vfb_plugin_exporter_file.cpp:57-69 | Setting a file whose name already has a writer creates no writer. |
| VrsceneExporter.SetExportFileKeepsValid | intern/vray_for_blender_rt/src/plugin_exporter/vfb_plugin_exporter_file.cpp:52-95 | Each writer is keyed by its own file name, and every bound category names an existing writer. Alias groups stay bound to a single file. |
| VrsceneExporter.Init | intern/vray_for_blender_rt/src/plugin_exporter/vfb_plugin_exporter_file.cpp:102-109 | `init` gives every existing writer the current export format and changes nothing else. |
| VrsceneExporter.Sync | intern/vray_for_blender_rt/src/plugin_exporter/vfb_plugin_exporter_file.cpp:118-127 | `sync` sets the synced flag and flushes every writer of the file map in order, emptying its queue. |
| VrsceneExporter.GeometryRedirect | intern/vray_for_blender_rt/src/plugin_exporter/vfb_plugin_exporter_file.cpp:152-180 | A `GeomStaticMesh` or `GeomMayaHair` record of the Geometry category goes to the geometry writer when one is set. Any other geometry goes to the nodes writer when one is set. Without a nodes writer it never reaches the geometry writer through its own category: it takes the fallback by its ID, then the Settings writer. |
| VrsceneExporter.ChooseWriter | intern/vray_for_blender_rt/src/plugin_exporter/vfb_plugin_exporter_file.cpp:162-180 | A mapped category uses its own writer. Any writer chosen is one of the bound files. Nothing is written if and only if the category, the ID's fallback category and Settings are all unmapped. |
| VrsceneExporter.FallbackOrder | intern/vray_for_blender_rt/src/plugin_exporter/vfb_plugin_exporter_file.cpp:163-180 | An unmapped category goes to the writer of the ID's fallback category when that category is mapped, and otherwise to the Settings writer. |
| VrsceneExporter.FallbackTypeCases | intern/vray_for_blender_rt/src/plugin_exporter/vfb_plugin_exporter_file.cpp:164-170 | The fallback category is Object for `Node` and `Instancer`. Otherwise it is Settings for an ID containing `Render`, and otherwise Light for an ID containing `Light`. |
| VrsceneExporter.RoutingExamples | intern/vray_for_blender_rt/src/plugin_exporter/vfb_plugin_exporter_file.cpp:155-180 | With geometry, nodes, settings and lights files set, a static mesh goes to the geometry file and another geometry to the nodes file. A `RenderGlobals` record of an unmapped category goes to the settings file and a `LightOmni` one to the lights file. |
| VrsceneExporter.FrameIsSetAgrees | intern/vray_for_blender_rt/src/plugin_exporter/vfb_plugin_exporter_file.cpp:184-188 | The source's rule fails exactly when DR is off, separate files are on and no Settings writer exists. Wherever it is defined, it agrees with the corrected rule. |
| VrsceneExporter.KnownAttrs | intern/vray_for_blender_rt/src/plugin_exporter/vfb_plugin_exporter_file.cpp:199-205 | The kept attributes are exactly those of a known type. |
| VrsceneExporter.AttrOpsSkipUnknown | intern/vray_for_blender_rt/src/plugin_exporter/vfb_plugin_exporter_file.cpp:199-205 | The attribute lines are, one for one and in order, the lines of the known-type attributes. Unknown-type attributes add nothing. |
| VrsceneExporter.RecordText | intern/vray_for_blender_rt/src/plugin_exporter/vfb_plugin_exporter_file.cpp:190-207 | A record's text is `<plugin ID> <stripped name> {\n`, then one line per known attribute, then `}\n\n`. Every attribute line is written at the animation frame that the record's frame operation leaves on the writer, or at the writer's earlier frame when there is none. |
| VrsceneExporter.ExportPlugin | intern/vray_for_blender_rt/src/plugin_exporter/vfb_plugin_exporter_file.cpp:142-210 | The returned plugin is named after the record, whether or not anything was written, and the synced flag is cleared. Only the chosen writer changes: it receives the record with the frame rule applied. With no writer, nothing changes. |
| VrsceneExporter.ExportPluginAgrees | intern/vray_for_blender_rt/src/plugin_exporter/vfb_plugin_exporter_file.cpp:182-197 | Wherever the source's export does not fail, the corrected export gives the same result. |
| VrsceneExporter.ExportPluginNullSettingsWriter | intern/vray_for_blender_rt/src/plugin_exporter/vfb_plugin_exporter_file.cpp:184-188 | The failing input: DR off, separate files on, only a lights file set, and a `LightOmni` record. |
| VrsceneExporter.ExportPluginKeepsValid | intern/vray_for_blender_rt/src/plugin_exporter/vfb_plugin_exporter_file.cpp:142-210 | Exporting a record keeps each writer keyed by its own file name and every binding pointing at an existing writer. |
| VrsceneExporter.ExportPluginFrame | intern/vray_for_blender_rt/src/plugin_exporter/vfb_plugin_exporter_file.cpp:184-197 | With animation or motion blur, the chosen writer's frame is -1 exactly when DR is off, separate files are on and the writer is the Settings writer; otherwise it is the current frame. Without them, the frame is left alone. |
| VrsceneExporter.ExportKeepsSettled | intern/vray_for_blender_rt/src/plugin_exporter/vfb_plugin_exporter_file.cpp:190-207 | Exporting from a state with nothing pending leaves nothing pending. |
| VrsceneExporter.RecordThenFlush | intern/vray_for_blender_rt/src/plugin_exporter/vfb_plugin_exporter_file.cpp:190-207 | For a writer with nothing pending, a record followed by a flush puts exactly the record's text after what the file already held. |
| VrsceneExporter.ExportThenSyncWritesRecord | intern/vray_for_blender_rt/src/plugin_exporter/vfb_plugin_exporter_file.cpp:142-210 | From a state with nothing pending, exporting a record and then syncing leaves the chosen file holding its previous text followed by exactly the record's text. With animation or motion blur, its attributes are written at frame -1 for the Settings file under the frame-scope rule and at the current frame otherwise. Without them they are written at the writer's earlier frame. |
| ExportSettings.UseBakeView | intern/vray_for_blender_rt/src/vfb_export_settings.cpp:71-80 | Bake view is on if and only if it is requested outside viewport and preview and a bake object is set. |
| ExportSettings.ScanCamerasFinds | intern/vray_for_blender_rt/src/vfb_export_settings.cpp:144-162 | The stereo scan reports only objects carrying the left or right camera's name. It finds both when the names differ and both occur. With unique object names, two matches happen exactly then. |
| ExportSettings.LoopCameraHides | intern/vray_for_blender_rt/src/vfb_export_settings.cpp:115-128 | The camera loop hides from view if and only if some camera object uses the camera loop and hides from view. |
| ExportSettings.CameraPart | intern/vray_for_blender_rt/src/vfb_export_settings.cpp:110-197 | In the camera loop there is no motion blur, no stereo and no physical camera. Hide-from-view is set when it was already set or when some loop camera hides from view. Otherwise, with a scene camera, hide-from-view and the physical flag are the camera's. Motion blur is the physical camera's flag when its type is still, cinematic or video, and otherwise the motion-blur settings' flag. Stereo needs both the scene and the camera to ask for it. Without a camera object, physical camera, stereo and motion blur are off, and hide-from-view and the stereo cameras keep their previous values. |
| ExportSettings.FindMaterial | intern/vray_for_blender_rt/src/vfb_export_settings.cpp:213-218 | A material is found if and only if some material has the name, and then it is that material. |
| ExportSettings.OverrideMaterial | intern/vray_for_blender_rt/src/vfb_export_settings.cpp:208-220 | With a changed override name, the override material is set if and only if the name is non-empty and some material has it, and then it is that material. |
| ExportSettings.OverrideMaterialAgrees | intern/vray_for_blender_rt/src/vfb_export_settings.cpp:208-220 | The source's update and the corrected one agree whenever the name is unchanged, empty or found. |
| ExportSettings.OverrideMaterialStale | intern/vray_for_blender_rt/src/vfb_export_settings.cpp:213-218 | Switching the override from material `A` to a name no material has keeps `A` as written, and clears it in the corrected update. |
| ExportSettings.UpdateOverrideMaterial | intern/vray_for_blender_rt/src/vfb_export_settings.cpp:202-220 | After an update, the override material is the previous one while the override name is unchanged, and none for a changed empty name. For a changed name that a material has, it is that material. For a changed name that no material has, the previous material is kept. |
| ExportSettings.UpdatePreview | intern/vray_for_blender_rt/src/vfb_export_settings.cpp:45-92 | Preview forces the ZIP format, mesh export, no DR and the scene's layers. Outside preview, the format and DR are the scene's. |
| ExportSettings.UpdateExportMeshes | intern/vray_for_blender_rt/src/vfb_export_settings.cpp:222-226 | Meshes are exported if and only if it is a preview, meshes are asked for, or the exporter is not the file exporter. |
| ExportSettings.UpdateBakeView | intern/vray_for_blender_rt/src/vfb_export_settings.cpp:71-80 | The updated bake-view flag holds exactly under the bake conditions, and then the bake object is the scene's. |
| ExportSettings.UpdateAnimation | intern/vray_for_blender_rt/src/vfb_export_settings.cpp:98-104 | Preview, viewport and bake view force no animation, and otherwise the mode is the scene's. Animation is used if and only if the mode is not None. |
| ExportSettings.UpdateMotionBlur | intern/vray_for_blender_rt/src/vfb_export_settings.cpp:199-200 | There is no motion blur under bake view, preview or the camera loop. |
| ExportSettings.UpdateRenderMode | intern/vray_for_blender_rt/src/vfb_export_settings.cpp:236-251 | The viewport takes its own render mode and image type. Outside it, preview or animation force the production mode, and the image type is RGBA float. |
| ExportSettings.UpdateShowVfb | intern/vray_for_blender_rt/src/vfb_export_settings.cpp:252 | The frame buffer is shown if and only if it is asked for outside viewport, export-only mode and preview. |
| ExportSettings.UpdateStereo | intern/vray_for_blender_rt/src/vfb_export_settings.cpp:130-163 | With unique object names, the stereo camera is used if and only if all of these hold: it is not the camera loop, the scene and the camera ask for stereo, and both named cameras exist under different names. |
| ExportSettings.UpdateZmqAndOverride | intern/vray_for_blender_rt/src/vfb_export_settings.cpp:202-234 | An empty server address becomes `127.0.0.1`, so the address is never empty. The override name is the scene's only while the override is on. |
| ExportSettings.UpdateIdempotent | intern/vray_for_blender_rt/src/vfb_export_settings.cpp:39-256 | Updating twice from the same scene gives the same settings as updating once. This includes the values carried over from the previous settings, the override material among them, kept as the source does. |
| ExportSettings.UpdateCheckAfterFirstFrame | intern/vray_for_blender_rt/src/vfb_export_settings.cpp:259-279 | A data-update check is asked for exactly on frames that are not the first frame and lie past the start frame. An animation frame before the start frame is neither the first frame nor checked. |
| ExportSettings.UpdateFirstFrame | intern/vray_for_blender_rt/src/vfb_export_settings.cpp:269-279 | After an update, the frame counts as the first if and only if preview, viewport or bake view switched animation off, the scene has no animation, or the current frame is the start frame. |
| ExportSettings.UpdateCheckDataUpdates | intern/vray_for_blender_rt/src/vfb_export_settings.cpp:259-266 | After an update, a data-update check is asked for if and only if nothing switched animation off, the scene is animated, and the current frame lies past the start frame. |
| ExportSettings.FirstFrameNeedsNoUpdateCheck | intern/vray_for_blender_rt/src/vfb_export_settings.cpp:259-279 | The first frame never asks for a data-update check. |
| SceneSync.GetLayer | intern/vray_for_blender_rt/src/vfb_scene_exporter.cpp:663-672 | The layer mask has bit i set if and only if layer i is on, for each of the 20 layers, and it is below 2^20. |
| SceneSync.MaskBits | intern/vray_for_blender_rt/src/vfb_scene_exporter.cpp:663-672 | Bit i of a layer mask is set if and only if i is a layer index and that layer is on. |
| SceneSync.MaskMeet | intern/vray_for_blender_rt/src/vfb_scene_exporter.cpp:693 | Two layer masks share a bit if and only if some layer is on in both. |
| SceneSync.IsHiddenIff | intern/vray_for_blender_rt/src/vfb_scene_exporter.cpp:693-694 | An object is hidden if and only if it is hidden, hidden from render, or on no layer the scene shows. |
| SceneSync.EmitterHidden | intern/vray_for_blender_rt/src/vfb_scene_exporter.cpp:733-749 | The emitter is hidden if and only if some particle-system modifier with a system and settings has its render emitter off. |
| SceneSync.IsDuplicatorRenderable | intern/vray_for_blender_rt/src/vfb_scene_exporter.cpp:715-753 | With particle systems, a duplicator is not renderable if and only if some particle-system modifier turns its render emitter off. Without them, it is renderable if and only if it has no dupli or shows its emitter. |
| SceneSync.SyncObject | intern/vray_for_blender_rt/src/vfb_scene_exporter.cpp:675-713 | The key (the override id, or the object) is always cached. An already-cached key changes nothing. Otherwise the object is exported once, as a mesh or a light, exactly when it is visible and is a mesh or lamp with data. |
| SceneSync.SyncObjectExportsOnce | intern/vray_for_blender_rt/src/vfb_scene_exporter.cpp:677-690 | Syncing keeps every exported key cached and never exports a key twice. |
| SceneSync.FillWithinCount | intern/vray_for_blender_rt/src/vfb_scene_exporter.cpp:765-780 | The instancer slots filled never outnumber the slots the counting loop allocates, so every slot index is in range. |
| SceneSync.CountLeavesUnfilledSlot | intern/vray_for_blender_rt/src/vfb_scene_exporter.cpp:772-776 | A visible dupli that is neither geometry nor light is counted but never filled. |
| SceneSync.DecimalRoundTrip | intern/vray_for_blender_rt/src/vfb_scene_exporter.cpp:816 | The `%u` text of a number reads back as that number. |
| SceneSync.LightPrefixRoundTrip | intern/vray_for_blender_rt/src/vfb_scene_exporter.cpp:814-818 | A dupli light's name prefix `D<id>@<parent>` gives back the id and the parent name. |
| SceneSync.DupliStep | intern/vray_for_blender_rt/src/vfb_scene_exporter.cpp:805-848 | A visible dupli light is synced under the override `(persistent id, visible, "D<id>@<parent name>")` and adds that id's override key to the cache. A visible non-light geometry of an instancing duplicator is synced under the override `(object id, emitter shown, "")` and adds that id's override key. Any other dupli changes nothing. |
| SceneSync.DupliLoopItems | intern/vray_for_blender_rt/src/vfb_scene_exporter.cpp:787-851 | An uninterrupted fill loop writes the filled items into consecutive slots, in order, from the first free slot on, and leaves every other slot as it was. |
| SceneSync.DupliLoopInterrupted | intern/vray_for_blender_rt/src/vfb_scene_exporter.cpp:789-792 | The loop is interrupted if and only if the stop request comes before its last check. |
| SceneSync.SyncDupliWithInstancer | intern/vray_for_blender_rt/src/vfb_scene_exporter.cpp:762-860 | An uninterrupted instancer dupli sync exports one instancer record. Its items are the filled ones, in order, followed by a default item for each allocated slot that was never filled. |
| SceneSync.SyncDupliAsWrittenInstancer | intern/vray_for_blender_rt/src/vfb_scene_exporter.cpp:764-860 | As written, the instancer record also carries a default item for each visible dupli of an unsupported type. |
| SceneSync.SyncDupliInstancer | intern/vray_for_blender_rt/src/vfb_scene_exporter.cpp:805-860 | With the corrected count, the record is named `Dupli@<node name>`, has type `Instancer`, and carries exactly the filled items in order, with every slot filled. |
| SceneSync.SyncDupliWithOutcome | intern/vray_for_blender_rt/src/vfb_scene_exporter.cpp:756-861 | Whatever the break flag does, a duplicator exports nothing or its one instancer record, with the filled items and then the default items. An instancing duplicator that the flag did not stop has exported that record. |
| SceneSync.DupliLoopSound | intern/vray_for_blender_rt/src/vfb_scene_exporter.cpp:787-851 | The fill loop only exports visible meshes and lamps, under their cached keys, never twice. |
| SceneSync.SyncDupliSound | intern/vray_for_blender_rt/src/vfb_scene_exporter.cpp:756-861 | The whole dupli sync keeps that soundness. |
| SceneSync.SyncObjectsFrom | intern/vray_for_blender_rt/src/vfb_scene_exporter.cpp:864-901 | The walk syncs each duplicator's duplis as written, with one slot per visible non-light dupli. It never removes a cached key, and when it stops early the stop request had been raised. |
| SceneSync.SyncObjectsComplete | intern/vray_for_blender_rt/src/vfb_scene_exporter.cpp:876-900 | A walk that was not stopped has cached the key of every scene object: the override id for a duplicator, and the object otherwise. |
| SceneSync.SyncObjectsInstancers | intern/vray_for_blender_rt/src/vfb_scene_exporter.cpp:864-901 | The walk appends the instancer records of the instancing duplicators after its start, in scene order, each as written. An unstopped walk appends all of them, and a stopped walk appends a leading part of them. |
| SceneSync.SyncScene | intern/vray_for_blender_rt/src/vfb_scene_exporter.cpp:864-901 | Starting from the id cache that `sync_prepass` empties (X:338-341), the object pass exports only visible meshes and lamps, each key once. Unless interrupted, it caches every scene object and exports exactly the as-written instancer record of every instancing duplicator, in scene order. When interrupted, it has exported a leading part of those records. |
| SceneSync.WorkModeGates | intern/vray_for_blender_rt/src/vfb_scene_exporter.cpp:233-239 | The render and export gates split the work modes four ways: render-and-export does both, render only renders, export-only only exports, and a work-mode value outside the three named ones does neither. |
| SceneSync.SyncExportGate | intern/vray_for_blender_rt/src/vfb_scene_exporter.cpp:319-323 | `sync` writes `scene_app_sdk.vrscene` in the export-only and render-and-export modes. It writes no file in the render mode, nor for a work-mode value outside the named ones. |
| NodeUtils.First | intern/vray_for_blender_rt/src/scene_exporter/utils/vfb_utils_nodes.cpp:55-68 | The search finds nothing if and only if no element matches. Otherwise it returns a matching element with no match before it. |
| NodeUtils.GetInputSocketByName | intern/vray_for_blender_rt/src/scene_exporter/utils/vfb_utils_nodes.cpp:55-68 | A null node gives no socket. Otherwise the result is the first input with the name, and there is none if and only if no input has it. |
| NodeUtils.GetOutputSocketByName | intern/vray_for_blender_rt/src/scene_exporter/utils/vfb_utils_nodes.cpp:71-84 | The same search over the outputs. |
| NodeUtils.GetSocketByAttr | intern/vray_for_blender_rt/src/scene_exporter/utils/vfb_utils_nodes.cpp:87-104 | The result is the first input whose `vray_attr` is non-empty and equals the name, and there is none if and only if no input has it. |
| NodeUtils.GetNodeByType | intern/vray_for_blender_rt/src/scene_exporter/utils/vfb_utils_nodes.cpp:133-142 | The result is the first node of the type, and there is none if and only if the tree has no node of that type. |
| NodeUtils.SocketTypeOfNameExact | intern/vray_for_blender_rt/src/scene_exporter/utils/vfb_utils_nodes.cpp:154-175 | A name maps to a known socket type only if it is exactly that type's name. It maps to unknown if and only if it is no type's name. |
| NodeUtils.GetSocketType | intern/vray_for_blender_rt/src/scene_exporter/utils/vfb_utils_nodes.cpp:145-175 | A socket's type is the one whose name is its base type when it has one, or its RNA type's identifier otherwise. It is unknown if and only if that name belongs to no type. |

## Left out

- `addTask`, `indent`/`unindent`, `setAnimationFrame`, `PluginWriter::operator==` and `VRSCENE_INDENT` are defined in the writer's header, which is not part of this model. The model takes the following assumptions:
  - `addTask(text)` is `processItems(text)`;
  - `setAnimationFrame` records the frame and streams no text;
  - writer equality is equality of file names;
  - the indent unit and the text `indent()`/`unindent()` stream are parameters.
- WriteQueue.Move: the move constructor first runs `WriteItem()` (W:66), whose member initialisers are in the header. The model assumes they give a synchronous item that is not ready. The moved-from item's empty data rests on `m_isAsync` defaulting to false, so that `getData` returns the default-constructed, empty `m_data`.
- The generic `printList` template and the `AttrListColor` and `AttrListPlugin` printers are also header-only. They are parameters of the codec (`Fmt`).
- The `AttrListString` overload is header-only too, and only the list name and items-per-line it passes are parameters (`Fmt.stringListName`, `Fmt.stringListItemsPerLine`). The string list itself is printed by the visible `printList<std::string>`, as written (W:294-322).
- ValueCodec.ValueListWrapping: the elements reach the abstract `printList` already rendered at the list's own depth. The source streams each element inside `printList`, where a nested list would see the depth the template sets, and the template is not part of this model.
- ValueCodec.AttrLine: what `KVPair<AttrValue>` does with the writer's animation frame is abstract (`Fmt.animatedValue`), because that printer is header-only. The model passes it the frame the writer holds.
- ValueCodec.AttrLine: it is shaped on W:328, and like ValueCodec.StringPairText it evaluates that line's chain `pp << pp.indent() << … << pp.unindent()` left to right, so the value is printed at depth + 1. C++17 guarantees that order for overloaded `<<`. An older standard leaves the order of the two calls open, and the model does not cover the other order.
- PluginWriter.NewWriter: `set_export_file` builds its writers with a `const char*` constructor (F:61) that is not part of this model. Its initial depth, frame, queue and format are assumed to be those of the `PyObject*` constructor (W:76-83).
- PluginWriter.NewWriter: the animation frame is a `float` that starts at `-FLT_MAX` (W:79) and is set from an integer frame. The model uses `Option<int>`, with `None` for that initial value. A fractional scene frame is not modelled.
- `KVPair<AttrValue>` is header-only too. Its line is modelled on the visible `KVPair<std::string>` printer (W:325-329), with the value rendered by the codec and no quotes added.
- The text of `%d`, `%.4f` and `%g`, `StripString`, and the `TraceTransformHex`/`getStringHex` byte layout are abstract functions, because they are floating point or not shown.
- Blender RNA reads become fields of plain records (`Raw`, `SceneObject`, `DupliObject`, `Node`). The dupli list iteration becomes a sequence.
- The Python `write` call is an append to a `seq<string>` sink. `good()` is taken to hold: a writer always has its file.
- `ThreadManager`, the atomic ready flag and the 1 ms sleep-poll are left out. A worker's completion is an explicit event. The flush asks that every item be ready, because the source would wait forever otherwise.
- `GetPluginDescription` is an abstract map from plugin ID to category (`typeOf`), because the JSON plugin description loader is not part of this model.
- `is_interrupted` reads the engine's break flag. It becomes an oracle: `breakAt`, the number of checks after which the flag is up, combined with a count of checks made.
- The id cache's class is not part of this model. Override ids and object identities are therefore kept as separate key spaces (`OverrideKey` and `ObjectKey`).
- MurmurHash persistent ids, object pointers cast to ids, and the dupli transform's matrix inversion and product are given as input values.
- The motion-blur duration and offset arithmetic (S:169-195) is left out because it is floating point. Only the motion-blur flag is modelled.
- Settings that are plain copies of property reads with no rule attached are left out. Examples are the output paths, the DR share name, the verbosity and the viewport resolution.
- `sync_object`'s `exportObject`/`exportLight` calls are recorded as an export entry, because the data exporter is not part of this model.
- `sync_object` resets the object's `data_updated` property for every newly cached object, hidden or not (X:711). That property write is not modelled.
- SceneSync.SyncObject: the key is chosen by `if (override)` (X:678) but inserted by `if (override.override)` (X:685). `ObjectOverridesAttrs::operator bool` is not part of this model, so one key (`KeyOf`) serves both tests. This assumes the conversion returns the `override` flag.
- `export_animation`, `sync_view`, drawing and the texture update tagging are I/O, timing, user interface or floating point.
- `GetConnectedSocket`, `GetConnectedNode`, `GetNodeTree` and `GetGroupNodeTree` are not part of this model.
- ValueCodec.Vector2Text: states the relation to `Vector` only for a `%g` that prints zero as `0`, because `%g` itself is abstract.
- VrsceneExporter.Sync: requires that no item is pending. The source's flush would block until workers finish, and workers are not modelled.

## Findings

| source | as written | input that shows it | evidently intended | confidence | as-written member | corrected member |
|---|---|---|---|---|---|---|
| intern/vray_for_blender_rt/src/plugin_exporter/vfb_plugin_writer.cpp:317-321 | The string-list printer writes the closing `)` only when items-per-line is positive. | `["a"]` with items-per-line 0 prints `List("a"`. | Every non-empty list is closed with `)`. | not executed | ValueCodec.SingleLineStringListUnclosed | ValueCodec.StringListClosed |
| intern/vray_for_blender_rt/src/plugin_exporter/vfb_plugin_exporter_file.cpp:184-188 | The frame rule dereferences the Settings writer even when none is set. | DR off, separate files on, only a lights file set, and a `LightOmni` record. | A missing Settings writer is simply not the chosen one, so the frame is set. | not executed | VrsceneExporter.ExportPluginNullSettingsWriter | VrsceneExporter.ExportPlugin |
| intern/vray_for_blender_rt/src/vfb_export_settings.cpp:208-220 | When the new override name matches no material, the previous override material is kept under the new name. | Override switched from `A` to `B`, where only `A` exists: the override stays `A`. | A name that no material has clears the override material. | not executed | ExportSettings.OverrideMaterialStale | ExportSettings.OverrideMaterial |
| intern/vray_for_blender_rt/src/vfb_scene_exporter.cpp:772-776 | Slots are counted for every visible non-light dupli, but only geometry fills a slot. | One visible dupli that is neither geometry nor light allocates one slot and fills none, so the instancer exports a default item. | Count exactly the duplis that fill a slot. | not executed | SceneSync.CountLeavesUnfilledSlot | SceneSync.SyncDupliInstancer |

=== FILE: base.dfy ===
/** Small shared vocabulary: an optional value (the source's null pointers and
    "not found" results) and the string helpers the exporter uses. */
module Base {

  /** A value that may be absent; `None` plays the role of a null pointer. */
  datatype Option<+T> = None | Some(value: T)

  /** Concatenation of a sequence of text pieces, in order. */
  function Concat(pieces: seq<string>): string
  {
    if |pieces| == 0 then "" else Concat(pieces[..|pieces| - 1]) + pieces[|pieces| - 1]
  }

  lemma ConcatAppend(a: seq<string>, b: seq<string>)
    ensures Concat(a + b) == Concat(a) + Concat(b)
    decreases |b|
  {
    if |b| == 0 {
      assert a + b == a;
    } else {
      assert (a + b)[..|a + b| - 1] == a + b[..|b| - 1];
      ConcatAppend(a, b[..|b| - 1]);
    }
  }

  lemma ConcatCons(x: string, rest: seq<string>)
    ensures Concat([x] + rest) == x + Concat(rest)
  {
    ConcatAppend([x], rest);
    assert [x][..0] == [];
  }

  /** `n` copies of `unit`, one after another. */
  function Repeat(unit: string, n: nat): (r: string)
    ensures |r| == n * |unit|
  {
    if n == 0 then "" else Repeat(unit, n - 1) + unit
  }

  /** True iff `sub` occurs in `s` starting at position `i`. */
  predicate OccursAt(s: string, sub: string, i: nat)
  {
    i + |sub| <= |s| && s[i..i + |sub|] == sub
  }

  /** `std::string::find(sub) != npos`: the first position at or after `from`
      where `sub` occurs, if any. */
  function FindFrom(s: string, sub: string, from: nat): (r: Option<nat>)
    ensures r.Some? ==> from <= r.value && OccursAt(s, sub, r.value)
    ensures r.Some? ==> forall j :: from <= j < r.value ==> !OccursAt(s, sub, j)
    ensures r.None? ==> forall j :: from <= j ==> !OccursAt(s, sub, j)
    decreases |s| - from
  {
    if from + |sub| > |s| then None
    else if s[from..from + |sub|] == sub then Some(from)
    else FindFrom(s, sub, from + 1)
  }

  /** True iff `sub` is a substring of `s`. */
  predicate Contains(s: string, sub: string)
  {
    FindFrom(s, sub, 0).Some?
  }

  lemma ContainsIff(s: string, sub: string)
    ensures Contains(s, sub) <==> exists i: nat :: OccursAt(s, sub, i)
  {
    var r := FindFrom(s, sub, 0);
    if r.Some? {
      assert OccursAt(s, sub, r.value);
    }
  }
}

=== FILE: export_settings.dfy ===
/** `ExporterSettings`: the exporter's settings, derived from what the scene
    and the add-on's property groups say.  The property reads are a plain
    input record (`Raw`); the derivation applies the overrides that preview,
    viewport and bake rendering force.  Some settings are only assigned on
    some paths and otherwise keep their value from the previous update, so
    `Update` also takes the previous settings. */
module ExportSettings {
  import opened Base
  import opened ValueCodec

  datatype ActiveLayers = ActiveLayersScene | ActiveLayersAll | ActiveLayersCustom
  datatype AnimationMode = AnimationModeNone | AnimationModeCameraLoop | AnimationModeOther(code: int)
  datatype ExporterType = ExporterTypeFile | ExporterTypeOther(code: int)
  /** The `work_mode` property is read as a plain integer and cast, so a
      value outside the three named modes is kept as it is. */
  datatype WorkMode = WorkModeRender | WorkModeRenderAndExport | WorkModeExportOnly | WorkModeOther(code: int)
  datatype RenderMode = RenderModeProduction | RenderModeOther(code: int)
  datatype ImageType = ImageTypeRgbaReal | ImageTypeOther(code: int)

  /** An object of the scene, as the camera-loop scan reads it. */
  datatype LoopObject = LoopObject(isCamera: bool, useCameraLoop: bool, hideFromView: bool)

  /** The scene camera's V-Ray settings. */
  datatype SceneCamera = SceneCamera(
    isCamera: bool,
    physicalUse: bool,           // CameraPhysical.use
    physicalMoblur: bool,        // CameraPhysical.use_moblur
    physicalType: int,           // CameraPhysical.type: 0 still, 1 cinematic, 2 video
    stereoUse: bool,             // CameraStereoscopic is set and its `use`
    leftCam: string,
    rightCam: string,
    hideFromView: bool,
    motionBlurOn: bool)          // SettingsMotionBlur.on

  /** Everything `update` reads. */
  datatype Raw = Raw(
    isViewport: bool,            // a 3D view was given
    isPreview: bool,             // the engine is a material preview
    drOn: bool,                  // VRayDR.on
    autoMeshes: bool,
    dataFormat: ExportFormat,
    bakeViewUse: bool,
    bakeObject: Option<string>,  // currentBakeObject, None when null
    useSeparateFiles: bool,
    activeLayers: ActiveLayers,
    customLayers: seq<bool>,
    animationMode: AnimationMode,
    frameStart: int,
    frameCurrent: int,
    frameStep: int,
    sceneObjects: seq<LoopObject>,
    camera: Option<SceneCamera>, // scene.camera, None when null
    stereoSceneUse: bool,        // VRayStereoscopicSettings is set and its `use`
    objectNames: seq<string>,    // names of data.objects, in order
    mtlOverrideOn: bool,
    mtlOverride: string,
    materials: seq<string>,      // names of data.materials, in order
    backend: ExporterType,
    workMode: WorkMode,
    zmqPort: int,
    zmqAddress: string,
    viewportRenderMode: RenderMode,
    renderMode: RenderMode,
    viewportImageType: ImageType,
    display: bool)

  datatype Settings = Settings(
    isViewport: bool,
    isPreview: bool,
    drUse: bool,
    exportMeshes: bool,
    exportFileFormat: ExportFormat,
    useBakeView: bool,
    currentBakeObject: Option<string>,
    useSeparate: bool,
    useActiveLayers: ActiveLayers,
    activeLayers: seq<bool>,
    animationMode: AnimationMode,
    animationUse: bool,
    frameStart: int,
    frameCurrent: int,
    frameStep: int,
    useHideFromView: bool,
    usePhysicalCamera: bool,
    useStereoCamera: bool,
    stereoLeft: Option<string>,
    stereoRight: Option<string>,
    useMotionBlur: bool,
    overrideMaterialName: string,
    overrideMaterial: Option<string>,
    exporterType: ExporterType,
    workMode: WorkMode,
    zmqPort: int,
    zmqAddress: string,
    renderMode: RenderMode,
    viewportImageType: ImageType,
    showVfb: bool)

  /** The constructor's values: meshes exported, every object pointer null.
      Members the constructor leaves unset get a fixed value here. */
  const Initial: Settings := Settings(
    false, false, false, true, ExportFormatASCII, false, None, false, ActiveLayersScene, [],
    AnimationModeNone, false, 0, 0, 1, false, false, false, None, None, false, "", None,
    ExporterTypeFile, WorkModeRender, 0, "", RenderModeProduction, ImageTypeRgbaReal, false)

  const DefaultZmqAddress: string := "127.0.0.1"

  // ---------------------------------------------------------------------
  // Mode flags

  /** Bake view is kept only when asked for outside viewport and preview and
      a bake object is set.  The object is re-read only when the request
      passes the first test; otherwise the previous one is kept. */
  function BakeObject(raw: Raw, prev: Settings): Option<string>
  {
    if raw.bakeViewUse && !raw.isViewport && !raw.isPreview then raw.bakeObject else prev.currentBakeObject
  }

  function UseBakeView(raw: Raw, prev: Settings): (b: bool)
    ensures b <==> raw.bakeViewUse && !raw.isViewport && !raw.isPreview && raw.bakeObject.Some?
  {
    var requested := raw.bakeViewUse && !raw.isViewport && !raw.isPreview;
    requested && BakeObject(raw, prev).Some?
  }

  /** The animation mode `update` settles on: off when preview, viewport or
      bake view force it off or the scene has none, and otherwise the scene's. */
  function AnimationModeOf(raw: Raw, prev: Settings): (m: AnimationMode)
    ensures m == AnimationModeNone <==>
      raw.isPreview || raw.isViewport || UseBakeView(raw, prev) || raw.animationMode == AnimationModeNone
    ensures m != AnimationModeNone ==> m == raw.animationMode
  {
    if raw.isPreview || raw.isViewport || UseBakeView(raw, prev) then AnimationModeNone else raw.animationMode
  }

  // ---------------------------------------------------------------------
  // Stereo cameras

  /** The state of the scan for the two stereo cameras: how many matches so
      far and where the left and right camera were found. */
  datatype Scan = Scan(found: nat, left: Option<nat>, right: Option<nat>)

  /** The loop over `data.objects` that stops after two matches; a name
      equal to the left camera's is never taken as the right one. */
  function ScanFrom(names: seq<string>, leftName: string, rightName: string, i: nat, acc: Scan): Scan
    requires i <= |names|
    decreases |names| - i
  {
    if acc.found >= 2 || i == |names| then acc
    else if names[i] == leftName then ScanFrom(names, leftName, rightName, i + 1, acc.(found := acc.found + 1, left := Some(i)))
    else if names[i] == rightName then ScanFrom(names, leftName, rightName, i + 1, acc.(found := acc.found + 1, right := Some(i)))
    else ScanFrom(names, leftName, rightName, i + 1, acc)
  }

  function ScanCameras(names: seq<string>, leftName: string, rightName: string): Scan
  {
    ScanFrom(names, leftName, rightName, 0, Scan(0, None, None))
  }

  ghost predicate Distinct(names: seq<string>)
  {
    forall i, j :: 0 <= i < j < |names| ==> names[i] != names[j]
  }

  function Count(b: bool): nat { if b then 1 else 0 }

  /** What the scan knows after looking at `names[..i]`. */
  ghost predicate ScanInv(names: seq<string>, leftName: string, rightName: string, i: nat, s: Scan)
  {
    i <= |names| && s.found <= 2 &&
    s.found >= Count(s.left.Some?) + Count(s.right.Some?) &&
    (Distinct(names) ==> s.found == Count(s.left.Some?) + Count(s.right.Some?)) &&
    (s.left.Some? ==> s.left.value < i && names[s.left.value] == leftName) &&
    (s.right.Some? ==> s.right.value < i && names[s.right.value] == rightName && rightName != leftName) &&
    (s.found < 2 ==>
      (forall k :: 0 <= k < i && names[k] == leftName ==> s.left.Some?) &&
      (forall k :: 0 <= k < i && names[k] == rightName && rightName != leftName ==> s.right.Some?))
  }

  lemma {:induction false} ScanFromInv(names: seq<string>, leftName: string, rightName: string, i: nat, acc: Scan)
    requires ScanInv(names, leftName, rightName, i, acc)
    ensures ScanInv(names, leftName, rightName, |names|, ScanFrom(names, leftName, rightName, i, acc))
            || ScanFrom(names, leftName, rightName, i, acc).found == 2
    ensures var r := ScanFrom(names, leftName, rightName, i, acc);
      r.found <= 2 && r.found >= Count(r.left.Some?) + Count(r.right.Some?) &&
      (Distinct(names) ==> r.found == Count(r.left.Some?) + Count(r.right.Some?)) &&
      (r.left.Some? ==> r.left.value < |names| && names[r.left.value] == leftName) &&
      (r.right.Some? ==> r.right.value < |names| && names[r.right.value] == rightName && rightName != leftName)
    decreases |names| - i
  {
    if acc.found >= 2 || i == |names| {
    } else if names[i] == leftName {
      var next := acc.(found := acc.found + 1, left := Some(i));
      if acc.left.Some? {
        assert acc.left.value < i && names[acc.left.value] == names[i];
      }
      ScanFromInv(names, leftName, rightName, i + 1, next);
    } else if names[i] == rightName {
      var next := acc.(found := acc.found + 1, right := Some(i));
      if acc.right.Some? {
        assert acc.right.value < i && names[acc.right.value] == names[i];
      }
      ScanFromInv(names, leftName, rightName, i + 1, next);
    } else {
      ScanFromInv(names, leftName, rightName, i + 1, acc);
    }
  }

  /** Both cameras are found when both names occur and differ; with Blender's
      unique object names the scan finds two matches exactly then, and the
      indices it reports hold the two names. */
  lemma ScanCamerasFinds(names: seq<string>, leftName: string, rightName: string)
    ensures var r := ScanCameras(names, leftName, rightName);
      (r.left.Some? ==> r.left.value < |names| && names[r.left.value] == leftName) &&
      (r.right.Some? ==> r.right.value < |names| && names[r.right.value] == rightName) &&
      (leftName != rightName && leftName in names && rightName in names ==> r.found == 2)
    ensures Distinct(names) ==>
      (ScanCameras(names, leftName, rightName).found == 2 <==>
        leftName != rightName && leftName in names && rightName in names)
  {
    var r := ScanCameras(names, leftName, rightName);
    ScanFromInv(names, leftName, rightName, 0, Scan(0, None, None));
    if leftName != rightName && leftName in names && rightName in names {
      var p :| 0 <= p < |names| && names[p] == leftName;
      var q :| 0 <= q < |names| && names[q] == rightName;
    }
  }

  // ---------------------------------------------------------------------
  // Camera-dependent settings

  /** The settings the camera part of `update` assigns. */
  datatype CameraSettings = CameraSettings(
    useHideFromView: bool, usePhysicalCamera: bool, useStereoCamera: bool,
    stereoLeft: Option<string>, stereoRight: Option<string>, useMotionBlur: bool)

  /** The first scene object that is a loop camera hiding from view. */
  function LoopCameraHides(objs: seq<LoopObject>): (b: bool)
    ensures b <==> exists i :: 0 <= i < |objs| && objs[i].isCamera && objs[i].useCameraLoop && objs[i].hideFromView
  {
    if |objs| == 0 then false
    else if objs[0].isCamera && objs[0].useCameraLoop && objs[0].hideFromView then true
    else
      var rest := LoopCameraHides(objs[1..]);
      assert forall i :: 1 <= i < |objs| ==> objs[i] == objs[1..][i - 1];
      rest
  }

  /** Motion blur as the camera asks for it: a physical camera's flag when
      its type is still, cinematic or video, otherwise the motion blur
      settings' flag. */
  function CameraMotionBlur(c: SceneCamera): bool
  {
    if c.physicalUse then c.physicalMoblur && 0 <= c.physicalType <= 2 else c.motionBlurOn
  }

  function CameraPart(raw: Raw, prev: Settings, mode: AnimationMode): (r: CameraSettings)
    ensures mode == AnimationModeCameraLoop ==> !r.useMotionBlur && !r.useStereoCamera && !r.usePhysicalCamera
    ensures mode == AnimationModeCameraLoop ==>
      (r.useHideFromView <==> prev.useHideFromView || exists i :: 0 <= i < |raw.sceneObjects| && raw.sceneObjects[i].isCamera && raw.sceneObjects[i].useCameraLoop && raw.sceneObjects[i].hideFromView)
    ensures mode != AnimationModeCameraLoop && raw.camera.Some? && raw.camera.value.isCamera ==>
      var c := raw.camera.value;
      r.useHideFromView == c.hideFromView && r.usePhysicalCamera == c.physicalUse &&
      (r.useStereoCamera ==> raw.stereoSceneUse && c.stereoUse) &&
      (c.physicalUse ==> (r.useMotionBlur <==> c.physicalMoblur && c.physicalType in {0, 1, 2})) &&
      (!c.physicalUse ==> r.useMotionBlur == c.motionBlurOn)
    ensures mode != AnimationModeCameraLoop && (raw.camera.None? || !raw.camera.value.isCamera) ==>
      r.useHideFromView == prev.useHideFromView && !r.usePhysicalCamera && !r.useStereoCamera && !r.useMotionBlur &&
      r.stereoLeft == prev.stereoLeft && r.stereoRight == prev.stereoRight
  {
    if mode == AnimationModeCameraLoop then
      CameraSettings(prev.useHideFromView || LoopCameraHides(raw.sceneObjects), false, false, prev.stereoLeft, prev.stereoRight, false)
    else match raw.camera
      case Some(c) =>
        if c.isCamera then
          var stereo := raw.stereoSceneUse && c.stereoUse;
          var scan := if stereo then ScanCameras(raw.objectNames, c.leftCam, c.rightCam) else Scan(0, None, None);
          CameraSettings(
            c.hideFromView, c.physicalUse, stereo && scan.found == 2,
            if scan.left.Some? then Some(c.leftCam) else prev.stereoLeft,
            if scan.right.Some? then Some(c.rightCam) else prev.stereoRight,
            CameraMotionBlur(c))
        else CameraSettings(prev.useHideFromView, false, false, prev.stereoLeft, prev.stereoRight, false)
      case None => CameraSettings(prev.useHideFromView, false, false, prev.stereoLeft, prev.stereoRight, false)
  }

  // ---------------------------------------------------------------------
  // Override material

  /** The first material with the given name. */
  function FindMaterial(materials: seq<string>, name: string): (r: Option<string>)
    ensures r.Some? <==> name in materials
    ensures r.Some? ==> r.value == name
  {
    if |materials| == 0 then None
    else if materials[0] == name then Some(name)
    else FindMaterial(materials[1..], name)
  }

  /** The override material name: set only while the override is on. */
  function OverrideName(raw: Raw): string
  {
    if raw.mtlOverrideOn then raw.mtlOverride else ""
  }

  /** The override material as the source updates it: a changed, non-empty
      name is looked up, and when no material has it the previous material
      stays. */
  function OverrideMaterialAsWritten(raw: Raw, prev: Settings): Option<string>
  {
    var name := OverrideName(raw);
    if name == prev.overrideMaterialName then prev.overrideMaterial
    else if name == "" then None
    else match FindMaterial(raw.materials, name)
      case Some(m) => Some(m)
      case None => prev.overrideMaterial
  }

  /** The intended update: a changed name that no material has clears the
      override material. */
  function OverrideMaterial(raw: Raw, prev: Settings): (r: Option<string>)
    ensures OverrideName(raw) != prev.overrideMaterialName ==>
      (r.Some? <==> OverrideName(raw) != "" && OverrideName(raw) in raw.materials)
    ensures OverrideName(raw) != prev.overrideMaterialName && r.Some? ==> r.value == OverrideName(raw)
  {
    var name := OverrideName(raw);
    if name == prev.overrideMaterialName then prev.overrideMaterial
    else if name == "" then None
    else FindMaterial(raw.materials, name)
  }

  /** The two agree whenever the name is unchanged, empty or found. */
  lemma OverrideMaterialAgrees(raw: Raw, prev: Settings)
    ensures (OverrideName(raw) == prev.overrideMaterialName || OverrideName(raw) == "" || OverrideName(raw) in raw.materials)
      ==> OverrideMaterialAsWritten(raw, prev) == OverrideMaterial(raw, prev)
  {
  }

  /** Switching the override to a name no material has keeps the material of
      the previous name. */
  lemma OverrideMaterialStale(raw: Raw, prev: Settings)
    requires raw.mtlOverrideOn && raw.mtlOverride == "B" && raw.materials == ["A"]
    requires prev.overrideMaterialName == "A" && prev.overrideMaterial == Some("A")
    ensures OverrideMaterialAsWritten(raw, prev) == Some("A")
    ensures OverrideMaterial(raw, prev) == None
  {
  }

  // ---------------------------------------------------------------------
  // update

  /** What `update` takes over from the previous settings, resolved against
      the new inputs: the bake object, the animation mode, the camera part,
      the custom layers and the override material. */
  datatype Carried = Carried(
    bakeObject: Option<string>, useBakeView: bool, mode: AnimationMode, cam: CameraSettings,
    activeLayers: seq<bool>, overrideMaterial: Option<string>)

  function CarriedOf(raw: Raw, prev: Settings): Carried
  {
    var layers := if raw.isPreview then ActiveLayersScene else raw.activeLayers;
    var mode := AnimationModeOf(raw, prev);
    Carried(
      BakeObject(raw, prev), UseBakeView(raw, prev), mode, CameraPart(raw, prev, mode),
      if layers == ActiveLayersCustom then raw.customLayers else prev.activeLayers,
      OverrideMaterialAsWritten(raw, prev))
  }

  /** The settings record `update` leaves, from the new inputs and what it
      carried over. */
  function Assemble(raw: Raw, c: Carried): Settings
  {
    var meshes0 := if raw.isPreview then true else raw.autoMeshes;
    var renderMode :=
      if raw.isViewport then raw.viewportRenderMode
      else if raw.isPreview || c.mode != AnimationModeNone then RenderModeProduction
      else raw.renderMode;
    Settings(
      isViewport := raw.isViewport,
      isPreview := raw.isPreview,
      drUse := raw.drOn && !raw.isPreview,
      exportMeshes := if raw.backend != ExporterTypeFile then true else meshes0,
      exportFileFormat := if raw.isPreview then ExportFormatZIP else raw.dataFormat,
      useBakeView := c.useBakeView,
      currentBakeObject := c.bakeObject,
      useSeparate := raw.useSeparateFiles,
      useActiveLayers := if raw.isPreview then ActiveLayersScene else raw.activeLayers,
      activeLayers := c.activeLayers,
      animationMode := c.mode,
      animationUse := c.mode != AnimationModeNone,
      frameStart := raw.frameStart,
      frameCurrent := raw.frameCurrent,
      frameStep := raw.frameStep,
      useHideFromView := c.cam.useHideFromView,
      usePhysicalCamera := c.cam.usePhysicalCamera,
      useStereoCamera := c.cam.useStereoCamera,
      stereoLeft := c.cam.stereoLeft,
      stereoRight := c.cam.stereoRight,
      useMotionBlur := c.cam.useMotionBlur && !c.useBakeView && !raw.isPreview,
      overrideMaterialName := OverrideName(raw),
      overrideMaterial := c.overrideMaterial,
      exporterType := raw.backend,
      workMode := raw.workMode,
      zmqPort := raw.zmqPort,
      zmqAddress := if raw.zmqAddress == "" then DefaultZmqAddress else raw.zmqAddress,
      renderMode := renderMode,
      viewportImageType := if raw.isViewport then raw.viewportImageType else ImageTypeRgbaReal,
      showVfb := !raw.isViewport && raw.workMode != WorkModeExportOnly && !raw.isPreview && raw.display)
  }

  /** `ExporterSettings::update`: the raw inputs against the previous
      settings. */
  function Update(raw: Raw, prev: Settings): Settings
  {
    Assemble(raw, CarriedOf(raw, prev))
  }

  /** Preview forces the ZIP format, mesh export and no distributed
      rendering, and takes the preview scene's layers. */
  lemma UpdatePreview(raw: Raw, prev: Settings)
    ensures var s := Update(raw, prev);
      (raw.isPreview ==> s.exportFileFormat == ExportFormatZIP && s.exportMeshes && !s.drUse && s.useActiveLayers == ActiveLayersScene) &&
      (!raw.isPreview ==> s.exportFileFormat == raw.dataFormat && (s.drUse <==> raw.drOn))
  {
  }

  /** Meshes are exported under preview, when asked for, and always for an
      exporter other than the file exporter. */
  lemma UpdateExportMeshes(raw: Raw, prev: Settings)
    ensures Update(raw, prev).exportMeshes <==> raw.isPreview || raw.autoMeshes || raw.backend != ExporterTypeFile
  {
  }

  /** Bake view holds iff it is asked for outside viewport and preview and a
      bake object is set; that object is then the current one. */
  lemma UpdateBakeView(raw: Raw, prev: Settings)
    ensures var s := Update(raw, prev);
      (s.useBakeView <==> raw.bakeViewUse && !raw.isViewport && !raw.isPreview && raw.bakeObject.Some?) &&
      (s.useBakeView ==> s.currentBakeObject == raw.bakeObject)
  {
  }

  /** Preview, viewport and bake view force no animation; otherwise the mode
      is the scene's; animation is used iff the mode is not None. */
  lemma UpdateAnimation(raw: Raw, prev: Settings)
    ensures var s := Update(raw, prev);
      ((raw.isPreview || raw.isViewport || s.useBakeView) ==> s.animationMode == AnimationModeNone) &&
      (!(raw.isPreview || raw.isViewport || s.useBakeView) ==> s.animationMode == raw.animationMode) &&
      (s.animationUse <==> s.animationMode != AnimationModeNone)
  {
  }

  /** No motion blur under bake view, preview or the camera loop. */
  lemma UpdateMotionBlur(raw: Raw, prev: Settings)
    ensures var s := Update(raw, prev);
      (s.useBakeView || raw.isPreview || s.animationMode == AnimationModeCameraLoop) ==> !s.useMotionBlur
  {
  }

  /** The viewport takes its own render mode and image type; otherwise
      preview or animation force the production mode and the image type is
      RGBA float. */
  lemma UpdateRenderMode(raw: Raw, prev: Settings)
    ensures var s := Update(raw, prev);
      (raw.isViewport ==> s.renderMode == raw.viewportRenderMode && s.viewportImageType == raw.viewportImageType) &&
      (!raw.isViewport && (raw.isPreview || s.animationUse) ==> s.renderMode == RenderModeProduction) &&
      (!raw.isViewport && !raw.isPreview && !s.animationUse ==> s.renderMode == raw.renderMode) &&
      (!raw.isViewport ==> s.viewportImageType == ImageTypeRgbaReal)
  {
  }

  /** The frame buffer window is shown only outside viewport, export-only
      mode and preview, and only when asked for. */
  lemma UpdateShowVfb(raw: Raw, prev: Settings)
    ensures Update(raw, prev).showVfb <==>
      !raw.isViewport && raw.workMode != WorkModeExportOnly && !raw.isPreview && raw.display
  {
  }

  /** With unique object names, the stereo camera is used iff the scene and
      its camera ask for it outside the camera loop and both named cameras
      exist under different names. */
  lemma UpdateStereo(raw: Raw, prev: Settings)
    requires Distinct(raw.objectNames)
    ensures Update(raw, prev).useStereoCamera <==>
      AnimationModeOf(raw, prev) != AnimationModeCameraLoop &&
      raw.camera.Some? && raw.camera.value.isCamera && raw.stereoSceneUse && raw.camera.value.stereoUse &&
      raw.camera.value.leftCam != raw.camera.value.rightCam &&
      raw.camera.value.leftCam in raw.objectNames && raw.camera.value.rightCam in raw.objectNames
  {
    if raw.camera.Some? {
      ScanCamerasFinds(raw.objectNames, raw.camera.value.leftCam, raw.camera.value.rightCam);
    }
  }

  /** An empty server address becomes the local host; the override name is
      the scene's only while the override is on. */
  lemma UpdateZmqAndOverride(raw: Raw, prev: Settings)
    ensures var s := Update(raw, prev);
      s.zmqAddress == (if raw.zmqAddress == "" then DefaultZmqAddress else raw.zmqAddress) &&
      s.zmqAddress != "" &&
      s.overrideMaterialName == (if raw.mtlOverrideOn then raw.mtlOverride else "")
  {
  }

  /** The override material `update` leaves: the previous one while the
      name is unchanged, none for a changed empty name, the material of a
      changed name that a material has, and -- as written -- the previous
      material again for a changed name that no material has. */
  lemma UpdateOverrideMaterial(raw: Raw, prev: Settings)
    ensures var s := Update(raw, prev); var name := OverrideName(raw);
      (name == prev.overrideMaterialName ==> s.overrideMaterial == prev.overrideMaterial) &&
      (name != prev.overrideMaterialName && name == "" ==> s.overrideMaterial == None) &&
      (name != prev.overrideMaterialName && name != "" && name in raw.materials ==> s.overrideMaterial == Some(name)) &&
      (name != prev.overrideMaterialName && name != "" && name !in raw.materials ==> s.overrideMaterial == prev.overrideMaterial)
  {
    var name := OverrideName(raw);
    if name != prev.overrideMaterialName && name != "" {
      OverrideMaterialAgrees(raw, prev);
      var found := OverrideMaterial(raw, prev);
      assert found == FindMaterial(raw.materials, name);
    }
  }

  /** Updating twice from the same scene gives the same settings as once:
      nothing carried over from the previous settings changes again. */
  lemma UpdateIdempotent(raw: Raw, prev: Settings)
    ensures Update(raw, Update(raw, prev)) == Update(raw, prev)
  {
    CarriedStable(raw, prev);
  }

  /** Updating again against the result carries over the same values. */
  lemma CarriedStable(raw: Raw, prev: Settings)
    ensures CarriedOf(raw, Update(raw, prev)) == CarriedOf(raw, prev)
  {
    var c := CarriedOf(raw, prev);
    var s := Assemble(raw, c);
    assert s.currentBakeObject == c.bakeObject && s.activeLayers == c.activeLayers;
    assert BakeObject(raw, s) == c.bakeObject;
    assert UseBakeView(raw, s) == c.useBakeView;
    assert AnimationModeOf(raw, s) == c.mode;
    CameraPartStable(raw, prev, s, c.mode);
    assert OverrideMaterialAsWritten(raw, s) == c.overrideMaterial;
  }

  /** The camera part only reads the previous hide-from-view flag and stereo
      cameras, and keeps them or overwrites them. */
  lemma CameraPartStable(raw: Raw, prev: Settings, s: Settings, mode: AnimationMode)
    requires s.useHideFromView == CameraPart(raw, prev, mode).useHideFromView
    requires s.stereoLeft == CameraPart(raw, prev, mode).stereoLeft
    requires s.stereoRight == CameraPart(raw, prev, mode).stereoRight
    ensures CameraPart(raw, s, mode) == CameraPart(raw, prev, mode)
  {
  }

  // ---------------------------------------------------------------------
  // Frame queries

  /** `is_first_frame`. */
  function IsFirstFrame(s: Settings): (b: bool)
    ensures b <==> !s.animationUse || s.frameCurrent == s.frameStart
  {
    if !s.animationUse then true
    else if s.frameCurrent == s.frameStart then true
    else false
  }

  /** `check_data_updates`: only an animation past its start frame asks for
      a check. */
  function CheckDataUpdates(s: Settings): bool
  {
    if s.animationUse && s.frameCurrent > s.frameStart then true else false
  }

  /** After an update, the frame counts as the first exactly when preview,
      viewport or bake view switched animation off, the scene has no
      animation, or the current frame is the start frame. */
  lemma UpdateFirstFrame(raw: Raw, prev: Settings)
    ensures IsFirstFrame(Update(raw, prev)) <==>
      raw.isPreview || raw.isViewport || UseBakeView(raw, prev) ||
      raw.animationMode == AnimationModeNone || raw.frameCurrent == raw.frameStart
  {
  }

  /** After an update, a data-update check is asked for exactly when
      animation is on and the current frame lies past the start frame. */
  lemma UpdateCheckDataUpdates(raw: Raw, prev: Settings)
    ensures CheckDataUpdates(Update(raw, prev)) <==>
      !(raw.isPreview || raw.isViewport || UseBakeView(raw, prev)) &&
      raw.animationMode != AnimationModeNone && raw.frameCurrent > raw.frameStart
  {
  }

  /** The first frame never asks for a data-update check. */
  lemma FirstFrameNeedsNoUpdateCheck(s: Settings)
    ensures !(IsFirstFrame(s) && CheckDataUpdates(s))
  {
  }

  /** A check is asked for exactly on the frames after the first one that
      lie past the start frame: a frame before the start asks for none. */
  lemma UpdateCheckAfterFirstFrame(s: Settings)
    ensures CheckDataUpdates(s) <==> !IsFirstFrame(s) && s.frameCurrent > s.frameStart
    ensures s.animationUse && s.frameCurrent < s.frameStart ==> !IsFirstFrame(s) && !CheckDataUpdates(s)
  {
  }
}

=== FILE: exporter_file.dfy ===
/** `VrsceneExporter`: routes every exported plugin record to one of the
    vrscene files the user configured, and frames the record there.

    Writers are identified by the file name they were created for: the file
    map holds at most one writer per name, and the per-category map holds
    names.  A category with no entry plays the role of a null writer pointer
    (the source's `operator[]` lookups insert null entries, which nothing
    observes).  `PluginWriter::operator==` is taken to be identity, i.e.
    equality of file names. */
module VrsceneExporter {
  import opened Base
  import opened WriteQueue
  import opened ValueCodec
  import opened PluginWriter

  /** The plugin categories `ParamDesc::PluginType` names here; any other
      category is carried by its code. */
  datatype PluginType =
    | PluginChannel | PluginFilter | PluginSettings
    | PluginBRDF | PluginMaterial
    | PluginTexture | PluginUvwgen
    | PluginGeometry | PluginObject | PluginLight
    | PluginOther(code: int)

  /** The exporter settings the file exporter reads. */
  datatype FileOptions = FileOptions(
    format: ExportFormat,     // export_file_format
    drUse: bool,              // settings_dr.use
    useSeparate: bool,        // settings_files.use_separate
    animationUse: bool,       // settings_animation.use
    useMotionBlur: bool)      // use_motion_blur

  datatype Exporter = Exporter(
    fileWriters: map<string, Writer>,     // m_fileWritersMap
    writers: map<PluginType, string>,     // m_Writers, by file name
    synced: bool)                         // m_Synced

  const NewExporter: Exporter := Exporter(map[], map[], false)

  // ---------------------------------------------------------------------
  // set_export_file

  /** The alias group a category belongs to. */
  datatype Group = Channels | Materials | Textures | Alone(t: PluginType)

  function GroupOf(t: PluginType): Group
  {
    match t
    case PluginChannel | PluginFilter | PluginSettings => Channels
    case PluginBRDF | PluginMaterial => Materials
    case PluginTexture | PluginUvwgen => Textures
    case _ => Alone(t)
  }

  /** The categories that share one writer: setting a file for any member of
      a group binds the whole group. */
  function AliasGroup(t: PluginType): (g: set<PluginType>)
    ensures t in g
  {
    match t
    case PluginChannel | PluginFilter | PluginSettings => {PluginChannel, PluginFilter, PluginSettings}
    case PluginBRDF | PluginMaterial => {PluginBRDF, PluginMaterial}
    case PluginTexture | PluginUvwgen => {PluginTexture, PluginUvwgen}
    case _ => {t}
  }

  /** Two categories share a group iff they have the same group: the alias
      groups partition the categories. */
  lemma AliasGroupIff(t: PluginType, u: PluginType)
    ensures u in AliasGroup(t) <==> GroupOf(u) == GroupOf(t)
  {
  }

  ghost predicate FilesNamed(fw: map<string, Writer>)
  {
    forall n :: n in fw ==> fw[n].file == n
  }

  ghost predicate Mapped(writers: map<PluginType, string>, fw: map<string, Writer>)
  {
    forall t :: t in writers ==> writers[t] in fw
  }

  ghost predicate Coherent(writers: map<PluginType, string>)
  {
    forall t, u :: t in writers && u in AliasGroup(t) ==> u in writers && writers[u] == writers[t]
  }

  /** Every writer sits under its own file name, every category is mapped to
      an existing writer, and the categories of one alias group are mapped
      alike. */
  ghost predicate Valid(e: Exporter)
  {
    FilesNamed(e.fileWriters) && Mapped(e.writers, e.fileWriters) && Coherent(e.writers)
  }

  /** Bind every category of `group` to `name`, keeping the other bindings. */
  function Bind(writers: map<PluginType, string>, group: set<PluginType>, name: string): (r: map<PluginType, string>)
    ensures r.Keys == writers.Keys + group
    ensures forall u :: u in group ==> r[u] == name
    ensures forall u :: u in writers && u !in group ==> r[u] == writers[u]
  {
    map u | u in writers.Keys + group :: if u in group then name else writers[u]
  }

  /** `set_export_file(type, file)`.  `None` is the null Python file, which
      only logs an error. */
  function SetExportFile(e: Exporter, opts: FileOptions, t: PluginType, file: Option<string>): (r: Exporter)
    ensures file.None? ==> r == e
    ensures file.Some? ==> r.fileWriters.Keys == e.fileWriters.Keys + {file.value}
    ensures forall n :: n in e.fileWriters ==> n in r.fileWriters && r.fileWriters[n] == e.fileWriters[n]
    ensures file.Some? && file.value !in e.fileWriters ==> r.fileWriters[file.value] == NewWriter(file.value, opts.format)
    ensures file.Some? ==> r.writers.Keys == e.writers.Keys + AliasGroup(t)
    ensures file.Some? ==> forall u :: u in AliasGroup(t) ==> r.writers[u] == file.value
    ensures forall u :: u in e.writers && u !in AliasGroup(t) ==> u in r.writers && r.writers[u] == e.writers[u]
    ensures r.synced == e.synced
  {
    match file
    case None => e
    case Some(name) =>
      var fw := if name in e.fileWriters then e.fileWriters else e.fileWriters[name := NewWriter(name, opts.format)];
      Exporter(fw, Bind(e.writers, AliasGroup(t), name), e.synced)
  }

  /** Repeating a file name never creates a second writer: the number of
      writers is the number of distinct names set so far. */
  lemma SetExportFileReuses(e: Exporter, opts: FileOptions, t: PluginType, name: string)
    requires name in e.fileWriters
    ensures SetExportFile(e, opts, t, Some(name)).fileWriters == e.fileWriters
  {
  }

  lemma BindCoherent(writers: map<PluginType, string>, t: PluginType, name: string)
    requires Coherent(writers)
    ensures Coherent(Bind(writers, AliasGroup(t), name))
  {
    var r := Bind(writers, AliasGroup(t), name);
    forall a, b | a in r && b in AliasGroup(a)
      ensures b in r && r[b] == r[a]
    {
      AliasGroupIff(a, b);
      AliasGroupIff(t, a);
      AliasGroupIff(t, b);
      if a in AliasGroup(t) {
        assert b in AliasGroup(t);
      } else {
        assert b !in AliasGroup(t);
        assert a in writers;
        assert b in writers && writers[b] == writers[a];
      }
    }
  }

  lemma SetExportFileKeepsValid(e: Exporter, opts: FileOptions, t: PluginType, file: Option<string>)
    requires Valid(e)
    ensures Valid(SetExportFile(e, opts, t, file))
  {
    if file.Some? {
      var r := SetExportFile(e, opts, t, file);
      BindCoherent(e.writers, t, file.value);
      assert Mapped(r.writers, r.fileWriters);
      assert FilesNamed(r.fileWriters);
    }
  }

  // ---------------------------------------------------------------------
  // init, sync

  /** `init`: every writer takes the current export format. */
  function Init(e: Exporter, opts: FileOptions): (r: Exporter)
    ensures r.fileWriters.Keys == e.fileWriters.Keys
    ensures forall n :: n in r.fileWriters ==> r.fileWriters[n] == e.fileWriters[n].(format := opts.format)
    ensures r.writers == e.writers && r.synced == e.synced
  {
    e.(fileWriters := map n | n in e.fileWriters :: e.fileWriters[n].(format := opts.format))
  }

  lemma InitKeepsValid(e: Exporter, opts: FileOptions)
    requires Valid(e)
    ensures Valid(Init(e, opts))
  {
  }

  /** Nothing is pending in any writer. */
  ghost predicate Settled(e: Exporter)
  {
    forall n :: n in e.fileWriters ==> AllDone(e.fileWriters[n].queue.items)
  }

  /** `sync`: sets the synced flag and block-flushes every writer of the file
      map.  `blockFlushAll` waits for each pending item, so the model asks
      that nothing be pending. */
  function Sync(e: Exporter): (r: Exporter)
    requires Settled(e)
    ensures r.synced
    ensures r.writers == e.writers && r.fileWriters.Keys == e.fileWriters.Keys
    ensures forall n :: n in r.fileWriters ==>
      r.fileWriters[n].queue.items == [] &&
      r.fileWriters[n].queue.sink == e.fileWriters[n].queue.sink + Texts(e.fileWriters[n].queue.items)
    ensures forall n :: n in r.fileWriters ==> r.fileWriters[n].file == e.fileWriters[n].file
  {
    Exporter(map n | n in e.fileWriters :: FlushWriter(e.fileWriters[n]), e.writers, true)
  }

  // ---------------------------------------------------------------------
  // export_plugin_impl: routing

  /** Geometry plugins other than the static mesh and the hair go with the
      nodes. */
  function RoutedType(t: PluginType, id: string): PluginType
  {
    if t == PluginGeometry && id != "GeomStaticMesh" && id != "GeomMayaHair" then PluginObject else t
  }

  lemma RoutedTypeRedirects(t: PluginType, id: string)
    ensures RoutedType(t, id) in {t, PluginObject}
    ensures RoutedType(t, id) != t <==> t == PluginGeometry && id != "GeomStaticMesh" && id != "GeomMayaHair"
  {
  }

  /** Where a geometry record is written: a static mesh or hair goes to the
      geometry writer when one is set, any other geometry to the nodes writer
      when one is set, and when the nodes writer is missing the other
      geometry never reaches the geometry writer through its own category
      but goes by its ID. */
  lemma GeometryRedirect(writers: map<PluginType, string>, id: string)
    ensures (id == "GeomStaticMesh" || id == "GeomMayaHair") && PluginGeometry in writers ==>
      ChooseWriter(writers, RoutedType(PluginGeometry, id), id) == Some(writers[PluginGeometry])
    ensures id != "GeomStaticMesh" && id != "GeomMayaHair" && PluginObject in writers ==>
      ChooseWriter(writers, RoutedType(PluginGeometry, id), id) == Some(writers[PluginObject])
    ensures id != "GeomStaticMesh" && id != "GeomMayaHair" && PluginObject !in writers ==>
      ChooseWriter(writers, RoutedType(PluginGeometry, id), id) ==
        (match FallbackType(id)
         case Some(u) => if u in writers then Some(writers[u]) else Lookup(writers, PluginSettings)
         case None => Lookup(writers, PluginSettings))
  {
    if id != "GeomStaticMesh" && id != "GeomMayaHair" && PluginObject !in writers {
      assert RoutedType(PluginGeometry, id) == PluginObject;
      FallbackOrder(writers, PluginObject, id);
    }
  }

  function Lookup(writers: map<PluginType, string>, t: PluginType): Option<string>
  {
    if t in writers then Some(writers[t]) else None
  }

  /** The category an unmapped record tries first, by its plugin ID. */
  function FallbackType(id: string): Option<PluginType>
  {
    if id == "Node" || id == "Instancer" then Some(PluginObject)
    else if Contains(id, "Render") then Some(PluginSettings)
    else if Contains(id, "Light") then Some(PluginLight)
    else None
  }

  /** The writer a record of category `t` (after the geometry redirect) and
      plugin ID `id` goes to; `None` when nothing is written. */
  function ChooseWriter(writers: map<PluginType, string>, t: PluginType, id: string): (r: Option<string>)
    ensures t in writers ==> r == Some(writers[t])
    ensures r.Some? ==> exists u :: u in writers && writers[u] == r.value
    ensures r.None? <==>
      t !in writers && PluginSettings !in writers &&
      (FallbackType(id).Some? ==> FallbackType(id).value !in writers)
  {
    if t in writers then Some(writers[t])
    else
      var fb := match FallbackType(id) case Some(u) => Lookup(writers, u) case None => None;
      if fb.Some? then fb else Lookup(writers, PluginSettings)
  }

  /** The fallback order for an unmapped category: the ID's preferred
      category if mapped, else the Settings writer. */
  lemma FallbackOrder(writers: map<PluginType, string>, t: PluginType, id: string)
    requires t !in writers
    ensures FallbackType(id).Some? && FallbackType(id).value in writers ==>
      ChooseWriter(writers, t, id) == Some(writers[FallbackType(id).value])
    ensures (FallbackType(id).None? || FallbackType(id).value !in writers) ==>
      ChooseWriter(writers, t, id) == Lookup(writers, PluginSettings)
  {
  }

  /** The ID tests are substring tests, in this order. */
  lemma FallbackTypeCases(id: string)
    ensures (id == "Node" || id == "Instancer") ==> FallbackType(id) == Some(PluginObject)
    ensures id != "Node" && id != "Instancer" && (exists i: nat :: OccursAt(id, "Render", i)) ==>
      FallbackType(id) == Some(PluginSettings)
    ensures id != "Node" && id != "Instancer" && (forall i: nat :: !OccursAt(id, "Render", i)) && (exists i: nat :: OccursAt(id, "Light", i)) ==>
      FallbackType(id) == Some(PluginLight)
  {
    ContainsIff(id, "Render");
    ContainsIff(id, "Light");
  }

  /** With geometry, nodes, settings and lights files set: a static mesh
      goes to the geometry file, any other geometry to the nodes file, and
      records of an unmapped category go by their ID to the settings or
      lights file. */
  lemma RoutingExamples()
    ensures var ws := map[PluginGeometry := "geometry", PluginObject := "nodes",
                          PluginSettings := "settings", PluginLight := "lights"];
      ChooseWriter(ws, RoutedType(PluginGeometry, "GeomStaticMesh"), "GeomStaticMesh") == Some("geometry") &&
      ChooseWriter(ws, RoutedType(PluginGeometry, "GeomMesh2"), "GeomMesh2") == Some("nodes") &&
      ChooseWriter(ws, PluginOther(0), "RenderGlobals") == Some("settings") &&
      ChooseWriter(ws, PluginOther(0), "LightOmni") == Some("lights")
  {
    assert OccursAt("RenderGlobals", "Render", 0);
    assert OccursAt("LightOmni", "Light", 0);
    var id := "LightOmni";
    forall j: nat | j + 6 <= |id|
      ensures !OccursAt(id, "Render", j)
    {
      assert id[j..j + 6][0] == id[j];
    }
  }

  // ---------------------------------------------------------------------
  // export_plugin_impl: frame scope

  /** Whether the record gets the current frame, as the source evaluates it:
      the comparison with the Settings writer dereferences that writer, so a
      missing Settings writer is an error (`None`) when DR is off and
      separate files are on. */
  function FrameIsSetAsWritten(opts: FileOptions, writers: map<PluginType, string>, chosen: string): Option<bool>
  {
    if !opts.drUse && opts.useSeparate then
      if PluginSettings in writers then Some(chosen != writers[PluginSettings]) else None
    else Some(true)
  }

  /** The intended rule: the frame is withheld exactly when DR is off,
      separate files are on and the chosen writer is the Settings writer; a
      missing Settings writer is not the chosen one. */
  function FrameIsSet(opts: FileOptions, writers: map<PluginType, string>, chosen: string): bool
  {
    !(!opts.drUse && opts.useSeparate && Lookup(writers, PluginSettings) == Some(chosen))
  }

  /** Wherever the source's rule is defined, the corrected rule agrees with it. */
  lemma FrameIsSetAgrees(opts: FileOptions, writers: map<PluginType, string>, chosen: string)
    ensures FrameIsSetAsWritten(opts, writers, chosen).Some? ==>
      FrameIsSetAsWritten(opts, writers, chosen).value == FrameIsSet(opts, writers, chosen)
    ensures FrameIsSetAsWritten(opts, writers, chosen).None? <==>
      !opts.drUse && opts.useSeparate && PluginSettings !in writers
  {
  }

  /** The frame operation a record carries: only with animation or motion
      blur, and then the current frame or -1. */
  function FrameOps(opts: FileOptions, setFrame: bool, currentFrame: int): seq<WriterOp>
  {
    if opts.animationUse || opts.useMotionBlur then [SetFrame(if setFrame then currentFrame else -1)] else []
  }

  // ---------------------------------------------------------------------
  // export_plugin_impl: the record

  datatype PluginAttr = PluginAttr(attrName: string, attrValue: AttrValue)

  /** `PluginDesc`: the record's name, plugin ID and attributes in the order
      the attribute map yields them. */
  datatype PluginDesc = PluginDesc(pluginName: string, pluginID: string, pluginAttrs: seq<PluginAttr>)

  /** One line per attribute whose type is known, in order, each written at
      the writer's animation frame `frame`. */
  function AttrOps(fmt: Fmt, format: ExportFormat, depth: int, frame: Option<int>, attrs: seq<PluginAttr>): (r: seq<WriterOp>)
    ensures forall i :: 0 <= i < |r| ==> r[i].Put?
    ensures |r| <= |attrs|
  {
    if |attrs| == 0 then []
    else
      var rest := AttrOps(fmt, format, depth, frame, attrs[1..]);
      if attrs[0].attrValue.ValueUnknown? then rest
      else [Put(AttrLine(fmt, format, depth, frame, attrs[0].attrName, attrs[0].attrValue))] + rest
  }

  /** The known attributes, in order. */
  function KnownAttrs(attrs: seq<PluginAttr>): (r: seq<PluginAttr>)
    ensures forall i :: 0 <= i < |r| ==> !r[i].attrValue.ValueUnknown?
    ensures forall a :: a in r <==> a in attrs && !a.attrValue.ValueUnknown?
  {
    if |attrs| == 0 then []
    else if attrs[0].attrValue.ValueUnknown? then KnownAttrs(attrs[1..])
    else [attrs[0]] + KnownAttrs(attrs[1..])
  }

  /** The attribute lines are exactly those of the known attributes. */
  lemma {:induction false} AttrOpsSkipUnknown(fmt: Fmt, format: ExportFormat, depth: int, frame: Option<int>, attrs: seq<PluginAttr>)
    ensures |AttrOps(fmt, format, depth, frame, attrs)| == |KnownAttrs(attrs)|
    ensures forall i :: 0 <= i < |KnownAttrs(attrs)| ==>
      AttrOps(fmt, format, depth, frame, attrs)[i] ==
        Put(AttrLine(fmt, format, depth, frame, KnownAttrs(attrs)[i].attrName, KnownAttrs(attrs)[i].attrValue))
  {
    if |attrs| > 0 {
      var rest := attrs[1..];
      AttrOpsSkipUnknown(fmt, format, depth, frame, rest);
      var ops := AttrOps(fmt, format, depth, frame, attrs);
      var known := KnownAttrs(attrs);
      var restOps := AttrOps(fmt, format, depth, frame, rest);
      var restKnown := KnownAttrs(rest);
      if attrs[0].attrValue.ValueUnknown? {
        assert ops == restOps && known == restKnown;
      } else {
        var line := Put(AttrLine(fmt, format, depth, frame, attrs[0].attrName, attrs[0].attrValue));
        assert ops == [line] + restOps;
        assert known == [attrs[0]] + restKnown;
        forall i | 0 <= i < |known|
          ensures ops[i] == Put(AttrLine(fmt, format, depth, frame, known[i].attrName, known[i].attrValue))
        {
          if i > 0 {
            assert ops[i] == restOps[i - 1] && known[i] == restKnown[i - 1];
          }
        }
      }
    }
  }

  /** The animation frame a writer holds once the frame operations have
      run: the last one set, else the one it had. */
  function FrameAfter(w: Writer, frameOps: seq<WriterOp>): Option<int>
  {
    if |frameOps| > 0 && frameOps[|frameOps| - 1].SetFrame? then Some(frameOps[|frameOps| - 1].frame) else w.animationFrame
  }

  function RecordOps(fmt: Fmt, w: Writer, desc: PluginDesc, frameOps: seq<WriterOp>): seq<WriterOp>
  {
    RecordHead(fmt, desc)
      + frameOps
      + AttrOps(fmt, w.format, w.depth, FrameAfter(w, frameOps), desc.pluginAttrs)
      + [Put("}\n\n")]
  }

  /** The text an operation streams: a `Put`'s text, nothing for a frame. */
  function OpText(op: WriterOp): string
  {
    match op
    case Put(t) => t
    case SetFrame(_) => ""
  }

  /** All `Put` texts, empty ones included, run together. */
  function OpsText(ops: seq<WriterOp>): string
  {
    if |ops| == 0 then "" else OpsText(ops[..|ops| - 1]) + OpText(ops[|ops| - 1])
  }

  lemma {:induction false} OpsTextAppend(a: seq<WriterOp>, b: seq<WriterOp>)
    ensures OpsText(a + b) == OpsText(a) + OpsText(b)
    decreases |b|
  {
    if |b| == 0 {
      assert a + b == a;
    } else {
      assert (a + b)[..|a + b| - 1] == a + b[..|b| - 1];
      OpsTextAppend(a, b[..|b| - 1]);
    }
  }

  lemma OpsTextCons(x: WriterOp, rest: seq<WriterOp>)
    ensures OpsText([x] + rest) == OpText(x) + OpsText(rest)
  {
    OpsTextAppend([x], rest);
    assert [x][..0] == [];
  }

  /** Skipping empty pieces does not change the text. */
  lemma {:induction false} PutTextsConcat(ops: seq<WriterOp>)
    ensures Concat(PutTexts(ops)) == OpsText(ops)
  {
    if |ops| > 0 {
      var pre := ops[..|ops| - 1];
      var last := ops[|ops| - 1];
      PutTextsConcat(pre);
      if last.Put? && last.text != "" {
        assert PutTexts(ops) == PutTexts(pre) + [last.text];
        ConcatAppend(PutTexts(pre), [last.text]);
        assert [last.text][..0] == [];
      } else {
        assert PutTexts(ops) == PutTexts(pre) + [];
        assert PutTexts(pre) + [] == PutTexts(pre);
        assert OpText(last) == "";
      }
    }
  }

  function AttrLines(fmt: Fmt, format: ExportFormat, depth: int, frame: Option<int>, attrs: seq<PluginAttr>): string
  {
    if |attrs| == 0 then ""
    else AttrLine(fmt, format, depth, frame, attrs[0].attrName, attrs[0].attrValue) + AttrLines(fmt, format, depth, frame, attrs[1..])
  }

  lemma {:induction false} AttrOpsText(fmt: Fmt, format: ExportFormat, depth: int, frame: Option<int>, attrs: seq<PluginAttr>)
    ensures OpsText(AttrOps(fmt, format, depth, frame, attrs)) == AttrLines(fmt, format, depth, frame, KnownAttrs(attrs))
  {
    if |attrs| > 0 {
      var rest := AttrOps(fmt, format, depth, frame, attrs[1..]);
      var known := KnownAttrs(attrs[1..]);
      AttrOpsText(fmt, format, depth, frame, attrs[1..]);
      if !attrs[0].attrValue.ValueUnknown? {
        var line := AttrLine(fmt, format, depth, frame, attrs[0].attrName, attrs[0].attrValue);
        assert AttrOps(fmt, format, depth, frame, attrs) == [Put(line)] + rest;
        OpsTextCons(Put(line), rest);
        var k := KnownAttrs(attrs);
        assert k == [attrs[0]] + known;
        assert k[0] == attrs[0] && k[1..] == known;
        assert AttrLines(fmt, format, depth, frame, k) == line + AttrLines(fmt, format, depth, frame, known);
      }
    }
  }

  lemma {:induction false} FrameOpsText(frameOps: seq<WriterOp>)
    requires forall i :: 0 <= i < |frameOps| ==> frameOps[i].SetFrame?
    ensures OpsText(frameOps) == ""
  {
    if |frameOps| > 0 {
      FrameOpsText(frameOps[..|frameOps| - 1]);
    }
  }

  function RecordHead(fmt: Fmt, desc: PluginDesc): seq<WriterOp>
  {
    [Put(desc.pluginID), Put(" "), Put(fmt.strip(desc.pluginName)), Put(" {\n")]
  }

  lemma HeadText(fmt: Fmt, desc: PluginDesc)
    ensures OpsText(RecordHead(fmt, desc)) == desc.pluginID + " " + fmt.strip(desc.pluginName) + " {\n"
  {
    var h := RecordHead(fmt, desc);
    assert h[..3] == [Put(desc.pluginID), Put(" "), Put(fmt.strip(desc.pluginName))];
    assert h[..3][..2] == [Put(desc.pluginID), Put(" ")];
    assert h[..3][..2][..1] == [Put(desc.pluginID)];
    assert h[..3][..2][..1][..0] == [];
    assert OpsText([Put(desc.pluginID)]) == desc.pluginID;
    assert OpsText(h[..3][..2]) == desc.pluginID + " ";
    assert OpsText(h[..3]) == desc.pluginID + " " + fmt.strip(desc.pluginName);
  }

  lemma TailText()
    ensures OpsText([Put("}\n\n")]) == "}\n\n"
  {
    assert [Put("}\n\n")][..0] == [];
  }

  /** The text of one record: `<plugin ID> <stripped name> {\n`, one line
      per known attribute at animation frame `frame`, then `}\n\n`. */
  function RecordString(fmt: Fmt, format: ExportFormat, depth: int, frame: Option<int>, desc: PluginDesc): string
  {
    desc.pluginID + " " + fmt.strip(desc.pluginName) + " {\n"
      + AttrLines(fmt, format, depth, frame, KnownAttrs(desc.pluginAttrs)) + "}\n\n"
  }

  /** A record reads `<plugin ID> <stripped name> {\n`, one line per known
      attribute written at the frame the frame operations leave, then
      `}\n\n`. */
  lemma RecordText(fmt: Fmt, w: Writer, desc: PluginDesc, frameOps: seq<WriterOp>)
    requires forall i :: 0 <= i < |frameOps| ==> frameOps[i].SetFrame?
    ensures Concat(PutTexts(RecordOps(fmt, w, desc, frameOps)))
         == desc.pluginID + " " + fmt.strip(desc.pluginName) + " {\n"
            + AttrLines(fmt, w.format, w.depth, FrameAfter(w, frameOps), KnownAttrs(desc.pluginAttrs)) + "}\n\n"
  {
    var head := RecordHead(fmt, desc);
    var attrs := AttrOps(fmt, w.format, w.depth, FrameAfter(w, frameOps), desc.pluginAttrs);
    var tail := [Put("}\n\n")];
    var ops := RecordOps(fmt, w, desc, frameOps);
    assert ops == head + frameOps + attrs + tail;
    PutTextsConcat(ops);
    HeadText(fmt, desc);
    AttrOpsText(fmt, w.format, w.depth, FrameAfter(w, frameOps), desc.pluginAttrs);
    var h := OpsText(head);
    var lines := OpsText(attrs);
    OpsTextAppend(head, frameOps);
    FrameOpsText(frameOps);
    assert OpsText(head + frameOps) == h;
    OpsTextAppend(head + frameOps, attrs);
    assert OpsText(head + frameOps + attrs) == h + lines;
    OpsTextAppend(head + frameOps + attrs, tail);
    TailText();
    assert OpsText(ops) == h + lines + "}\n\n";
  }

  // ---------------------------------------------------------------------
  // export_plugin_impl

  /** The writer a record goes to: its category from the plugin description
      table (`typeOf`), the geometry redirect, then the fallback chain. */
  function Target(e: Exporter, typeOf: string -> PluginType, desc: PluginDesc): Option<string>
  {
    ChooseWriter(e.writers, RoutedType(typeOf(desc.pluginID), desc.pluginID), desc.pluginID)
  }

  /** What the chosen writer `k` is asked to do for the record, given
      whether the frame is set. */
  function RecordFor(fmt: Fmt, e: Exporter, opts: FileOptions, currentFrame: int, desc: PluginDesc, k: string, setFrame: bool): seq<WriterOp>
    requires k in e.fileWriters
  {
    RecordOps(fmt, e.fileWriters[k], desc, FrameOps(opts, setFrame, currentFrame))
  }

  /** The source as written: `None` where it dereferences the missing
      Settings writer.  Otherwise the returned plugin reference and the new
      exporter state. */
  function ExportPluginAsWritten(fmt: Fmt, e: Exporter, opts: FileOptions, typeOf: string -> PluginType,
                                 currentFrame: int, desc: PluginDesc): Option<(PluginRef, Exporter)>
    requires Valid(e)
  {
    var plugin := PluginRef(desc.pluginName, "");
    var e1 := e.(synced := false);
    match Target(e, typeOf, desc)
    case None => Some((plugin, e1))
    case Some(k) =>
      match FrameIsSetAsWritten(opts, e.writers, k)
      case None => None
      case Some(setFrame) =>
        Some((plugin, e1.(fileWriters := e.fileWriters[k := Apply(e.fileWriters[k], RecordFor(fmt, e, opts, currentFrame, desc, k, setFrame))])))
  }

  /** `export_plugin_impl` with the intended frame rule: the returned plugin
      is named after the record whether or not anything is written, the
      synced flag is cleared, and only the chosen writer changes. */
  function ExportPlugin(fmt: Fmt, e: Exporter, opts: FileOptions, typeOf: string -> PluginType,
                        currentFrame: int, desc: PluginDesc): (r: (PluginRef, Exporter))
    requires Valid(e)
    ensures r.0 == PluginRef(desc.pluginName, "")
    ensures !r.1.synced
    ensures r.1.writers == e.writers && r.1.fileWriters.Keys == e.fileWriters.Keys
    ensures Target(e, typeOf, desc).None? ==> r.1.fileWriters == e.fileWriters
    ensures forall n :: n in e.fileWriters && Target(e, typeOf, desc) != Some(n) ==> r.1.fileWriters[n] == e.fileWriters[n]
    ensures Target(e, typeOf, desc).Some? ==>
      var k := Target(e, typeOf, desc).value;
      r.1.fileWriters[k] == Apply(e.fileWriters[k], RecordFor(fmt, e, opts, currentFrame, desc, k, FrameIsSet(opts, e.writers, k)))
  {
    var plugin := PluginRef(desc.pluginName, "");
    var e1 := e.(synced := false);
    match Target(e, typeOf, desc)
    case None => (plugin, e1)
    case Some(k) =>
      (plugin, e1.(fileWriters := e.fileWriters[k := Apply(e.fileWriters[k], RecordFor(fmt, e, opts, currentFrame, desc, k, FrameIsSet(opts, e.writers, k)))]))
  }

  /** Where the source does not fail, the corrected export does the same. */
  lemma ExportPluginAgrees(fmt: Fmt, e: Exporter, opts: FileOptions, typeOf: string -> PluginType,
                           currentFrame: int, desc: PluginDesc)
    requires Valid(e)
    ensures ExportPluginAsWritten(fmt, e, opts, typeOf, currentFrame, desc).Some? ==>
      ExportPluginAsWritten(fmt, e, opts, typeOf, currentFrame, desc).value == ExportPlugin(fmt, e, opts, typeOf, currentFrame, desc)
  {
    var k := Target(e, typeOf, desc);
    if k.Some? {
      FrameIsSetAgrees(opts, e.writers, k.value);
    }
  }

  /** The failing input: DR off, separate files on, only a Light file set,
      and a light record. */
  lemma ExportPluginNullSettingsWriter(fmt: Fmt, opts: FileOptions, typeOf: string -> PluginType, currentFrame: int)
    requires !opts.drUse && opts.useSeparate
    requires typeOf("LightOmni") == PluginLight
    ensures var e := SetExportFile(NewExporter, opts, PluginLight, Some("lights.vrscene"));
      Valid(e) &&
      ExportPluginAsWritten(fmt, e, opts, typeOf, currentFrame, PluginDesc("Lamp", "LightOmni", [])).None?
  {
    var e := SetExportFile(NewExporter, opts, PluginLight, Some("lights.vrscene"));
    SetExportFileKeepsValid(NewExporter, opts, PluginLight, Some("lights.vrscene"));
    assert AliasGroup(PluginLight) == {PluginLight};
    assert e.writers == map[PluginLight := "lights.vrscene"];
    assert Target(e, typeOf, PluginDesc("Lamp", "LightOmni", [])) == Some("lights.vrscene");
  }

  lemma {:induction false} ApplyKeepsFile(w: Writer, ops: seq<WriterOp>)
    ensures Apply(w, ops).file == w.file
  {
    if |ops| > 0 {
      ApplyKeepsFile(w, ops[..|ops| - 1]);
    }
  }

  lemma ExportPluginKeepsValid(fmt: Fmt, e: Exporter, opts: FileOptions, typeOf: string -> PluginType,
                               currentFrame: int, desc: PluginDesc)
    requires Valid(e)
    ensures Valid(ExportPlugin(fmt, e, opts, typeOf, currentFrame, desc).1)
  {
    var r := ExportPlugin(fmt, e, opts, typeOf, currentFrame, desc).1;
    var k := Target(e, typeOf, desc);
    if k.Some? {
      ApplyKeepsFile(e.fileWriters[k.value], RecordFor(fmt, e, opts, currentFrame, desc, k.value, FrameIsSet(opts, e.writers, k.value)));
      assert r.fileWriters[k.value].file == k.value;
    }
    assert FilesNamed(r.fileWriters);
  }

  lemma {:induction false} PutsKeepFrame(w: Writer, ops: seq<WriterOp>)
    requires forall i :: 0 <= i < |ops| ==> ops[i].Put?
    ensures Apply(w, ops).animationFrame == w.animationFrame
  {
    if |ops| > 0 {
      PutsKeepFrame(w, ops[..|ops| - 1]);
    }
  }

  /** The frame a writer is left at: that of the frame operation, if any,
      whatever text surrounds it. */
  lemma {:induction false} ApplyFrame(w: Writer, pre: seq<WriterOp>, frame: seq<WriterOp>, post: seq<WriterOp>)
    requires forall i :: 0 <= i < |pre| ==> pre[i].Put?
    requires forall i :: 0 <= i < |post| ==> post[i].Put?
    requires |frame| <= 1 && forall i :: 0 <= i < |frame| ==> frame[i].SetFrame?
    ensures Apply(w, pre + frame + post).animationFrame ==
      (if |frame| == 1 then Some(frame[0].frame) else w.animationFrame)
    decreases |post|
  {
    if |post| == 0 {
      assert pre + frame + post == pre + frame;
      PutsKeepFrame(w, pre);
      if |frame| == 1 {
        assert (pre + frame)[..|pre + frame| - 1] == pre;
      } else {
        assert pre + frame == pre;
      }
    } else {
      assert (pre + frame + post)[..|pre + frame + post| - 1] == pre + frame + post[..|post| - 1];
      ApplyFrame(w, pre, frame, post[..|post| - 1]);
    }
  }

  /** The chosen writer's frame after a record: with animation or motion blur
      it is -1 exactly when DR is off, separate files are on and the chosen
      writer is the Settings writer, else the current frame; without them it
      is left as it was. */
  lemma ExportPluginFrame(fmt: Fmt, e: Exporter, opts: FileOptions, typeOf: string -> PluginType,
                          currentFrame: int, desc: PluginDesc, k: string)
    requires Valid(e)
    requires Target(e, typeOf, desc) == Some(k)
    ensures k in ExportPlugin(fmt, e, opts, typeOf, currentFrame, desc).1.fileWriters
    ensures var after := ExportPlugin(fmt, e, opts, typeOf, currentFrame, desc).1.fileWriters[k].animationFrame;
      if opts.animationUse || opts.useMotionBlur then
        after == Some(if !opts.drUse && opts.useSeparate && Lookup(e.writers, PluginSettings) == Some(k) then -1 else currentFrame)
      else after == e.fileWriters[k].animationFrame
  {
    var w := e.fileWriters[k];
    var frame := FrameOps(opts, FrameIsSet(opts, e.writers, k), currentFrame);
    var post := AttrOps(fmt, w.format, w.depth, FrameAfter(w, frame), desc.pluginAttrs) + [Put("}\n\n")];
    assert RecordFor(fmt, e, opts, currentFrame, desc, k, FrameIsSet(opts, e.writers, k)) == RecordHead(fmt, desc) + frame + post;
    ApplyFrame(w, RecordHead(fmt, desc), frame, post);
  }

  /** Exporting from a state with nothing pending leaves nothing pending. */
  lemma ExportKeepsSettled(fmt: Fmt, e: Exporter, opts: FileOptions, typeOf: string -> PluginType,
                           currentFrame: int, desc: PluginDesc)
    requires Valid(e) && Settled(e)
    ensures Settled(ExportPlugin(fmt, e, opts, typeOf, currentFrame, desc).1)
  {
    var k := Target(e, typeOf, desc);
    if k.Some? {
      ApplyAppends(e.fileWriters[k.value], RecordFor(fmt, e, opts, currentFrame, desc, k.value, FrameIsSet(opts, e.writers, k.value)));
    }
  }

  /** For one writer with nothing pending: a record followed by a flush puts
      exactly the record's text after what the file already held. */
  lemma RecordThenFlush(fmt: Fmt, w: Writer, desc: PluginDesc, frameOps: seq<WriterOp>)
    requires AllDone(w.queue.items)
    requires forall i :: 0 <= i < |frameOps| ==> frameOps[i].SetFrame?
    ensures AllDone(Apply(w, RecordOps(fmt, w, desc, frameOps)).queue.items)
    ensures Concat(FlushWriter(Apply(w, RecordOps(fmt, w, desc, frameOps))).queue.sink)
         == Concat(w.queue.sink + Texts(w.queue.items)) + RecordString(fmt, w.format, w.depth, FrameAfter(w, frameOps), desc)
  {
    var ops := RecordOps(fmt, w, desc, frameOps);
    ApplyAppends(w, ops);
    RecordText(fmt, w, desc, frameOps);
    ConcatAppend(w.queue.sink + Texts(w.queue.items), PutTexts(ops));
  }

  /** From a state with nothing pending, exporting a record and syncing puts
      exactly the record's text at the end of the chosen file, its attributes
      written at -1 for the Settings file under the frame-scope rule, at the
      current frame otherwise, when animation or motion blur is on, and at
      the writer's previous frame when neither is. */
  lemma ExportThenSyncWritesRecord(fmt: Fmt, e: Exporter, opts: FileOptions, typeOf: string -> PluginType,
                                   currentFrame: int, desc: PluginDesc, k: string)
    requires Valid(e) && Settled(e)
    requires Target(e, typeOf, desc) == Some(k)
    ensures Settled(ExportPlugin(fmt, e, opts, typeOf, currentFrame, desc).1)
    ensures var s := Sync(ExportPlugin(fmt, e, opts, typeOf, currentFrame, desc).1);
      k in s.fileWriters &&
      Concat(s.fileWriters[k].queue.sink)
        == Concat(e.fileWriters[k].queue.sink + Texts(e.fileWriters[k].queue.items))
           + RecordString(fmt, e.fileWriters[k].format, e.fileWriters[k].depth,
               if opts.animationUse || opts.useMotionBlur
               then Some(if !opts.drUse && opts.useSeparate && Lookup(e.writers, PluginSettings) == Some(k) then -1 else currentFrame)
               else e.fileWriters[k].animationFrame,
               desc)
  {
    ExportKeepsSettled(fmt, e, opts, typeOf, currentFrame, desc);
    var w := e.fileWriters[k];
    var frame := FrameOps(opts, FrameIsSet(opts, e.writers, k), currentFrame);
    RecordThenFlush(fmt, w, desc, frame);
    assert FrameAfter(w, frame) ==
      if opts.animationUse || opts.useMotionBlur
      then Some(if !opts.drUse && opts.useSeparate && Lookup(e.writers, PluginSettings) == Some(k) then -1 else currentFrame)
      else w.animationFrame;
    var x := ExportPlugin(fmt, e, opts, typeOf, currentFrame, desc).1;
    var applied := Apply(w, RecordOps(fmt, w, desc, frame));
    assert x.fileWriters[k] == applied;
    assert Sync(x).fileWriters[k].queue.sink == FlushWriter(applied).queue.sink;
  }
}

=== FILE: node_utils.dfy ===
/** `Nodes` utilities: first-match lookups of sockets and nodes, and the
    table from a socket's type name to the exporter's socket type.

    Blender nodes become records; a null node is `None`. */
module NodeUtils {
  import opened Base

  /** A node socket: its label, the identifier of its RNA type, and the
      optional `vray_socket_base_type` and `vray_attr` properties. */
  datatype Socket = Socket(name: string, rnaIdentifier: string, baseType: Option<string>, vrayAttr: Option<string>)

  datatype Node = Node(typeIdentifier: string, inputs: seq<Socket>, outputs: seq<Socket>)

  datatype NodeTree = NodeTree(nodes: seq<Node>)

  /** The index of the first element satisfying `p`, scanning from `k`. */
  function FirstFrom<T>(xs: seq<T>, p: T -> bool, k: nat): (r: Option<nat>)
    requires k <= |xs|
    ensures r.Some? ==> k <= r.value < |xs| && p(xs[r.value]) && forall j :: k <= j < r.value ==> !p(xs[j])
    ensures r.None? ==> forall j :: k <= j < |xs| ==> !p(xs[j])
    decreases |xs| - k
  {
    if k == |xs| then None
    else if p(xs[k]) then Some(k)
    else FirstFrom(xs, p, k + 1)
  }

  /** The first element satisfying `p`, if any. */
  function First<T>(xs: seq<T>, p: T -> bool): (r: Option<T>)
    ensures r.None? <==> forall j :: 0 <= j < |xs| ==> !p(xs[j])
    ensures r.Some? ==> exists i :: 0 <= i < |xs| && xs[i] == r.value && p(xs[i]) && forall j :: 0 <= j < i ==> !p(xs[j])
  {
    match FirstFrom(xs, p, 0)
    case None => None
    case Some(i) => Some(xs[i])
  }

  /** `GetInputSocketByName`: no socket for a null node; otherwise the first
      input whose name matches. */
  function GetInputSocketByName(node: Option<Node>, socketName: string): (r: Option<Socket>)
    ensures node.None? ==> r.None?
    ensures node.Some? ==>
      (r.None? <==> forall j :: 0 <= j < |node.value.inputs| ==> node.value.inputs[j].name != socketName)
    ensures r.Some? ==>
      node.Some? &&
      exists i ::
        0 <= i < |node.value.inputs| && node.value.inputs[i] == r.value &&
        r.value.name == socketName && forall j :: 0 <= j < i ==> node.value.inputs[j].name != socketName
  {
    match node
    case None => None
    case Some(n) => First(n.inputs, (s: Socket) => s.name == socketName)
  }

  /** `GetOutputSocketByName`: the same search over the outputs. */
  function GetOutputSocketByName(node: Option<Node>, socketName: string): (r: Option<Socket>)
    ensures node.None? ==> r.None?
    ensures node.Some? ==>
      (r.None? <==> forall j :: 0 <= j < |node.value.outputs| ==> node.value.outputs[j].name != socketName)
    ensures r.Some? ==>
      node.Some? &&
      exists i ::
        0 <= i < |node.value.outputs| && node.value.outputs[i] == r.value &&
        r.value.name == socketName && forall j :: 0 <= j < i ==> node.value.outputs[j].name != socketName
  {
    match node
    case None => None
    case Some(n) => First(n.outputs, (s: Socket) => s.name == socketName)
  }

  /** A socket carries attribute `attrName` when its `vray_attr` is present,
      non-empty and equal to it. */
  predicate HasAttr(s: Socket, attrName: string)
  {
    s.vrayAttr.Some? && s.vrayAttr.value != "" && s.vrayAttr.value == attrName
  }

  /** `GetSocketByAttr`: the first input that carries the attribute. */
  function GetSocketByAttr(node: Option<Node>, attrName: string): (r: Option<Socket>)
    ensures node.None? ==> r.None?
    ensures node.Some? ==>
      (r.None? <==> forall j :: 0 <= j < |node.value.inputs| ==> !HasAttr(node.value.inputs[j], attrName))
    ensures r.Some? ==>
      node.Some? &&
      exists i ::
        0 <= i < |node.value.inputs| && node.value.inputs[i] == r.value &&
        r.value.vrayAttr == Some(attrName) && forall j :: 0 <= j < i ==> !HasAttr(node.value.inputs[j], attrName)
  {
    match node
    case None => None
    case Some(n) => First(n.inputs, (s: Socket) => HasAttr(s, attrName))
  }

  /** An empty attribute name finds no socket, even one whose `vray_attr` is
      empty. */
  lemma EmptyAttrNeverMatches(node: Option<Node>)
    ensures GetSocketByAttr(node, "").None?
  {
  }

  /** `GetNodeByType`: the first node of the tree with the given type
      identifier. */
  function GetNodeByType(tree: NodeTree, nodeType: string): (r: Option<Node>)
    ensures r.None? <==> forall j :: 0 <= j < |tree.nodes| ==> tree.nodes[j].typeIdentifier != nodeType
    ensures r.Some? ==>
      exists i ::
        0 <= i < |tree.nodes| && tree.nodes[i] == r.value &&
        r.value.typeIdentifier == nodeType && forall j :: 0 <= j < i ==> tree.nodes[j].typeIdentifier != nodeType
  {
    First(tree.nodes, (n: Node) => n.typeIdentifier == nodeType)
  }

  // ---------------------------------------------------------------------
  // Socket types

  datatype SocketType =
    | SocketBRDF | SocketColor | SocketColorNoValue | SocketCoords | SocketEffect
    | SocketEnvironment | SocketEnvironmentOverride | SocketFloat | SocketFloatColor
    | SocketFloatNoValue | SocketInt | SocketMtl | SocketObject | SocketTransform
    | SocketVector | SocketUnknown

  /** `getVRayNodeSocketTypeName`: the base type property when the socket has
      one, else the identifier of its RNA type. */
  function GetSocketTypeName(s: Socket): string
  {
    if s.baseType.Some? then s.baseType.value else s.rnaIdentifier
  }

  /** The socket type a type name stands for; any name not in the table is
      unknown. */
  function SocketTypeOfName(name: string): SocketType
  {
    if name == "VRaySocketBRDF" then SocketBRDF
    else if name == "VRaySocketColor" then SocketColor
    else if name == "VRaySocketColorNoValue" then SocketColorNoValue
    else if name == "VRaySocketCoords" then SocketCoords
    else if name == "VRaySocketEffect" then SocketEffect
    else if name == "VRaySocketEnvironment" then SocketEnvironment
    else if name == "VRaySocketEnvironmentOverride" then SocketEnvironmentOverride
    else if name == "VRaySocketFloat" then SocketFloat
    else if name == "VRaySocketFloatColor" then SocketFloatColor
    else if name == "VRaySocketFloatNoValue" then SocketFloatNoValue
    else if name == "VRaySocketInt" then SocketInt
    else if name == "VRaySocketMtl" then SocketMtl
    else if name == "VRaySocketObject" then SocketObject
    else if name == "VRaySocketTransform" then SocketTransform
    else if name == "VRaySocketVector" then SocketVector
    else SocketUnknown
  }

  /** The type name of each known socket type. */
  function SocketTypeIdentifier(t: SocketType): Option<string>
  {
    match t
    case SocketBRDF => Some("VRaySocketBRDF")
    case SocketColor => Some("VRaySocketColor")
    case SocketColorNoValue => Some("VRaySocketColorNoValue")
    case SocketCoords => Some("VRaySocketCoords")
    case SocketEffect => Some("VRaySocketEffect")
    case SocketEnvironment => Some("VRaySocketEnvironment")
    case SocketEnvironmentOverride => Some("VRaySocketEnvironmentOverride")
    case SocketFloat => Some("VRaySocketFloat")
    case SocketFloatColor => Some("VRaySocketFloatColor")
    case SocketFloatNoValue => Some("VRaySocketFloatNoValue")
    case SocketInt => Some("VRaySocketInt")
    case SocketMtl => Some("VRaySocketMtl")
    case SocketObject => Some("VRaySocketObject")
    case SocketTransform => Some("VRaySocketTransform")
    case SocketVector => Some("VRaySocketVector")
    case SocketUnknown => None
  }

  /** Every known type is found again from its type name. */
  lemma SocketTypeRoundTrip(t: SocketType)
    ensures t == SocketUnknown <==> SocketTypeIdentifier(t).None?
    ensures t != SocketUnknown ==> SocketTypeOfName(SocketTypeIdentifier(t).value) == t
  {
  }

  /** A name maps to a known type only if it is exactly that type's name. */
  lemma SocketTypeOfNameKnown(name: string)
    ensures SocketTypeOfName(name) != SocketUnknown ==> SocketTypeIdentifier(SocketTypeOfName(name)) == Some(name)
  {
  }

  /** A name is unknown iff it is no socket type's name. */
  lemma SocketTypeOfNameExact(name: string)
    ensures SocketTypeOfName(name) != SocketUnknown ==> SocketTypeIdentifier(SocketTypeOfName(name)) == Some(name)
    ensures SocketTypeOfName(name) == SocketUnknown <==> forall t :: SocketTypeIdentifier(t) != Some(name)
  {
    SocketTypeOfNameKnown(name);
    if SocketTypeOfName(name) == SocketUnknown {
      forall t | SocketTypeIdentifier(t).Some?
        ensures SocketTypeIdentifier(t) != Some(name)
      {
        SocketTypeRoundTrip(t);
      }
    }
  }

  /** `getVRayNodeSocketType`: the type the socket's type name stands for —
      the base type when present, the RNA type's identifier otherwise. */
  function GetSocketType(s: Socket): (r: SocketType)
    ensures r != SocketUnknown ==>
      SocketTypeIdentifier(r) == Some(if s.baseType.Some? then s.baseType.value else s.rnaIdentifier)
    ensures r == SocketUnknown <==>
      forall t :: SocketTypeIdentifier(t) != Some(if s.baseType.Some? then s.baseType.value else s.rnaIdentifier)
  {
    SocketTypeOfNameExact(GetSocketTypeName(s));
    SocketTypeOfName(GetSocketTypeName(s))
  }
}

=== FILE: plugin_writer.dfy ===
/** `PluginWriter`: one vrscene output file.  It owns a write queue and the
    formatting state the value codec reads (export format, indentation depth)
    plus the animation frame the record emitter scopes records to.

    The Python file object is the queue's sink.  `writeStr` hands its text to
    `addTask`, which is declared in the writer's header; this model takes it
    to be `processItems(text)`. */
module PluginWriter {
  import opened Base
  import opened WriteQueue
  import opened ValueCodec

  datatype Writer = Writer(
    file: string,                 // the file name the writer was created for
    format: ExportFormat,
    depth: int,
    animationFrame: Option<int>,  // None: never set (the source's -FLT_MAX)
    queue: Queue)

  /** The constructor: depth 1, no animation frame, nothing queued or written. */
  function NewWriter(file: string, format: ExportFormat): (w: Writer)
    ensures w.file == file && w.format == format
    ensures w.depth == 1 && w.animationFrame.None?
    ensures w.queue.items == [] && w.queue.sink == []
  {
    Writer(file, format, InitialDepth, None, EmptyQueue)
  }

  /** `writeStr`: the text goes through the queue. */
  function WriteStr(w: Writer, text: string): Writer
  {
    w.(queue := Process(w.queue, text))
  }

  /** `operator<<(const std::string&)`: an empty string is not written at all
      (not even the queue is drained). */
  function Stream(w: Writer, text: string): (r: Writer)
    ensures text == "" ==> r == w
  {
    if text == "" then w else WriteStr(w, text)
  }

  /** What a record emitter asks of a writer: stream a piece of text, or set
      the animation frame the following attributes belong to. */
  datatype WriterOp = Put(text: string) | SetFrame(frame: int)

  /** `setAnimationFrame` is declared in the writer's header; the model records
      the frame and leaves whatever text it streams out. */
  function SetAnimationFrame(w: Writer, frame: int): Writer
  {
    w.(animationFrame := Some(frame))
  }

  function Apply(w: Writer, ops: seq<WriterOp>): Writer
  {
    if |ops| == 0 then w
    else
      var w' := Apply(w, ops[..|ops| - 1]);
      match ops[|ops| - 1]
      case Put(t) => Stream(w', t)
      case SetFrame(f) => SetAnimationFrame(w', f)
  }

  /** The texts of the non-empty `Put`s, in order. */
  function PutTexts(ops: seq<WriterOp>): seq<string>
  {
    if |ops| == 0 then []
    else PutTexts(ops[..|ops| - 1]) + (match ops[|ops| - 1] case Put(t) => if t == "" then [] else [t] case SetFrame(_) => [])
  }

  /** With nothing pending, a synchronous write keeps the queue all-ready and
      extends the file-plus-queue text by exactly that write. */
  lemma ProcessAllDone(q: Queue, text: string)
    requires AllDone(q.items)
    ensures AllDone(Process(q, text).items)
    ensures Process(q, text).sink + Texts(Process(q, text).items)
         == q.sink + Texts(q.items) + (if text == "" then [] else [text])
  {
    ReadyPrefixLenUnique(q.items, |q.items|);
    assert q.items[..|q.items|] == q.items;
    assert Drain(q) == Queue([], q.sink + Texts(q.items));
  }

  /** Applying operations to a writer with nothing pending leaves nothing
      pending, keeps the file and format, and adds exactly the non-empty
      pieces, in order, to what the file will hold. */
  lemma {:induction false} ApplyAppends(w: Writer, ops: seq<WriterOp>)
    requires AllDone(w.queue.items)
    ensures AllDone(Apply(w, ops).queue.items)
    ensures Apply(w, ops).file == w.file && Apply(w, ops).format == w.format && Apply(w, ops).depth == w.depth
    ensures Apply(w, ops).queue.sink + Texts(Apply(w, ops).queue.items)
         == w.queue.sink + Texts(w.queue.items) + PutTexts(ops)
  {
    if |ops| > 0 {
      var pre := ops[..|ops| - 1];
      ApplyAppends(w, pre);
      var w' := Apply(w, pre);
      match ops[|ops| - 1]
      case Put(t) =>
        if t != "" {
          ProcessAllDone(w'.queue, t);
        }
      case SetFrame(f) =>
    }
  }

  /** `blockFlushAll` once every queued item is done. */
  function FlushWriter(w: Writer): (r: Writer)
    requires AllDone(w.queue.items)
    ensures r.queue.items == []
    ensures r.queue.sink == w.queue.sink + Texts(w.queue.items)
    ensures r.file == w.file && r.format == w.format
  {
    w.(queue := FlushAll(w.queue))
  }
}

=== FILE: scene_sync.dfy ===
/** `SceneExporter`: the decisions it makes while walking the scene — which
    objects are on a visible layer, which are exported once and only once
    (the id cache), how dupli (instanced) objects are counted, filled into an
    instancer and named, and which work modes start the renderer or write
    the vrscene file.

    Blender objects become plain records.  The engine's break flag is read
    through `is_interrupted()`; the model counts those reads and takes the
    number of reads after which the flag is up (`breakAt`), since Blender
    keeps the flag up once the user cancels. */
module SceneSync {
  import opened Base
  import opened ValueCodec
  import VrsceneExporter
  import ExportSettings

  // ---------------------------------------------------------------------
  // Layers

  /** Number of scene layers; `get_layer` reads this many flags. */
  const LayerCount: nat := 20

  function Pow2(i: nat): (r: nat)
    ensures r >= 1
  {
    if i == 0 then 1 else 2 * Pow2(i - 1)
  }

  /** Bit `i` of `x`. */
  predicate TestBit(x: nat, i: nat)
  {
    if i == 0 then x % 2 == 1 else TestBit(x / 2, i - 1)
  }

  /** Bitwise and. */
  function BitAnd(x: nat, y: nat): nat
  {
    if x == 0 || y == 0 then 0
    else 2 * BitAnd(x / 2, y / 2) + (if x % 2 == 1 && y % 2 == 1 then 1 else 0)
  }

  /** The layer mask of a sequence of layer flags: bit i stands for flag i. */
  function Mask(a: seq<bool>): (r: nat)
    ensures r < Pow2(|a|)
  {
    if |a| == 0 then 0 else (if a[0] then 1 else 0) + 2 * Mask(a[1..])
  }

  lemma {:induction false} ZeroBits(i: nat)
    ensures !TestBit(0, i)
  {
    if i > 0 {
      ZeroBits(i - 1);
    }
  }

  lemma {:induction false} MaskBits(a: seq<bool>, i: nat)
    ensures TestBit(Mask(a), i) <==> i < |a| && a[i]
  {
    if |a| == 0 {
      ZeroBits(i);
    } else if i > 0 {
      MaskBits(a[1..], i - 1);
    }
  }

  lemma {:induction false} MaskSnoc(a: seq<bool>, i: nat)
    requires i < |a|
    ensures Mask(a[..i + 1]) == Mask(a[..i]) + (if a[i] then Pow2(i) else 0)
  {
    if i > 0 {
      MaskSnoc(a[1..], i - 1);
      assert a[1..][..i] == a[..i + 1][1..];
      assert a[1..][..i - 1] == a[..i][1..];
    }
  }

  /** `get_layer`: or-ing in `1 << i` for every set flag.  Bit i is still
      clear when it is or-ed in, so the or is an addition here. */
  method GetLayer(a: seq<bool>) returns (layer: nat)
    requires |a| == LayerCount
    ensures layer == Mask(a)
    ensures layer < Pow2(LayerCount)
    ensures forall i :: 0 <= i < LayerCount ==> (TestBit(layer, i) <==> a[i])
  {
    layer := 0;
    var i := 0;
    while i < LayerCount
      invariant 0 <= i <= LayerCount
      invariant layer == Mask(a[..i])
    {
      MaskSnoc(a, i);
      MaskBits(a[..i], i);
      assert !TestBit(layer, i);
      if a[i] {
        layer := layer + Pow2(i);
      }
      i := i + 1;
    }
    assert a[..LayerCount] == a;
    forall j | 0 <= j < LayerCount
      ensures TestBit(layer, j) <==> a[j]
    {
      MaskBits(a, j);
    }
  }

  /** Two layer masks meet iff some layer is set in both. */
  lemma {:induction false} MaskMeet(a: seq<bool>, b: seq<bool>)
    requires |a| == |b|
    ensures BitAnd(Mask(a), Mask(b)) != 0 <==> exists i :: 0 <= i < |a| && a[i] && b[i]
  {
    if |a| > 0 {
      MaskMeet(a[1..], b[1..]);
      var x := Mask(a);
      var y := Mask(b);
      assert x / 2 == Mask(a[1..]) && x % 2 == (if a[0] then 1 else 0);
      assert y / 2 == Mask(b[1..]) && y % 2 == (if b[0] then 1 else 0);
      if exists i :: 0 <= i < |a| && a[i] && b[i] {
        var i :| 0 <= i < |a| && a[i] && b[i];
        if i > 0 {
          assert a[1..][i - 1] && b[1..][i - 1];
        }
      }
      if exists i :: 0 <= i < |a| - 1 && a[1..][i] && b[1..][i] {
        var i :| 0 <= i < |a| - 1 && a[1..][i] && b[1..][i];
        assert a[i + 1] && b[i + 1];
      }
      if x == 0 || y == 0 {
        assert Mask(a[1..]) == 0 || Mask(b[1..]) == 0;
        assert BitAnd(Mask(a[1..]), Mask(b[1..])) == 0;
      }
    }
  }

  // ---------------------------------------------------------------------
  // Objects

  datatype ObjectType = ObjectMesh | ObjectLamp | ObjectOther(code: int)
  datatype DupliType = DupliNone | DupliFrames | DupliVerts | DupliFaces | DupliGroup

  /** A modifier, as the emitter test reads it: whether it is a particle
      system modifier, and the particle settings' `use_render_emitter` —
      `None` when the particle system is null, `Some(None)` when its
      settings are. */
  datatype Modifier = Modifier(isParticleSystem: bool, renderEmitter: Option<Option<bool>>)

  datatype SceneObject = SceneObject(
    id: int,                   // the object's data pointer as an integer
    name: string,
    nodeName: string,          // the node name the data exporter gives it
    objectType: ObjectType,
    hasData: bool,
    hide: bool,
    hideRender: bool,
    layers: seq<bool>,
    isDuplicator: bool,
    dupliType: DupliType,
    dupliShowEmitter: bool,    // vray.dupliShowEmitter
    particleSystems: nat,      // number of particle systems
    modifiers: seq<Modifier>,
    isGeometry: bool,          // Blender::IsGeometry
    isLight: bool,             // Blender::IsLight
    useInstancer: bool)        // vray.use_instancer

  /** `is_hidden` in `sync_object`. */
  predicate IsHidden(ob: SceneObject, sceneLayers: seq<bool>)
  {
    ob.hide || ob.hideRender || BitAnd(Mask(ob.layers), Mask(sceneLayers)) == 0
  }

  /** With both layer sets of the same length: hidden iff hidden by a flag or
      on no layer the scene shows. */
  lemma IsHiddenIff(ob: SceneObject, sceneLayers: seq<bool>)
    requires |ob.layers| == |sceneLayers|
    ensures IsHidden(ob, sceneLayers) <==>
      ob.hide || ob.hideRender || forall i :: 0 <= i < |sceneLayers| ==> !(ob.layers[i] && sceneLayers[i])
  {
    MaskMeet(ob.layers, sceneLayers);
  }

  /** `ob_has_dupli`. */
  predicate HasDupli(ob: SceneObject)
  {
    ob.dupliType != DupliNone && ob.dupliType != DupliFrames
  }

  /** The emitter loop: a particle system modifier whose settings turn the
      render emitter off. */
  function EmitterHidden(mods: seq<Modifier>): (b: bool)
    ensures b <==> exists i :: 0 <= i < |mods| && mods[i].isParticleSystem && mods[i].renderEmitter == Some(Some(false))
  {
    if |mods| == 0 then false
    else if mods[0].isParticleSystem && mods[0].renderEmitter == Some(Some(false)) then true
    else
      assert forall i :: 1 <= i < |mods| ==> mods[i] == mods[1..][i - 1];
      EmitterHidden(mods[1..])
  }

  /** `ob_is_duplicator_renderable`: with particle systems, the particle
      systems decide; otherwise a dupli object shows its emitter only when
      asked to. */
  function IsDuplicatorRenderable(ob: SceneObject): (b: bool)
    ensures ob.particleSystems > 0 ==>
      (!b <==> exists i :: 0 <= i < |ob.modifiers| && ob.modifiers[i].isParticleSystem && ob.modifiers[i].renderEmitter == Some(Some(false)))
    ensures ob.particleSystems == 0 ==> (b <==> !HasDupli(ob) || ob.dupliShowEmitter)
  {
    var dupli := if HasDupli(ob) then ob.dupliShowEmitter else true;
    if ob.particleSystems > 0 then !EmitterHidden(ob.modifiers) else dupli
  }

  // ---------------------------------------------------------------------
  // sync_object and the id cache

  /** `ObjectOverridesAttrs`: none, or an override with its id, visibility
      and name prefix.  Its transform is not modelled. */
  datatype Override = NoOverride | Override(id: int, visible: bool, namePrefix: string)

  /** What the id cache holds: override ids and objects. */
  datatype CacheKey = OverrideKey(id: int) | ObjectKey(objectId: int)

  function KeyOf(ob: SceneObject, ov: Override): CacheKey
  {
    match ov
    case NoOverride => ObjectKey(ob.id)
    case Override(id, _, _) => OverrideKey(id)
  }

  datatype ExportKind = ExportMesh | ExportLight

  /** One call to the data exporter. */
  datatype Synced = Synced(key: CacheKey, kind: ExportKind, ob: SceneObject, ov: Override)

  datatype SyncState = SyncState(
    cache: set<CacheKey>,
    exported: seq<Synced>,
    instancers: seq<VrsceneExporter.PluginDesc>,
    checks: nat)              // interruption checks made so far

  /** Visible meshes and lamps with data are exported. */
  predicate ShouldExport(ob: SceneObject, sceneLayers: seq<bool>)
  {
    !IsHidden(ob, sceneLayers) && ob.hasData && (ob.objectType == ObjectMesh || ob.objectType == ObjectLamp)
  }

  /** `sync_object`: a key seen before does nothing; a new key is cached and,
      when the object should be exported, exported under that key. */
  function SyncObject(st: SyncState, sceneLayers: seq<bool>, ob: SceneObject, ov: Override): (r: SyncState)
    ensures r.cache == st.cache + {KeyOf(ob, ov)}
    ensures KeyOf(ob, ov) in st.cache ==> r == st
    ensures KeyOf(ob, ov) !in st.cache ==>
      r.exported == st.exported +
        (if ShouldExport(ob, sceneLayers)
         then [Synced(KeyOf(ob, ov), if ob.objectType == ObjectMesh then ExportMesh else ExportLight, ob, ov)]
         else [])
    ensures r.instancers == st.instancers && r.checks == st.checks
  {
    var key := KeyOf(ob, ov);
    if key in st.cache then st
    else
      var st1 := st.(cache := st.cache + {key});
      if IsHidden(ob, sceneLayers) then st1
      else if ob.hasData && ob.objectType == ObjectMesh then st1.(exported := st.exported + [Synced(key, ExportMesh, ob, ov)])
      else if ob.hasData && ob.objectType == ObjectLamp then st1.(exported := st.exported + [Synced(key, ExportLight, ob, ov)])
      else st1
  }

  /** Syncing the same object twice is syncing it once. */
  lemma SyncObjectIdempotent(st: SyncState, sceneLayers: seq<bool>, ob: SceneObject, ov: Override)
    ensures SyncObject(SyncObject(st, sceneLayers, ob, ov), sceneLayers, ob, ov) == SyncObject(st, sceneLayers, ob, ov)
  {
  }

  /** Every export is under a cached key, and no key is exported twice. */
  ghost predicate ExportedOnce(st: SyncState)
  {
    (forall i :: 0 <= i < |st.exported| ==> st.exported[i].key in st.cache) &&
    (forall i, j :: 0 <= i < j < |st.exported| ==> st.exported[i].key != st.exported[j].key)
  }

  lemma SyncObjectExportsOnce(st: SyncState, sceneLayers: seq<bool>, ob: SceneObject, ov: Override)
    requires ExportedOnce(st)
    ensures ExportedOnce(SyncObject(st, sceneLayers, ob, ov))
  {
  }

  // ---------------------------------------------------------------------
  // sync_dupli

  /** One entry of an object's dupli list. */
  datatype DupliObject = DupliObject(
    hide: bool,
    target: SceneObject,       // the instanced object
    persistentId: nat,         // the 32-bit hash of the persistent id
    tm: Transform)             // the instance transform relative to the object

  predicate DupliHidden(d: DupliObject)
  {
    d.hide || d.target.hideRender
  }

  /** The counting loop's test: visible and not a light. */
  predicate CountedAsWritten(d: DupliObject)
  {
    !DupliHidden(d) && !d.target.isLight
  }

  /** The fill loop's test: visible, geometry or light, and not a light. */
  predicate Fills(d: DupliObject)
  {
    !DupliHidden(d) && (d.target.isGeometry || d.target.isLight) && !d.target.isLight
  }

  function CountAsWritten(ds: seq<DupliObject>): nat
  {
    if |ds| == 0 then 0 else (if CountedAsWritten(ds[0]) then 1 else 0) + CountAsWritten(ds[1..])
  }

  /** The number of instancer slots the fill loop writes. */
  function FillCount(ds: seq<DupliObject>): (n: nat)
    ensures n <= |ds|
  {
    if |ds| == 0 then 0 else (if Fills(ds[0]) then 1 else 0) + FillCount(ds[1..])
  }

  /** The fill test implies the counting test, so the fill loop never writes
      past the slots the counting loop allocated. */
  lemma {:induction false} FillWithinCount(ds: seq<DupliObject>)
    ensures FillCount(ds) <= CountAsWritten(ds)
  {
    if |ds| > 0 {
      FillWithinCount(ds[1..]);
    }
  }

  /** A visible dupli that is neither geometry nor a light (an empty, say) is
      counted but never filled: its slot keeps a default item. */
  lemma CountLeavesUnfilledSlot(ob: SceneObject, tm: Transform)
    requires !ob.hideRender && !ob.isGeometry && !ob.isLight
    ensures var ds := [DupliObject(false, ob, 7, tm)];
      CountAsWritten(ds) == 1 && FillCount(ds) == 0
  {
    var ds := [DupliObject(false, ob, 7, tm)];
    assert ds[1..] == [];
  }

  /** The instancer item for a filled dupli: a default item with the
      dupli's id, transform and node filled in. */
  function ItemOf(blank: InstancerItem, d: DupliObject): InstancerItem
  {
    blank.(index := d.persistentId, tm := d.tm, node := PluginRef(d.target.nodeName, ""))
  }

  /** The items of the filled duplis, in order. */
  function FilledItems(ds: seq<DupliObject>, blank: InstancerItem): (r: seq<InstancerItem>)
    ensures |r| == FillCount(ds)
  {
    if |ds| == 0 then [] else (if Fills(ds[0]) then [ItemOf(blank, ds[0])] else []) + FilledItems(ds[1..], blank)
  }

  lemma FillStep(ds: seq<DupliObject>, j: nat, blank: InstancerItem)
    requires j < |ds|
    ensures FillCount(ds[j..]) == (if Fills(ds[j]) then 1 else 0) + FillCount(ds[j + 1..])
    ensures FilledItems(ds[j..], blank) == (if Fills(ds[j]) then [ItemOf(blank, ds[j])] else []) + FilledItems(ds[j + 1..], blank)
  {
    assert ds[j..][1..] == ds[j + 1..];
  }

  // Dupli-light names: "D" + decimal persistent id + "@" + parent name.

  function DigitChar(d: nat): char
    requires d < 10
  {
    ('0' as int + d) as char
  }

  predicate IsDigit(c: char)
  {
    '0' <= c <= '9'
  }

  /** `%u`: the decimal digits of `n`, most significant first. */
  function Decimal(n: nat): (s: string)
    ensures |s| >= 1
    ensures forall i :: 0 <= i < |s| ==> IsDigit(s[i])
  {
    if n < 10 then [DigitChar(n)] else Decimal(n / 10) + [DigitChar(n % 10)]
  }

  function ParseDecimal(s: string): nat
    requires forall i :: 0 <= i < |s| ==> IsDigit(s[i])
  {
    if |s| == 0 then 0
    else
      var last := s[|s| - 1];
      assert IsDigit(last);
      10 * ParseDecimal(s[..|s| - 1]) + (last as int - '0' as int)
  }

  lemma {:induction false} DecimalRoundTrip(n: nat)
    ensures ParseDecimal(Decimal(n)) == n
  {
    if n >= 10 {
      DecimalRoundTrip(n / 10);
      var s := Decimal(n);
      assert s[..|s| - 1] == Decimal(n / 10);
    }
  }

  /** The name prefix of a light instanced by a dupli. */
  function LightPrefix(persistentId: nat, parentName: string): string
  {
    "D" + Decimal(persistentId) + "@" + parentName
  }

  /** Reads a light prefix back: the id up to the first `@`, the parent name
      after it. */
  function ParseLightPrefix(s: string): Option<(nat, string)>
  {
    if |s| == 0 || s[0] != 'D' then None
    else match FindFrom(s, "@", 1)
      case None => None
      case Some(at) =>
        var digits := s[1..at];
        if forall i :: 0 <= i < |digits| ==> IsDigit(digits[i]) then Some((ParseDecimal(digits), s[at + 1..])) else None
  }

  /** The prefix determines the id and the parent name. */
  lemma LightPrefixRoundTrip(persistentId: nat, parentName: string)
    ensures ParseLightPrefix(LightPrefix(persistentId, parentName)) == Some((persistentId, parentName))
  {
    var dec := Decimal(persistentId);
    var s := LightPrefix(persistentId, parentName);
    var at := 1 + |dec|;
    assert s[at] == '@';
    assert OccursAt(s, "@", at);
    forall j | 1 <= j < at
      ensures !OccursAt(s, "@", j)
    {
      assert s[j] == dec[j - 1];
      assert s[j..j + 1][0] == s[j];
    }
    var found := FindFrom(s, "@", 1);
    assert found == Some(at);
    assert s[1..at] == dec;
    assert s[at + 1..] == parentName;
    DecimalRoundTrip(persistentId);
  }

  /** The override a dupli light is synced with. */
  function LightOverride(d: DupliObject, parent: SceneObject): Override
  {
    Override(d.persistentId, true, LightPrefix(d.persistentId, parent.name))
  }

  /** The override an instanced dupli is synced with: the object itself is
      shown only if its emitter is. */
  function InstanceOverride(d: DupliObject): Override
  {
    Override(d.target.id, IsDuplicatorRenderable(d.target), "")
  }

  /** One interruption check: counts the read and answers whether the break
      flag is up. */
  function Tick(st: SyncState): SyncState
  {
    st.(checks := st.checks + 1)
  }

  predicate Interrupted(st: SyncState, breakAt: nat)
  {
    st.checks >= breakAt
  }

  datatype DupliRun = DupliRun(st: SyncState, items: seq<InstancerItem>, filled: nat, interrupted: bool)

  /** What the fill loop does to the sync state for one dupli: a visible
      light is synced under its own id and name prefix, a visible geometry
      under its object's id when instancing. */
  function DupliStep(st: SyncState, sceneLayers: seq<bool>, ob: SceneObject, d: DupliObject): (r: SyncState)
    ensures r.cache >= st.cache && r.instancers == st.instancers && r.checks == st.checks
    ensures !DupliHidden(d) && d.target.isLight ==>
      r.cache == st.cache + {OverrideKey(d.persistentId)} &&
      r == SyncObject(st, sceneLayers, d.target, Override(d.persistentId, true, "D" + Decimal(d.persistentId) + "@" + ob.name))
    ensures !DupliHidden(d) && d.target.isGeometry && !d.target.isLight && ob.useInstancer ==>
      r.cache == st.cache + {OverrideKey(d.target.id)} &&
      r == SyncObject(st, sceneLayers, d.target, Override(d.target.id, IsDuplicatorRenderable(d.target), ""))
    ensures DupliHidden(d) || !(d.target.isGeometry || d.target.isLight) || (!d.target.isLight && !ob.useInstancer) ==> r == st
  {
    if DupliHidden(d) || !(d.target.isGeometry || d.target.isLight) then st
    else if d.target.isLight then SyncObject(st, sceneLayers, d.target, LightOverride(d, ob))
    else if ob.useInstancer then SyncObject(st, sceneLayers, d.target, InstanceOverride(d))
    else st
  }

  /** The fill loop of `sync_dupli` from dupli `j` on, with `di` slots
      written so far. */
  function DupliLoop(st: SyncState, sceneLayers: seq<bool>, ob: SceneObject, ds: seq<DupliObject>, j: nat,
                     items: seq<InstancerItem>, di: nat, blank: InstancerItem, breakAt: nat): (r: DupliRun)
    requires j <= |ds|
    requires ob.useInstancer ==> di + FillCount(ds[j..]) <= |items|
    ensures |r.items| == |items| && r.st.instancers == st.instancers && r.st.cache >= st.cache
    ensures r.interrupted ==> Interrupted(r.st, breakAt)
    decreases |ds| - j
  {
    if j == |ds| then DupliRun(st, items, di, false)
    else if Interrupted(st, breakAt) then DupliRun(Tick(st), items, di, true)
    else
      var d := ds[j];
      var st1 := DupliStep(Tick(st), sceneLayers, ob, d);
      FillStep(ds, j, blank);
      if ob.useInstancer && Fills(d) then
        DupliLoop(st1, sceneLayers, ob, ds, j + 1, items[di := ItemOf(blank, d)], di + 1, blank, breakAt)
      else
        DupliLoop(st1, sceneLayers, ob, ds, j + 1, items, di, blank, breakAt)
  }

  /** An uninterrupted fill loop writes the filled items into the slots from
      `di` on, in order, and leaves every other slot as it was. */
  lemma {:induction false} DupliLoopItems(st: SyncState, sceneLayers: seq<bool>, ob: SceneObject, ds: seq<DupliObject>, j: nat,
                                          items: seq<InstancerItem>, di: nat, blank: InstancerItem, breakAt: nat)
    requires j <= |ds|
    requires ob.useInstancer && di + FillCount(ds[j..]) <= |items|
    ensures var r := DupliLoop(st, sceneLayers, ob, ds, j, items, di, blank, breakAt);
      !r.interrupted ==>
        r.filled == di + FillCount(ds[j..]) &&
        r.items == items[..di] + FilledItems(ds[j..], blank) + items[di + FillCount(ds[j..])..]
    decreases |ds| - j
  {
    if j == |ds| {
      assert items[..di] + [] + items[di..] == items;
    } else if !Interrupted(st, breakAt) {
      var d := ds[j];
      var st1 := DupliStep(Tick(st), sceneLayers, ob, d);
      FillStep(ds, j, blank);
      if Fills(d) {
        var items1 := items[di := ItemOf(blank, d)];
        DupliLoopItems(st1, sceneLayers, ob, ds, j + 1, items1, di + 1, blank, breakAt);
        assert items1[..di + 1] == items[..di] + [ItemOf(blank, d)];
        assert items1[di + 1 + FillCount(ds[j + 1..])..] == items[di + FillCount(ds[j..])..];
      } else {
        DupliLoopItems(st1, sceneLayers, ob, ds, j + 1, items, di, blank, breakAt);
      }
    }
  }

  /** The fill loop is interrupted iff the break flag is up at one of its
      checks. */
  lemma {:induction false} DupliLoopInterrupted(st: SyncState, sceneLayers: seq<bool>, ob: SceneObject, ds: seq<DupliObject>, j: nat,
                                                items: seq<InstancerItem>, di: nat, blank: InstancerItem, breakAt: nat)
    requires j <= |ds|
    requires ob.useInstancer ==> di + FillCount(ds[j..]) <= |items|
    ensures DupliLoop(st, sceneLayers, ob, ds, j, items, di, blank, breakAt).interrupted <==>
      j < |ds| && breakAt < st.checks + (|ds| - j)
    decreases |ds| - j
  {
    if j < |ds| && !Interrupted(st, breakAt) {
      var d := ds[j];
      var st1 := DupliStep(Tick(st), sceneLayers, ob, d);
      FillStep(ds, j, blank);
      if ob.useInstancer && Fills(d) {
        DupliLoopInterrupted(st1, sceneLayers, ob, ds, j + 1, items[di := ItemOf(blank, d)], di + 1, blank, breakAt);
      } else {
        DupliLoopInterrupted(st1, sceneLayers, ob, ds, j + 1, items, di, blank, breakAt);
      }
    }
  }

  /** The instancer record of a duplicator. */
  function InstancerDesc(ob: SceneObject, items: seq<InstancerItem>): VrsceneExporter.PluginDesc
  {
    VrsceneExporter.PluginDesc("Dupli@" + ob.nodeName, "Instancer",
      [VrsceneExporter.PluginAttr("instances", ValueInstancer(Instancer(0, items)))])
  }

  /** `sync_dupli`, sizing the instancer by `count` slots of `blank`. */
  function SyncDupliWith(st: SyncState, sceneLayers: seq<bool>, ob: SceneObject, ds: seq<DupliObject>,
                         count: nat, blank: InstancerItem, breakAt: nat): (r: SyncState)
    requires count >= FillCount(ds)
    ensures r.cache >= st.cache
    ensures !ob.useInstancer ==> r.instancers == st.instancers
  {
    var items := if ob.useInstancer then seq(count, _ => blank) else [];
    var st1 := Tick(st);
    if Interrupted(st, breakAt) then st1
    else
      assert ds[0..] == ds;
      var run := DupliLoop(st1, sceneLayers, ob, ds, 0, items, 0, blank, breakAt);
      if run.interrupted then run.st
      else if ob.useInstancer then run.st.(instancers := run.st.instancers + [InstancerDesc(ob, run.items)])
      else run.st
  }

  /** `sync_dupli` as written: the instancer has a slot for every visible
      non-light dupli. */
  function SyncDupliAsWritten(st: SyncState, sceneLayers: seq<bool>, ob: SceneObject, ds: seq<DupliObject>,
                              blank: InstancerItem, breakAt: nat): SyncState
  {
    FillWithinCount(ds);
    SyncDupliWith(st, sceneLayers, ob, ds, CountAsWritten(ds), blank, breakAt)
  }

  /** `sync_dupli` with one slot per filled dupli. */
  function SyncDupli(st: SyncState, sceneLayers: seq<bool>, ob: SceneObject, ds: seq<DupliObject>,
                     blank: InstancerItem, breakAt: nat): SyncState
  {
    SyncDupliWith(st, sceneLayers, ob, ds, FillCount(ds), blank, breakAt)
  }

  /** Without interruption, an instancing duplicator sized for `count`
      slots exports one instancer record: the filled items, in order, then
      the slots nothing filled. */
  lemma SyncDupliWithInstancer(st: SyncState, sceneLayers: seq<bool>, ob: SceneObject, ds: seq<DupliObject>,
                               count: nat, blank: InstancerItem, breakAt: nat)
    requires ob.useInstancer && count >= FillCount(ds)
    requires st.checks + 1 + |ds| <= breakAt
    ensures SyncDupliWith(st, sceneLayers, ob, ds, count, blank, breakAt).instancers ==
      st.instancers + [InstancerDesc(ob, FilledItems(ds, blank) + seq(count - FillCount(ds), _ => blank))]
  {
    var items := seq(count, _ => blank);
    assert ds[0..] == ds;
    DupliLoopInterrupted(Tick(st), sceneLayers, ob, ds, 0, items, 0, blank, breakAt);
    DupliLoopItems(Tick(st), sceneLayers, ob, ds, 0, items, 0, blank, breakAt);
    var run := DupliLoop(Tick(st), sceneLayers, ob, ds, 0, items, 0, blank, breakAt);
    assert !run.interrupted;
    assert items[..0] == [];
    assert items[FillCount(ds)..] == seq(count - FillCount(ds), _ => blank);
    assert run.items == FilledItems(ds, blank) + seq(count - FillCount(ds), _ => blank);
  }

  /** Without interruption, an instancing duplicator exports exactly one
      record, named `Dupli@<node name>`, of type `Instancer`, whose items are
      those of the filled duplis in order — every slot filled. */
  lemma SyncDupliInstancer(st: SyncState, sceneLayers: seq<bool>, ob: SceneObject, ds: seq<DupliObject>,
                           blank: InstancerItem, breakAt: nat)
    requires ob.useInstancer
    requires st.checks + 1 + |ds| <= breakAt
    ensures SyncDupli(st, sceneLayers, ob, ds, blank, breakAt).instancers ==
      st.instancers + [VrsceneExporter.PluginDesc("Dupli@" + ob.nodeName, "Instancer",
        [VrsceneExporter.PluginAttr("instances", ValueInstancer(Instancer(0, FilledItems(ds, blank))))])]
  {
    SyncDupliWithInstancer(st, sceneLayers, ob, ds, FillCount(ds), blank, breakAt);
    assert FilledItems(ds, blank) + seq(0, _ => blank) == FilledItems(ds, blank);
  }

  /** As written, the same record carries the filled items followed by a
      default item for every counted but unfilled dupli. */
  lemma SyncDupliAsWrittenInstancer(st: SyncState, sceneLayers: seq<bool>, ob: SceneObject, ds: seq<DupliObject>,
                                    blank: InstancerItem, breakAt: nat)
    requires ob.useInstancer
    requires st.checks + 1 + |ds| <= breakAt
    ensures FillCount(ds) <= CountAsWritten(ds)
    ensures SyncDupliAsWritten(st, sceneLayers, ob, ds, blank, breakAt).instancers ==
      st.instancers + [InstancerDesc(ob, FilledItems(ds, blank) + seq(CountAsWritten(ds) - FillCount(ds), _ => blank))]
  {
    FillWithinCount(ds);
    SyncDupliWithInstancer(st, sceneLayers, ob, ds, CountAsWritten(ds), blank, breakAt);
  }

  /** A duplicator that does not instance exports no instancer record. */
  lemma SyncDupliWithoutInstancer(st: SyncState, sceneLayers: seq<bool>, ob: SceneObject, ds: seq<DupliObject>,
                                  blank: InstancerItem, breakAt: nat)
    requires !ob.useInstancer
    ensures SyncDupli(st, sceneLayers, ob, ds, blank, breakAt).instancers == st.instancers
  {
  }

  /** Whatever the break flag does, a duplicator exports at most its one
      instancer record, and an instancing duplicator that the flag did not
      stop has exported it. */
  lemma SyncDupliWithOutcome(st: SyncState, sceneLayers: seq<bool>, ob: SceneObject, ds: seq<DupliObject>,
                             count: nat, blank: InstancerItem, breakAt: nat)
    requires count >= FillCount(ds)
    ensures var r := SyncDupliWith(st, sceneLayers, ob, ds, count, blank, breakAt);
      var rec := InstancerDesc(ob, FilledItems(ds, blank) + seq(count - FillCount(ds), _ => blank));
      (r.instancers == st.instancers || (ob.useInstancer && r.instancers == st.instancers + [rec])) &&
      (ob.useInstancer && !Interrupted(r, breakAt) ==> r.instancers == st.instancers + [rec])
  {
    if ob.useInstancer && !Interrupted(st, breakAt) {
      var items := seq(count, _ => blank);
      assert ds[0..] == ds;
      DupliLoopItems(Tick(st), sceneLayers, ob, ds, 0, items, 0, blank, breakAt);
      var run := DupliLoop(Tick(st), sceneLayers, ob, ds, 0, items, 0, blank, breakAt);
      if !run.interrupted {
        assert items[..0] == [];
        assert items[FillCount(ds)..] == seq(count - FillCount(ds), _ => blank);
        assert run.items == FilledItems(ds, blank) + seq(count - FillCount(ds), _ => blank);
      }
    }
  }

  // ---------------------------------------------------------------------
  // sync_objects

  /** Every export is of a visible mesh or lamp with data, as a mesh or a
      light according to its type, under a cached key, and no key twice. */
  ghost predicate Sound(st: SyncState, sceneLayers: seq<bool>)
  {
    ExportedOnce(st) &&
    forall i :: 0 <= i < |st.exported| ==>
      ShouldExport(st.exported[i].ob, sceneLayers) &&
      st.exported[i].key == KeyOf(st.exported[i].ob, st.exported[i].ov) &&
      (st.exported[i].kind == ExportMesh <==> st.exported[i].ob.objectType == ObjectMesh)
  }

  lemma SyncObjectSound(st: SyncState, sceneLayers: seq<bool>, ob: SceneObject, ov: Override)
    requires Sound(st, sceneLayers)
    ensures Sound(SyncObject(st, sceneLayers, ob, ov), sceneLayers)
  {
    SyncObjectExportsOnce(st, sceneLayers, ob, ov);
  }

  lemma DupliStepSound(st: SyncState, sceneLayers: seq<bool>, ob: SceneObject, d: DupliObject)
    requires Sound(st, sceneLayers)
    ensures Sound(DupliStep(st, sceneLayers, ob, d), sceneLayers)
  {
    if !DupliHidden(d) && d.target.isLight {
      SyncObjectSound(st, sceneLayers, d.target, LightOverride(d, ob));
    } else if !DupliHidden(d) && d.target.isGeometry && ob.useInstancer {
      SyncObjectSound(st, sceneLayers, d.target, InstanceOverride(d));
    }
  }

  lemma {:induction false} DupliLoopSound(st: SyncState, sceneLayers: seq<bool>, ob: SceneObject, ds: seq<DupliObject>, j: nat,
                                          items: seq<InstancerItem>, di: nat, blank: InstancerItem, breakAt: nat)
    requires j <= |ds|
    requires ob.useInstancer ==> di + FillCount(ds[j..]) <= |items|
    requires Sound(st, sceneLayers)
    ensures Sound(DupliLoop(st, sceneLayers, ob, ds, j, items, di, blank, breakAt).st, sceneLayers)
    decreases |ds| - j
  {
    if j < |ds| && !Interrupted(st, breakAt) {
      var d := ds[j];
      DupliStepSound(Tick(st), sceneLayers, ob, d);
      var st1 := DupliStep(Tick(st), sceneLayers, ob, d);
      FillStep(ds, j, blank);
      if ob.useInstancer && Fills(d) {
        DupliLoopSound(st1, sceneLayers, ob, ds, j + 1, items[di := ItemOf(blank, d)], di + 1, blank, breakAt);
      } else {
        DupliLoopSound(st1, sceneLayers, ob, ds, j + 1, items, di, blank, breakAt);
      }
    }
  }

  lemma SyncDupliSound(st: SyncState, sceneLayers: seq<bool>, ob: SceneObject, ds: seq<DupliObject>,
                       count: nat, blank: InstancerItem, breakAt: nat)
    requires count >= FillCount(ds)
    requires Sound(st, sceneLayers)
    ensures Sound(SyncDupliWith(st, sceneLayers, ob, ds, count, blank, breakAt), sceneLayers)
  {
    var items := if ob.useInstancer then seq(count, _ => blank) else [];
    assert ds[0..] == ds;
    DupliLoopSound(Tick(st), sceneLayers, ob, ds, 0, items, 0, blank, breakAt);
  }

  /** A scene object with, for a duplicator, its dupli list. */
  datatype SceneEntry = SceneEntry(ob: SceneObject, duplis: seq<DupliObject>)

  /** The key a scene object is synced under: a duplicator as an override
      with its own id, anything else as itself. */
  function EntryKey(e: SceneEntry): CacheKey
  {
    if e.ob.isDuplicator then OverrideKey(e.ob.id) else ObjectKey(e.ob.id)
  }

  function EntryOverride(e: SceneEntry): Override
  {
    if e.ob.isDuplicator then Override(e.ob.id, IsDuplicatorRenderable(e.ob), "") else NoOverride
  }

  datatype SyncRun = SyncRun(st: SyncState, stopped: bool)

  /** `sync_objects` from scene object `k` on. */
  function SyncObjectsFrom(st: SyncState, sceneLayers: seq<bool>, entries: seq<SceneEntry>, k: nat,
                           blank: InstancerItem, breakAt: nat): (r: SyncRun)
    requires k <= |entries|
    ensures r.st.cache >= st.cache
    ensures r.stopped ==> breakAt < r.st.checks
    decreases |entries| - k
  {
    if k == |entries| then SyncRun(st, false)
    else if Interrupted(st, breakAt) then SyncRun(Tick(st), true)
    else
      var e := entries[k];
      var st1 := Tick(st);
      if e.ob.isDuplicator then
        var st2 := SyncDupliAsWritten(st1, sceneLayers, e.ob, e.duplis, blank, breakAt);
        if Interrupted(st2, breakAt) then SyncRun(Tick(st2), true)
        else SyncObjectsFrom(SyncObject(Tick(st2), sceneLayers, e.ob, EntryOverride(e)), sceneLayers, entries, k + 1, blank, breakAt)
      else
        SyncObjectsFrom(SyncObject(st1, sceneLayers, e.ob, NoOverride), sceneLayers, entries, k + 1, blank, breakAt)
  }

  lemma {:induction false} SyncObjectsSound(st: SyncState, sceneLayers: seq<bool>, entries: seq<SceneEntry>, k: nat,
                                            blank: InstancerItem, breakAt: nat)
    requires k <= |entries|
    requires Sound(st, sceneLayers)
    ensures Sound(SyncObjectsFrom(st, sceneLayers, entries, k, blank, breakAt).st, sceneLayers)
    decreases |entries| - k
  {
    if k < |entries| && !Interrupted(st, breakAt) {
      var e := entries[k];
      var st1 := Tick(st);
      if e.ob.isDuplicator {
        FillWithinCount(e.duplis);
        SyncDupliSound(st1, sceneLayers, e.ob, e.duplis, CountAsWritten(e.duplis), blank, breakAt);
        var st2 := SyncDupliAsWritten(st1, sceneLayers, e.ob, e.duplis, blank, breakAt);
        if !Interrupted(st2, breakAt) {
          SyncObjectSound(Tick(st2), sceneLayers, e.ob, EntryOverride(e));
          SyncObjectsSound(SyncObject(Tick(st2), sceneLayers, e.ob, EntryOverride(e)), sceneLayers, entries, k + 1, blank, breakAt);
        }
      } else {
        SyncObjectSound(st1, sceneLayers, e.ob, NoOverride);
        SyncObjectsSound(SyncObject(st1, sceneLayers, e.ob, NoOverride), sceneLayers, entries, k + 1, blank, breakAt);
      }
    }
  }

  /** A walk that was not stopped has synced every scene object. */
  lemma {:induction false} SyncObjectsComplete(st: SyncState, sceneLayers: seq<bool>, entries: seq<SceneEntry>, k: nat,
                                               blank: InstancerItem, breakAt: nat)
    requires k <= |entries|
    ensures var r := SyncObjectsFrom(st, sceneLayers, entries, k, blank, breakAt);
      !r.stopped ==> forall m :: k <= m < |entries| ==> EntryKey(entries[m]) in r.st.cache
    decreases |entries| - k
  {
    if k < |entries| && !Interrupted(st, breakAt) {
      var e := entries[k];
      var st1 := Tick(st);
      if e.ob.isDuplicator {
        var st2 := SyncDupliAsWritten(st1, sceneLayers, e.ob, e.duplis, blank, breakAt);
        if !Interrupted(st2, breakAt) {
          SyncObjectsComplete(SyncObject(Tick(st2), sceneLayers, e.ob, EntryOverride(e)), sceneLayers, entries, k + 1, blank, breakAt);
        }
      } else {
        SyncObjectsComplete(SyncObject(st1, sceneLayers, e.ob, NoOverride), sceneLayers, entries, k + 1, blank, breakAt);
      }
    }
  }

  /** The instancer record an instancing duplicator exports, as written:
      the items of its filled duplis, then a default item for every visible
      non-light dupli that nothing filled. */
  function DupliRecord(e: SceneEntry, blank: InstancerItem): VrsceneExporter.PluginDesc
  {
    FillWithinCount(e.duplis);
    InstancerDesc(e.ob, FilledItems(e.duplis, blank) + seq(CountAsWritten(e.duplis) - FillCount(e.duplis), _ => blank))
  }

  /** The instancer records of the instancing duplicators among `entries`,
      in scene order. */
  function Records(entries: seq<SceneEntry>, blank: InstancerItem): seq<VrsceneExporter.PluginDesc>
  {
    if |entries| == 0 then []
    else
      (if entries[0].ob.isDuplicator && entries[0].ob.useInstancer then [DupliRecord(entries[0], blank)] else [])
        + Records(entries[1..], blank)
  }

  lemma PrefixAppend<T>(a: seq<T>, b: seq<T>)
    ensures a <= a + b
  {
    assert (a + b)[..|a|] == a;
  }

  lemma PrefixTrans<T>(a: seq<T>, b: seq<T>, c: seq<T>)
    requires a <= b && b <= c
    ensures a <= c
  {
    assert c[..|b|][..|a|] == c[..|a|];
  }

  /** Appending to both sides keeps a prefix a prefix. */
  lemma PrefixShift<T>(a: seq<T>, b: seq<T>, c: seq<T>)
    requires b <= c
    ensures a + b <= a + c
  {
    assert (a + c)[..|a + b|] == a + c[..|b|];
  }

  /** A duplicator's dupli pass exports its record or nothing, and has
      exported it once the break flag has not stopped it. */
  lemma DupliEntryRecord(st: SyncState, sceneLayers: seq<bool>, e: SceneEntry, blank: InstancerItem, breakAt: nat)
    ensures var st2 := SyncDupliAsWritten(st, sceneLayers, e.ob, e.duplis, blank, breakAt);
      var here := if e.ob.useInstancer then [DupliRecord(e, blank)] else [];
      (st2.instancers == st.instancers || st2.instancers == st.instancers + here) &&
      (!Interrupted(st2, breakAt) ==> st2.instancers == st.instancers + here)
  {
    FillWithinCount(e.duplis);
    SyncDupliWithOutcome(st, sceneLayers, e.ob, e.duplis, CountAsWritten(e.duplis), blank, breakAt);
    if !e.ob.useInstancer {
      assert st.instancers + [] == st.instancers;
    }
  }

  /** The walk from object `k` on appends the records of the instancing
      duplicators after it, in order: all of them when it was not stopped,
      the records of a leading part of them when it was. */
  lemma {:induction false} SyncObjectsInstancers(st: SyncState, sceneLayers: seq<bool>, entries: seq<SceneEntry>, k: nat,
                                                 blank: InstancerItem, breakAt: nat)
    requires k <= |entries|
    ensures var r := SyncObjectsFrom(st, sceneLayers, entries, k, blank, breakAt);
      st.instancers <= r.st.instancers <= st.instancers + Records(entries[k..], blank) &&
      (!r.stopped ==> r.st.instancers == st.instancers + Records(entries[k..], blank))
    decreases |entries| - k
  {
    if k == |entries| {
      assert entries[k..] == [];
      assert st.instancers + [] == st.instancers;
    } else {
      var e := entries[k];
      var rest := Records(entries[k + 1..], blank);
      var here := if e.ob.isDuplicator && e.ob.useInstancer then [DupliRecord(e, blank)] else [];
      var all := st.instancers + Records(entries[k..], blank);
      assert all == (st.instancers + here) + rest by {
        assert entries[k..][0] == e && entries[k..][1..] == entries[k + 1..];
      }
      assert st.instancers <= all && st.instancers + here <= all by {
        PrefixAppend(st.instancers, here);
        PrefixAppend(st.instancers + here, rest);
        PrefixTrans(st.instancers, st.instancers + here, all);
      }
      if !Interrupted(st, breakAt) {
        var st1 := Tick(st);
        if e.ob.isDuplicator {
          DupliEntryRecord(st1, sceneLayers, e, blank, breakAt);
          var st2 := SyncDupliAsWritten(st1, sceneLayers, e.ob, e.duplis, blank, breakAt);
          if !Interrupted(st2, breakAt) {
            var st3 := SyncObject(Tick(st2), sceneLayers, e.ob, EntryOverride(e));
            assert st3.instancers == st.instancers + here;
            SyncObjectsInstancers(st3, sceneLayers, entries, k + 1, blank, breakAt);
            var r3 := SyncObjectsFrom(st3, sceneLayers, entries, k + 1, blank, breakAt);
            PrefixTrans(st.instancers, st3.instancers, r3.st.instancers);
          } else {
            assert st.instancers <= st2.instancers by {
              PrefixAppend(st.instancers, []);
              PrefixAppend(st.instancers, here);
            }
          }
        } else {
          var st3 := SyncObject(st1, sceneLayers, e.ob, NoOverride);
          SyncObjectsInstancers(st3, sceneLayers, entries, k + 1, blank, breakAt);
        }
      }
    }
  }

  /** The object pass of `sync`: `sync_prepass` empties the id cache, then
      `sync_objects` walks the scene. */
  function SyncScene(sceneLayers: seq<bool>, entries: seq<SceneEntry>, blank: InstancerItem, breakAt: nat): (r: SyncRun)
    ensures Sound(r.st, sceneLayers)
    ensures !r.stopped ==> forall m :: 0 <= m < |entries| ==> EntryKey(entries[m]) in r.st.cache
    ensures !r.stopped ==> r.st.instancers == Records(entries, blank)
    ensures r.st.instancers <= Records(entries, blank)
    ensures r.stopped ==> breakAt < r.st.checks
  {
    var st := SyncState({}, [], [], 0);
    SyncObjectsSound(st, sceneLayers, entries, 0, blank, breakAt);
    SyncObjectsComplete(st, sceneLayers, entries, 0, blank, breakAt);
    SyncObjectsInstancers(st, sceneLayers, entries, 0, blank, breakAt);
    assert entries[0..] == entries;
    assert [] + Records(entries, blank) == Records(entries, blank);
    SyncObjectsFrom(st, sceneLayers, entries, 0, blank, breakAt)
  }

  // ---------------------------------------------------------------------
  // Work-mode gates

  /** `render_start` starts the renderer only in the render and the
      render-and-export modes. */
  predicate StartsRenderer(mode: ExportSettings.WorkMode)
  {
    mode == ExportSettings.WorkModeRender || mode == ExportSettings.WorkModeRenderAndExport
  }

  /** `sync` writes the vrscene file only in the export-only and the
      render-and-export modes. */
  predicate ExportsVrscene(mode: ExportSettings.WorkMode)
  {
    mode == ExportSettings.WorkModeExportOnly || mode == ExportSettings.WorkModeRenderAndExport
  }

  /** The file `sync` exports to. */
  const VrsceneExportPath: string := "scene_app_sdk.vrscene"

  /** The vrscene file `sync` writes after the object pass, if any. */
  function SyncExportTarget(mode: ExportSettings.WorkMode): Option<string>
  {
    if ExportsVrscene(mode) then Some(VrsceneExportPath) else None
  }

  /** `sync` writes `scene_app_sdk.vrscene` in the export-only and the
      render-and-export modes, and no file in the render mode or under a
      work-mode value outside the named ones. */
  lemma SyncExportGate(mode: ExportSettings.WorkMode)
    ensures SyncExportTarget(mode) == Some("scene_app_sdk.vrscene") <==>
      mode == ExportSettings.WorkModeExportOnly || mode == ExportSettings.WorkModeRenderAndExport
    ensures SyncExportTarget(mode).None? <==> mode == ExportSettings.WorkModeRender || mode.WorkModeOther?
  {
  }

  /** The two gates split the work modes four ways: render-and-export does
      both, render only renders, export-only only exports, and a work-mode
      value outside the three named ones does neither. */
  lemma WorkModeGates(mode: ExportSettings.WorkMode)
    ensures StartsRenderer(mode) && ExportsVrscene(mode) <==> mode == ExportSettings.WorkModeRenderAndExport
    ensures StartsRenderer(mode) && !ExportsVrscene(mode) <==> mode == ExportSettings.WorkModeRender
    ensures !StartsRenderer(mode) && ExportsVrscene(mode) <==> mode == ExportSettings.WorkModeExportOnly
    ensures !StartsRenderer(mode) && !ExportsVrscene(mode) <==> mode.WorkModeOther?
  {
  }
}

=== FILE: value_codec.dfy ===
/** The vrscene value codec: the `operator<<` overloads of the plugin writer
    and the `printList<std::string>` specialisation.

    Each overload streams a typed attribute value into the writer; here each
    is a function from the value, the export format and the writer's current
    indentation depth to the text it streams.  All overloads leave the depth
    where they found it, so the depth is an argument and not a result.

    The numeric `printf` conversions, `StripString`, the hex packing of a
    transform and the pieces declared only in the writer's header (what
    `indent()`/`unindent()` stream, the indentation unit, the generic
    `printList` template and the list overloads not defined in this file) are
    not part of this model: they are the fields of a `Fmt` record that every
    rendering function takes, so nothing is assumed about them beyond their
    types. */
module ValueCodec {
  import opened Base

  /** `ExporterSettings::ExportFormat`: only ASCII selects the plain transform
      encoding; ZIP is the value preview forces. */
  datatype ExportFormat = ExportFormatASCII | ExportFormatZIP | ExportFormatOther(code: int)

  datatype Color = Color(r: real, g: real, b: real)
  datatype AColor = AColor(color: Color, alpha: real)
  datatype Vector = Vector(x: real, y: real, z: real)
  datatype Vector2 = Vector2(x: real, y: real)
  datatype Matrix = Matrix(v0: Vector, v1: Vector, v2: Vector)
  datatype Transform = Transform(m: Matrix, offs: Vector)

  /** `AttrPlugin`: a reference to another plugin, optionally to one of its
      outputs (empty `output` means none). */
  datatype PluginRef = PluginRef(plugin: string, output: string)

  /** One entry of `AttrMapChannels`: the vertex and face lists of a channel. */
  datatype MapChannel = MapChannel(vertices: seq<Vector>, faces: seq<int>)

  /** One `AttrInstancer::Item`. */
  datatype InstancerItem = InstancerItem(index: int, tm: Transform, vel: Transform, node: PluginRef)

  datatype Instancer = Instancer(frameNumber: int, data: seq<InstancerItem>)

  /** `AttrValue`: exactly one variant per `ValueType` tag the writer's
      dispatch handles, plus the unknown tag. */
  datatype AttrValue =
    | ValueInt(i: int)
    | ValueFloat(f: real)
    | ValueString(s: string)
    | ValueColor(c: Color)
    | ValueVector(v: Vector)
    | ValueAColor(ac: AColor)
    | ValuePlugin(p: PluginRef)
    | ValueTransform(t: Transform)
    | ValueMatrix(m: Matrix)
    | ValueListInt(ints: seq<int>)
    | ValueListFloat(floats: seq<real>)
    | ValueListVector(vectors: seq<Vector>)
    | ValueListColor(colors: seq<Color>)
    | ValueListPlugin(plugins: seq<PluginRef>)
    | ValueListString(strings: seq<string>)
    | ValueMapChannels(channels: seq<(string, MapChannel)>)
    | ValueInstancer(inst: Instancer)
    | ValueListValue(values: seq<AttrValue>)
    | ValueUnknown

  /** The list overloads whose definitions live in the writer's header. */
  datatype HeaderListKind = ColorList | PluginList

  /** The formatting primitives this model keeps abstract. */
  datatype Fmt = Fmt(
    dec: int -> string,                                  // "%d"
    fixed4: real -> string,                              // "%.4f"
    general: real -> string,                             // "%g"
    strip: string -> string,                             // StripString
    hex: Transform -> string,                            // getStringHex of the packed transform
    indentUnit: string,                                  // VRSCENE_INDENT
    indentText: int -> string,                           // what indent() streams, given the new depth
    unindentText: int -> string,                         // what unindent() streams, given the new depth
    printList: (string, seq<string>, Option<int>, int) -> string,
                                                         // generic printList(name, items, itemsPerLine or default, depth)
    headerList: (HeaderListKind, seq<string>, int) -> string,
                                                         // the AttrListColor / AttrListPlugin overloads
    stringListName: string,                              // list name the AttrListString overload passes
    stringListItemsPerLine: int,                         // items per line it passes
    animatedValue: (Option<int>, string) -> string       // what KVPair<AttrValue> makes of a value's text
                                                         // at the writer's animation frame
  )

  /** `PluginWriter::indentation`: `depth` copies of the indent unit for depth
      0 to 4, nothing for any other depth. */
  function Indentation(unit: string, depth: int): (r: string)
    ensures (depth < 0 || depth > 4) ==> r == ""
  {
    match depth
    case 0 => ""
    case 1 => unit
    case 2 => unit + unit
    case 3 => unit + unit + unit
    case 4 => unit + unit + unit + unit
    case _ => ""
  }

  /** For depths 0 to 4 the indentation is exactly `depth` indent units. */
  lemma IndentationIsRepeat(unit: string, depth: int)
    requires 0 <= depth <= 4
    ensures Indentation(unit, depth) == Repeat(unit, depth)
  {
    assert Repeat(unit, 0) == "";
    assert Repeat(unit, 1) == "" + unit == unit;
    assert Repeat(unit, 2) == unit + unit;
    assert Repeat(unit, 3) == unit + unit + unit;
    assert Repeat(unit, 4) == unit + unit + unit + unit;
  }

  /** The depth a new writer starts at (`m_depth(1)`). */
  const InitialDepth: int := 1

  function ColorText(fmt: Fmt, c: Color): string
  {
    "Color(" + fmt.general(c.r) + "," + fmt.general(c.g) + "," + fmt.general(c.b) + ")"
  }

  function AColorText(fmt: Fmt, c: AColor): string
  {
    "AColor(" + fmt.general(c.color.r) + "," + fmt.general(c.color.g) + "," + fmt.general(c.color.b)
      + "," + fmt.general(c.alpha) + ")"
  }

  function VectorText(fmt: Fmt, v: Vector): string
  {
    "Vector(" + fmt.general(v.x) + "," + fmt.general(v.y) + "," + fmt.general(v.z) + ")"
  }

  /** A 2-vector is written as a 3-vector whose third component is the literal `0`. */
  function Vector2Text(fmt: Fmt, v: Vector2): (r: string)
    ensures fmt.general(0.0) == "0" ==> r == VectorText(fmt, Vector(v.x, v.y, 0.0))
  {
    "Vector(" + fmt.general(v.x) + "," + fmt.general(v.y) + ",0)"
  }

  function MatrixText(fmt: Fmt, m: Matrix): string
  {
    "Matrix(" + VectorText(fmt, m.v0) + "," + VectorText(fmt, m.v1) + "," + VectorText(fmt, m.v2) + ")"
  }

  /** A transform in the plain encoding for ASCII output, packed and
      hex-encoded for every other format.  The prefix tells the encodings
      apart, and the payload between the brackets is the matrix and offset,
      or the hex string, as it stands. */
  function TransformText(fmt: Fmt, format: ExportFormat, t: Transform): (r: string)
    ensures format == ExportFormatASCII ==>
      |r| >= 11 && r[..10] == "Transform(" && r[|r| - 1] == ')' &&
      r[10..|r| - 1] == MatrixText(fmt, t.m) + "," + VectorText(fmt, t.offs)
    ensures format != ExportFormatASCII ==>
      |r| >= 16 && r[..14] == "TransformHex(\"" && r[|r| - 2..] == "\")" && r[14..|r| - 2] == fmt.hex(t)
  {
    if format == ExportFormatASCII then
      "Transform(" + MatrixText(fmt, t.m) + "," + VectorText(fmt, t.offs) + ")"
    else
      "TransformHex(\"" + fmt.hex(t) + "\")"
  }

  function PluginText(fmt: Fmt, p: PluginRef): string
  {
    fmt.strip(p.plugin) + (if p.output != "" then "::" + fmt.strip(p.output) else "")
  }

  /** The position of the first `::` in a plugin reference's text, if any. */
  function SplitAtScope(s: string): (r: (string, string))
  {
    match FindFrom(s, "::", 0)
    case None => (s, "")
    case Some(i) => (s[..i], s[i + 2..])
  }

  /** A plugin reference's text can be split back into the (stripped) plugin
      name and output, provided stripping never yields a colon: the `::`
      separator appears exactly when the output is non-empty. */
  lemma PluginTextSplits(fmt: Fmt, p: PluginRef)
    requires forall s: string, i :: 0 <= i < |fmt.strip(s)| ==> fmt.strip(s)[i] != ':'
    ensures SplitAtScope(PluginText(fmt, p)) == (fmt.strip(p.plugin), if p.output != "" then fmt.strip(p.output) else "")
  {
    var a := fmt.strip(p.plugin);
    var t := PluginText(fmt, p);
    assert forall j :: 0 <= j < |a| ==> !OccursAt(t, "::", j) by {
      forall j | 0 <= j < |a|
        ensures !OccursAt(t, "::", j)
      {
        assert t[j] == a[j];
      }
    }
    if p.output == "" {
      assert t == a;
      assert forall j :: |a| <= j ==> !OccursAt(t, "::", j);
    } else {
      var b := fmt.strip(p.output);
      assert t == a + "::" + b;
      assert OccursAt(t, "::", |a|);
      assert t[..|a|] == a;
      assert t[|a| + 2..] == b;
    }
  }

  function Quote(s: string): string
  {
    "\"" + s + "\""
  }

  /** The items-per-line an untyped value list is printed with: two per line
      once it has more than ten elements, one line otherwise. */
  function ValueListItemsPerLine(count: nat): int
  {
    if count > 10 then 2 else 0
  }

  function MapSeq<T>(xs: seq<T>, f: T -> string): (r: seq<string>)
    ensures |r| == |xs|
    ensures forall i :: 0 <= i < |xs| ==> r[i] == f(xs[i])
  {
    seq(|xs|, i requires 0 <= i < |xs| => f(xs[i]))
  }

  function ListIntText(fmt: Fmt, depth: int, xs: seq<int>): string
  {
    fmt.printList("Int", MapSeq(xs, fmt.dec), None, depth)
  }

  function ListVectorText(fmt: Fmt, depth: int, xs: seq<Vector>): string
  {
    fmt.printList("Vector", MapSeq(xs, v => VectorText(fmt, v)), Some(1), depth)
  }

  /** One channel block of a map-channels value, at the depth inside the outer
      list; `comma` is false only for the first channel. */
  function ChannelBlock(fmt: Fmt, depth: int, index: int, ch: MapChannel, comma: bool): string
  {
    Indentation(fmt.indentUnit, depth) + (if comma then "," else "") + "List(" + fmt.dec(index) + ",\n"
      + fmt.indentText(depth + 1)
      + ListVectorText(fmt, depth + 1, ch.vertices) + ",\n"
      + Indentation(fmt.indentUnit, depth + 1) + ListIntText(fmt, depth + 1, ch.faces)
      + "\n" + Indentation(fmt.indentUnit, depth) + ")\n"
  }

  function ChannelBlocks(fmt: Fmt, depth: int, chans: seq<(string, MapChannel)>): (r: seq<string>)
    ensures |r| == |chans|
    ensures forall i :: 0 <= i < |chans| ==> r[i] == ChannelBlock(fmt, depth, i, chans[i].1, i > 0)
  {
    seq(|chans|, i requires 0 <= i < |chans| => ChannelBlock(fmt, depth, i, chans[i].1, i > 0))
  }

  /** `AttrMapChannels`: an outer list holding one indexed block per channel,
      in the mapping's order; channels are numbered from 0 and only the first
      block has no leading comma. */
  function MapChannelsText(fmt: Fmt, depth: int, chans: seq<(string, MapChannel)>): string
  {
    "List(\n" + Concat(ChannelBlocks(fmt, depth + 1, chans)) + Indentation(fmt.indentUnit, depth) + ")"
  }

  /** One pass of the `AttrMapChannels` loop: the block of the channel with
      number `index`, its inner lists one level deeper; the depth is restored. */
  method PrintChannelBlock(fmt: Fmt, depth: int, index: int, ch: MapChannel, addComma: bool)
    returns (block: string, depthAfter: int)
    ensures block == ChannelBlock(fmt, depth, index, ch, addComma)
    ensures depthAfter == depth
  {
    block := Indentation(fmt.indentUnit, depth) + (if addComma then "," else "") + "List(" + fmt.dec(index) + ",\n";
    depthAfter := depth + 1;
    block := block + fmt.indentText(depthAfter);
    block := block + ListVectorText(fmt, depthAfter, ch.vertices) + ",\n";
    block := block + Indentation(fmt.indentUnit, depthAfter) + ListIntText(fmt, depthAfter, ch.faces);
    depthAfter := depthAfter - 1;
    block := block + "\n" + Indentation(fmt.indentUnit, depthAfter) + ")\n";
  }

  /** The `AttrMapChannels` overload statement by statement: a running
      channel index and an `addComma` flag raised after the first block, the
      depth moved by `indent()`/`unindent()`.  It prints the indexed form
      above and leaves the depth where it found it. */
  method PrintMapChannels(fmt: Fmt, depth: int, chans: seq<(string, MapChannel)>) returns (out: string, depthAfter: int)
    ensures out == MapChannelsText(fmt, depth, chans)
    ensures depthAfter == depth
  {
    ghost var blocks := ChannelBlocks(fmt, depth + 1, chans);
    var body := "";
    depthAfter := depth + 1;
    var index := 0;
    var addComma := false;
    while index < |chans|
      invariant 0 <= index <= |chans|
      invariant addComma <==> index > 0
      invariant depthAfter == depth + 1
      invariant body == Concat(blocks[..index])
    {
      var block;
      block, depthAfter := PrintChannelBlock(fmt, depthAfter, index, chans[index].1, addComma);
      ConcatSnoc(blocks, index);
      body := body + block;
      addComma := true;
      index := index + 1;
    }
    assert blocks[..index] == blocks;
    depthAfter := depthAfter - 1;
    out := "List(\n" + body + Indentation(fmt.indentUnit, depthAfter) + ")";
  }

  function InstancerItemText(fmt: Fmt, format: ExportFormat, it: InstancerItem): string
  {
    "List(" + fmt.dec(it.index) + ", " + TransformText(fmt, format, it.tm) + ", "
      + TransformText(fmt, format, it.vel) + "," + PluginText(fmt, it.node) + ")"
  }

  /** The lines after the first instance: each preceded by a comma, a line
      break and the indentation of the instance level. */
  function InstancerLine(fmt: Fmt, format: ExportFormat, depth: int, it: InstancerItem): string
  {
    ",\n" + Indentation(fmt.indentUnit, depth) + InstancerItemText(fmt, format, it)
  }

  function InstancerTail(fmt: Fmt, format: ExportFormat, depth: int, items: seq<InstancerItem>): (r: seq<string>)
    ensures |r| == |items|
  {
    if |items| == 0 then [] else [InstancerLine(fmt, format, depth, items[0])] + InstancerTail(fmt, format, depth, items[1..])
  }

  /** `AttrInstancer`: the frame number, then one `List(index, tm, vel,node)`
      per instance; the first instance follows what `indent()` streams, the
      others the indentation.  The closing bracket is always on its own line,
      so an empty instancer is `List(<frame>` + line break + indentation + `)`. */
  function InstancerText(fmt: Fmt, format: ExportFormat, depth: int, inst: Instancer): string
  {
    "List(" + fmt.dec(inst.frameNumber)
      + InstancerBody(fmt, format, depth, inst.data)
      + "\n" + Indentation(fmt.indentUnit, depth) + ")"
  }

  function InstancerBody(fmt: Fmt, format: ExportFormat, depth: int, items: seq<InstancerItem>): string
  {
    if |items| == 0 then ""
    else ",\n" + fmt.indentText(depth + 1) + InstancerItemText(fmt, format, items[0])
         + Concat(InstancerTail(fmt, format, depth + 1, items[1..]))
  }

  /** When `indent()` streams the new depth's indentation, every instance
      stands on its own line after `,` and a line break, uniformly. */
  lemma InstancerUniformLines(fmt: Fmt, format: ExportFormat, depth: int, inst: Instancer)
    requires fmt.indentText(depth + 1) == Indentation(fmt.indentUnit, depth + 1)
    ensures InstancerText(fmt, format, depth, inst)
         == "List(" + fmt.dec(inst.frameNumber) + Concat(InstancerTail(fmt, format, depth + 1, inst.data))
            + "\n" + Indentation(fmt.indentUnit, depth) + ")"
  {
    InstancerBodyUniform(fmt, format, depth, inst.data);
  }

  lemma InstancerBodyUniform(fmt: Fmt, format: ExportFormat, depth: int, items: seq<InstancerItem>)
    requires fmt.indentText(depth + 1) == Indentation(fmt.indentUnit, depth + 1)
    ensures InstancerBody(fmt, format, depth, items) == Concat(InstancerTail(fmt, format, depth + 1, items))
  {
    if |items| > 0 {
      var rest := InstancerTail(fmt, format, depth + 1, items[1..]);
      var first := InstancerLine(fmt, format, depth + 1, items[0]);
      ConcatCons(first, rest);
    }
  }

  /** An instancer with no instances renders as the frame number followed by
      the closing bracket on its own line. */
  lemma EmptyInstancerText(fmt: Fmt, format: ExportFormat, depth: int, frame: int)
    ensures InstancerText(fmt, format, depth, Instancer(frame, []))
         == "List(" + fmt.dec(frame) + "\n" + Indentation(fmt.indentUnit, depth) + ")"
  {
  }

  /** The dispatch `operator<<(PluginWriter&, const AttrValue&)`.  An unknown
      tag trips a debug assertion in the source and streams nothing. */
  function Render(fmt: Fmt, format: ExportFormat, depth: int, v: AttrValue): string
    decreases v, 1
  {
    match v
    case ValueInt(i) => fmt.dec(i)
    case ValueFloat(f) => fmt.fixed4(f)
    case ValueString(s) => Quote(s)
    case ValueColor(c) => ColorText(fmt, c)
    case ValueVector(x) => VectorText(fmt, x)
    case ValueAColor(c) => AColorText(fmt, c)
    case ValuePlugin(p) => PluginText(fmt, p)
    case ValueTransform(t) => TransformText(fmt, format, t)
    case ValueMatrix(m) => MatrixText(fmt, m)
    case ValueListInt(xs) => ListIntText(fmt, depth, xs)
    case ValueListFloat(xs) => fmt.printList("Float", MapSeq(xs, fmt.fixed4), None, depth)
    case ValueListVector(xs) => ListVectorText(fmt, depth, xs)
    case ValueListColor(xs) => fmt.headerList(ColorList, MapSeq(xs, c => ColorText(fmt, c)), depth)
    case ValueListPlugin(xs) => fmt.headerList(PluginList, MapSeq(xs, p => PluginText(fmt, p)), depth)
    case ValueListString(xs) => StringListAsWritten(fmt, fmt.stringListName, xs, fmt.stringListItemsPerLine, depth)
    case ValueMapChannels(chans) => MapChannelsText(fmt, depth, chans)
    case ValueInstancer(inst) => InstancerText(fmt, format, depth, inst)
    case ValueListValue(xs) =>
      fmt.printList("", RenderAll(fmt, format, depth, xs), Some(ValueListItemsPerLine(|xs|)), depth)
    case ValueUnknown => ""
  }

  function RenderAll(fmt: Fmt, format: ExportFormat, depth: int, xs: seq<AttrValue>): (r: seq<string>)
    decreases xs, 0
    ensures |r| == |xs|
  {
    if |xs| == 0 then [] else [Render(fmt, format, depth, xs[0])] + RenderAll(fmt, format, depth, xs[1..])
  }

  /** The elements of a list are rendered one by one, each as it would be on
      its own, in the list's order. */
  lemma {:induction false} RenderAllPointwise(fmt: Fmt, format: ExportFormat, depth: int, xs: seq<AttrValue>)
    ensures forall i :: 0 <= i < |xs| ==> RenderAll(fmt, format, depth, xs)[i] == Render(fmt, format, depth, xs[i])
  {
    if |xs| > 0 {
      RenderAllPointwise(fmt, format, depth, xs[1..]);
      forall i | 1 <= i < |xs|
        ensures RenderAll(fmt, format, depth, xs)[i] == Render(fmt, format, depth, xs[i])
      {
        assert xs[1..][i - 1] == xs[i];
      }
    }
  }

  /** An untyped value list hands the unnamed list printer each element's own
      text, in order, and asks for two items per line exactly when it has
      more than ten elements, for a single line otherwise. */
  lemma ValueListWrapping(fmt: Fmt, format: ExportFormat, depth: int, xs: seq<AttrValue>)
    ensures |xs| > 10 ==>
      Render(fmt, format, depth, ValueListValue(xs)) == fmt.printList("", MapSeq(xs, x => Render(fmt, format, depth, x)), Some(2), depth)
    ensures |xs| <= 10 ==>
      Render(fmt, format, depth, ValueListValue(xs)) == fmt.printList("", MapSeq(xs, x => Render(fmt, format, depth, x)), Some(0), depth)
  {
    RenderAllPointwise(fmt, format, depth, xs);
    assert RenderAll(fmt, format, depth, xs) == MapSeq(xs, x => Render(fmt, format, depth, x));
  }

  /** A string-list attribute goes through the string-list printer as
      written: with a positive items-per-line it ends with its `)`, and a
      non-empty list on a single line ends with the closing quote of its last
      element, unclosed. */
  lemma RenderStringList(fmt: Fmt, format: ExportFormat, depth: int, xs: seq<string>)
    ensures var r := Render(fmt, format, depth, ValueListString(xs));
      |r| > 0 &&
      (|xs| == 0 || fmt.stringListItemsPerLine > 0 ==> r[|r| - 1] == ')') &&
      (|xs| > 0 && fmt.stringListItemsPerLine <= 0 ==> r[|r| - 1] == '"')
  {
    if |xs| > 0 && fmt.stringListItemsPerLine <= 0 {
      SingleLineStringListUnclosed(fmt, fmt.stringListName, xs, fmt.stringListItemsPerLine, depth);
    }
  }

  /** `KVPair<std::string>`: a quoted key/value line at one level deeper. */
  function StringPairText(fmt: Fmt, depth: int, key: string, value: string): string
  {
    fmt.indentText(depth + 1) + key + "=\"" + value + "\";\n" + fmt.unindentText(depth)
  }

  /** An attribute line `key=value;` as the record emitter writes it: shaped
      like the `KVPair<std::string>` overload, with the value rendered one
      level deeper and passed through what the writer's animation frame
      makes of it, instead of quoted. */
  function AttrLine(fmt: Fmt, format: ExportFormat, depth: int, frame: Option<int>, key: string, v: AttrValue): string
  {
    fmt.indentText(depth + 1) + key + "=" + fmt.animatedValue(frame, Render(fmt, format, depth + 1, v)) + ";\n"
      + fmt.unindentText(depth)
  }

  // ---------------------------------------------------------------------
  // printList<std::string>

  /** `max(0, itemsPerLine)`: the least value that is at least both. */
  function ClampItemsPerLine(ipl: int): (n: nat)
    ensures n >= ipl
    ensures n == ipl || n == 0
  {
    if ipl < 0 then 0 else ipl
  }

  /** What precedes element `c` (for `c >= 1`): a comma, then a line break and
      the indentation when `c` is a multiple of a positive items-per-line, a
      space otherwise. */
  function StringListSep(unit: string, innerDepth: int, ipl: nat, c: nat): (r: string)
    ensures |r| >= 2 && r[0] == ','
    ensures '\n' in r <==> ipl > 0 && c % ipl == 0
    ensures '\n' in r ==> r[1] == '\n' && r[2..] == Indentation(unit, innerDepth)
  {
    if ipl > 0 && c % ipl == 0 then
      var r := ",\n" + Indentation(unit, innerDepth);
      assert r[1] == '\n';
      r
    else ", "
  }

  /** Element `c` with its separator. */
  function StringListPiece(unit: string, innerDepth: int, ipl: nat, c: nat, x: string): string
  {
    StringListSep(unit, innerDepth, ipl, c) + Quote(x)
  }

  /** Elements 1 .. |xs|-1, each with its separator. */
  function StringListRest(unit: string, innerDepth: int, ipl: nat, xs: seq<string>): (r: seq<string>)
    requires |xs| > 0
    ensures |r| == |xs| - 1
    ensures forall i :: 0 <= i < |xs| - 1 ==> r[i] == StringListPiece(unit, innerDepth, ipl, i + 1, xs[i + 1])
  {
    seq(|xs| - 1, i requires 0 <= i < |xs| - 1 => StringListPiece(unit, innerDepth, ipl, i + 1, xs[i + 1]))
  }

  /** The depth the elements after a line break are indented to. */
  function InnerDepth(ipl: nat, depth: int): int
  {
    if ipl > 0 then depth + 1 else depth
  }

  /** Everything up to and including the first quoted element. */
  function StringListHead(fmt: Fmt, name: string, x0: string, ipl: nat, depth: int): string
  {
    "List" + name + "(" + (if ipl > 0 then "\n" + fmt.indentText(depth + 1) else "") + Quote(x0)
  }

  /** `printList<std::string>` as written: `List<name>()` for an empty list;
      otherwise the quoted elements with their separators, a leading line
      break when wrapping, and a closing bracket on its own line ONLY when
      wrapping -- the single-line branch writes no `)` at all. */
  function StringListAsWritten(fmt: Fmt, name: string, xs: seq<string>, ipl: int, depth: int): string
  {
    if |xs| == 0 then "List" + name + "()"
    else
      var n := ClampItemsPerLine(ipl);
      StringListHead(fmt, name, xs[0], n, depth)
        + Concat(StringListRest(fmt.indentUnit, InnerDepth(n, depth), n, xs))
        + (if n > 0 then "\n" + Indentation(fmt.indentUnit, depth) + ")" else "")
  }

  /** The same printer with the single-line branch closed by `)`. */
  function StringListText(fmt: Fmt, name: string, xs: seq<string>, ipl: int, depth: int): string
  {
    if |xs| == 0 then "List" + name + "()"
    else
      var n := ClampItemsPerLine(ipl);
      StringListHead(fmt, name, xs[0], n, depth)
        + Concat(StringListRest(fmt.indentUnit, InnerDepth(n, depth), n, xs))
        + (if n > 0 then "\n" + Indentation(fmt.indentUnit, depth) + ")" else ")")
  }

  /** `printList<std::string>` statement by statement: the opening, the
      element loop, the closing; the depth moves with `indent()`/`unindent()`. */
  method PrintStringList(fmt: Fmt, name: string, xs: seq<string>, itemsPerLine: int, depth: int)
    returns (out: string, depthAfter: int)
    ensures out == StringListAsWritten(fmt, name, xs, itemsPerLine, depth)
    ensures depthAfter == depth
  {
    depthAfter := depth;
    if |xs| == 0 {
      out := "List" + name + "()";
      return;
    }
    var ipl: nat := if itemsPerLine < 0 then 0 else itemsPerLine;
    var open := "List" + name + "(";
    if ipl != 0 {
      depthAfter := depthAfter + 1;
      open := open + ("\n" + fmt.indentText(depthAfter));
    } else {
      assert open == open + "";
    }
    var head := open + Quote(xs[0]);
    assert head == StringListHead(fmt, name, xs[0], ipl, depth);
    var body := PrintStringListItems(fmt.indentUnit, depthAfter, ipl, xs);
    var close := "";
    if ipl != 0 {
      depthAfter := depthAfter - 1;
      close := "\n" + Indentation(fmt.indentUnit, depthAfter) + ")";
    }
    out := head + body + close;
  }

  /** The element loop of the string-list printer: elements 1 .. |xs|-1,
      each after its separator. */
  method PrintStringListItems(unit: string, innerDepth: int, ipl: nat, xs: seq<string>) returns (out: string)
    requires |xs| > 0
    ensures out == Concat(StringListRest(unit, innerDepth, ipl, xs))
  {
    ghost var rest := StringListRest(unit, innerDepth, ipl, xs);
    out := "";
    var c := 1;
    while c < |xs|
      invariant 1 <= c <= |xs|
      invariant out == Concat(rest[..c - 1])
    {
      var sep: string;
      if ipl != 0 && c % ipl == 0 {
        sep := ",\n" + Indentation(unit, innerDepth);
      } else {
        sep := ", ";
      }
      ConcatSnoc(rest, c - 1);
      assert rest[c - 1] == sep + Quote(xs[c]);
      out := out + (sep + Quote(xs[c]));
      c := c + 1;
    }
    assert rest[..c - 1] == rest;
  }

  lemma ConcatSnoc(pieces: seq<string>, k: nat)
    requires k < |pieces|
    ensures Concat(pieces[..k + 1]) == Concat(pieces[..k]) + pieces[k]
  {
    assert pieces[..k + 1][..k] == pieces[..k];
  }

  /** An empty string list is `List<name>()` whatever the items-per-line. */
  lemma EmptyStringList(fmt: Fmt, name: string, ipl: int, depth: int)
    ensures StringListAsWritten(fmt, name, [], ipl, depth) == "List" + name + "()"
    ensures StringListText(fmt, name, [], ipl, depth) == "List" + name + "()"
  {
  }

  /** A negative items-per-line is treated as zero. */
  lemma NegativeItemsPerLine(fmt: Fmt, name: string, xs: seq<string>, ipl: int, depth: int)
    requires ipl < 0
    ensures StringListAsWritten(fmt, name, xs, ipl, depth) == StringListAsWritten(fmt, name, xs, 0, depth)
    ensures StringListText(fmt, name, xs, ipl, depth) == StringListText(fmt, name, xs, 0, depth)
  {
  }

  /** As written, a non-empty list printed on one line ends with the closing
      quote of its last element: the list's `(` is never closed. */
  lemma SingleLineStringListUnclosed(fmt: Fmt, name: string, xs: seq<string>, ipl: int, depth: int)
    requires |xs| > 0 && ipl <= 0
    ensures var r := StringListAsWritten(fmt, name, xs, ipl, depth); |r| > 0 && r[|r| - 1] == '"'
  {
    var rest := StringListRest(fmt.indentUnit, depth, 0, xs);
    var r := StringListAsWritten(fmt, name, xs, ipl, depth);
    if |rest| == 0 {
      assert r == "List" + name + "(" + Quote(xs[0]);
    } else {
      assert rest == rest[..|rest| - 1] + [rest[|rest| - 1]];
      var lastPiece := rest[|rest| - 1];
      assert Concat(rest) == Concat(rest[..|rest| - 1]) + lastPiece;
      assert lastPiece[|lastPiece| - 1] == '"';
      assert r == "List" + name + "(" + Quote(xs[0]) + Concat(rest);
    }
  }

  /** With the missing bracket restored, every string list ends with `)`. */
  lemma StringListClosed(fmt: Fmt, name: string, xs: seq<string>, ipl: int, depth: int)
    ensures var r := StringListText(fmt, name, xs, ipl, depth); |r| > 0 && r[|r| - 1] == ')'
  {
  }

  /** The restored printer differs from the code as written only in the
      single-line branch, and only by the final `)`. */
  lemma StringListFixIsMinimal(fmt: Fmt, name: string, xs: seq<string>, ipl: int, depth: int)
    ensures |xs| > 0 && ipl <= 0 ==>
      StringListText(fmt, name, xs, ipl, depth) == StringListAsWritten(fmt, name, xs, ipl, depth) + ")"
    ensures !(|xs| > 0 && ipl <= 0) ==>
      StringListText(fmt, name, xs, ipl, depth) == StringListAsWritten(fmt, name, xs, ipl, depth)
  {
  }

  // ---------------------------------------------------------------------
  // Line layout of a string list

  /** The number of line breaks in a text. */
  function LineBreaks(s: string): nat
  {
    if |s| == 0 then 0 else (if s[0] == '\n' then 1 else 0) + LineBreaks(s[1..])
  }

  lemma {:induction false} LineBreaksAppend(a: string, b: string)
    ensures LineBreaks(a + b) == LineBreaks(a) + LineBreaks(b)
  {
    if |a| == 0 {
      assert a + b == b;
    } else {
      assert (a + b)[1..] == a[1..] + b;
      LineBreaksAppend(a[1..], b);
    }
  }

  lemma IndentationOneLine(unit: string, depth: int)
    requires LineBreaks(unit) == 0
    ensures LineBreaks(Indentation(unit, depth)) == 0
  {
    LineBreaksAppend(unit, unit);
    LineBreaksAppend(unit + unit, unit);
    LineBreaksAppend(unit + unit + unit, unit);
  }

  lemma QuoteOneLine(x: string)
    requires LineBreaks(x) == 0
    ensures LineBreaks(Quote(x)) == 0
  {
    LineBreaksAppend("\"", x);
    LineBreaksAppend("\"" + x, "\"");
    assert LineBreaks("\"") == 0;
  }

  /** Multiplying by a positive number keeps the order. */
  lemma MulMono(a: int, b: int, n: int)
    requires a <= b && n > 0
    ensures a * n <= b * n
  {
    assert b * n - a * n == (b - a) * n;
  }

  /** `x == q * n + r` with `0 <= r < n` pins down the quotient and remainder. */
  lemma DivModUnique(x: int, n: int, q: int, r: int)
    requires n > 0 && 0 <= r < n && x == q * n + r
    ensures x / n == q && x % n == r
  {
    var q0 := x / n;
    var r0 := x % n;
    assert x == q0 * n + r0;
    if q0 < q {
      MulMono(q0 + 1, q, n);
      assert false;
    } else if q < q0 {
      MulMono(q + 1, q0, n);
      assert false;
    }
  }

  /** Going from `m` to `m + 1`, the quotient by `n` grows exactly when
      `m + 1` is a multiple of `n`. */
  lemma DivStep(m: nat, n: nat)
    requires n > 0
    ensures (m + 1) / n == m / n + (if (m + 1) % n == 0 then 1 else 0)
  {
    var q := m / n;
    var r := m % n;
    if r + 1 == n {
      DivModUnique(m + 1, n, q + 1, 0);
    } else {
      DivModUnique(m + 1, n, q, r + 1);
    }
  }

  /** A separator breaks the line exactly when its position is a multiple of
      a positive items-per-line. */
  lemma PieceLineBreaks(unit: string, innerDepth: int, ipl: nat, c: nat, x: string)
    requires LineBreaks(unit) == 0 && LineBreaks(x) == 0
    ensures LineBreaks(StringListPiece(unit, innerDepth, ipl, c, x)) == if ipl > 0 && c % ipl == 0 then 1 else 0
  {
    var sep := StringListSep(unit, innerDepth, ipl, c);
    LineBreaksAppend(sep, Quote(x));
    QuoteOneLine(x);
    if ipl > 0 && c % ipl == 0 {
      IndentationOneLine(unit, innerDepth);
      LineBreaksAppend(",\n", Indentation(unit, innerDepth));
      assert LineBreaks(",\n") == 1;
    } else {
      assert LineBreaks(", ") == 0;
    }
  }

  /** Adding element `m` with its separator adds the separator's break. */
  lemma StringListRestStep(unit: string, innerDepth: int, ipl: nat, xs: seq<string>, m: nat)
    requires 0 < m <= |xs| - 1
    requires LineBreaks(unit) == 0 && LineBreaks(xs[m]) == 0
    ensures var rest := StringListRest(unit, innerDepth, ipl, xs);
      LineBreaks(Concat(rest[..m])) == LineBreaks(Concat(rest[..m - 1])) + (if ipl > 0 && m % ipl == 0 then 1 else 0)
  {
    var rest := StringListRest(unit, innerDepth, ipl, xs);
    ConcatSnoc(rest, m - 1);
    LineBreaksAppend(Concat(rest[..m - 1]), rest[m - 1]);
    PieceLineBreaks(unit, innerDepth, ipl, m, xs[m]);
  }

  /** The separators of elements 1 .. m break the line once per multiple of
      a positive items-per-line, and never on a single line. */
  lemma {:induction false} StringListRestLineBreaks(unit: string, innerDepth: int, ipl: nat, xs: seq<string>, m: nat)
    requires |xs| > 0 && m <= |xs| - 1
    requires LineBreaks(unit) == 0
    requires forall i :: 0 <= i < |xs| ==> LineBreaks(xs[i]) == 0
    ensures LineBreaks(Concat(StringListRest(unit, innerDepth, ipl, xs)[..m])) == if ipl > 0 then m / ipl else 0
  {
    var rest := StringListRest(unit, innerDepth, ipl, xs);
    if m == 0 {
      assert rest[..0] == [];
    } else {
      StringListRestLineBreaks(unit, innerDepth, ipl, xs, m - 1);
      StringListRestStep(unit, innerDepth, ipl, xs, m);
      if ipl > 0 {
        DivStep(m - 1, ipl);
      }
    }
  }

  /** The text before the elements after the first breaks the line once when
      wrapping and not at all on a single line. */
  lemma StringListHeadLineBreaks(fmt: Fmt, name: string, x0: string, n: nat, depth: int)
    requires LineBreaks(name) == 0 && LineBreaks(fmt.indentText(depth + 1)) == 0 && LineBreaks(x0) == 0
    ensures LineBreaks(StringListHead(fmt, name, x0, n, depth)) == if n > 0 then 1 else 0
  {
    var opening := if n > 0 then "\n" + fmt.indentText(depth + 1) else "";
    LineBreaksAppend("List", name);
    LineBreaksAppend("List" + name, "(");
    LineBreaksAppend("List" + name + "(", opening);
    LineBreaksAppend("List" + name + "(" + opening, Quote(x0));
    QuoteOneLine(x0);
    assert LineBreaks("List") == 0 && LineBreaks("(") == 0;
    if n > 0 {
      LineBreaksAppend("\n", fmt.indentText(depth + 1));
      assert LineBreaks("\n") == 1;
    }
  }

  /** The closing of a wrapped list sits on a line of its own. */
  lemma StringListCloseLineBreaks(unit: string, depth: int)
    requires LineBreaks(unit) == 0
    ensures LineBreaks("\n" + Indentation(unit, depth) + ")") == 1
  {
    IndentationOneLine(unit, depth);
    LineBreaksAppend("\n", Indentation(unit, depth));
    LineBreaksAppend("\n" + Indentation(unit, depth), ")");
    assert LineBreaks("\n") == 1 && LineBreaks(")") == 0;
  }

  /** The line layout of a printed string list: with elements, name and
      indentation free of line breaks, a list printed with a positive
      items-per-line `n` breaks the line after `(`, before every element
      whose position is a multiple of `n`, and before `)` -- 2 + (|xs|-1)/n
      line breaks in all -- and a list on a single line has none. */
  lemma StringListLineBreaks(fmt: Fmt, name: string, xs: seq<string>, ipl: int, depth: int)
    requires LineBreaks(name) == 0 && LineBreaks(fmt.indentUnit) == 0 && LineBreaks(fmt.indentText(depth + 1)) == 0
    requires forall i :: 0 <= i < |xs| ==> LineBreaks(xs[i]) == 0
    ensures LineBreaks(StringListAsWritten(fmt, name, xs, ipl, depth)) ==
      if |xs| > 0 && ipl > 0 then 2 + (|xs| - 1) / ipl else 0
  {
    if |xs| == 0 {
      EmptyStringListLineBreaks(fmt, name, ipl, depth);
    } else {
      var n := ClampItemsPerLine(ipl);
      var hb := LineBreaks(StringListHead(fmt, name, xs[0], n, depth));
      var rb := LineBreaks(Concat(StringListRest(fmt.indentUnit, InnerDepth(n, depth), n, xs)[..|xs| - 1]));
      var cb := LineBreaks(if n > 0 then "\n" + Indentation(fmt.indentUnit, depth) + ")" else "");
      assert hb == if ipl > 0 then 1 else 0 by {
        StringListHeadLineBreaks(fmt, name, xs[0], n, depth);
      }
      assert rb == if ipl > 0 then (|xs| - 1) / ipl else 0 by {
        StringListRestLineBreaks(fmt.indentUnit, InnerDepth(n, depth), n, xs, |xs| - 1);
      }
      assert cb == if ipl > 0 then 1 else 0 by {
        if n > 0 {
          StringListCloseLineBreaks(fmt.indentUnit, depth);
        }
      }
      NonEmptyStringListLineBreaks(fmt, name, xs, ipl, depth);
    }
  }

  lemma EmptyStringListLineBreaks(fmt: Fmt, name: string, ipl: int, depth: int)
    requires LineBreaks(name) == 0
    ensures LineBreaks(StringListAsWritten(fmt, name, [], ipl, depth)) == 0
  {
    LineBreaksAppend("List" + name, "()");
    LineBreaksAppend("List", name);
    assert LineBreaks("List") == 0 && LineBreaks("()") == 0;
  }

  /** A non-empty list's breaks are those of its three parts. */
  lemma NonEmptyStringListLineBreaks(fmt: Fmt, name: string, xs: seq<string>, ipl: int, depth: int)
    requires |xs| > 0
    ensures
      var n := ClampItemsPerLine(ipl);
      var rest := StringListRest(fmt.indentUnit, InnerDepth(n, depth), n, xs);
      LineBreaks(StringListAsWritten(fmt, name, xs, ipl, depth))
        == LineBreaks(StringListHead(fmt, name, xs[0], n, depth))
         + LineBreaks(Concat(rest[..|xs| - 1]))
         + LineBreaks(if n > 0 then "\n" + Indentation(fmt.indentUnit, depth) + ")" else "")
  {
    var n := ClampItemsPerLine(ipl);
    var head := StringListHead(fmt, name, xs[0], n, depth);
    var rest := StringListRest(fmt.indentUnit, InnerDepth(n, depth), n, xs);
    var closing := if n > 0 then "\n" + Indentation(fmt.indentUnit, depth) + ")" else "";
    assert rest[..|xs| - 1] == rest;
    LineBreaksAppend(head, Concat(rest));
    LineBreaksAppend(head + Concat(rest), closing);
  }
}

=== FILE: write_queue.dfy ===
/** The per-file write queue of the vrscene writer (`PluginWriter::WriteItem`,
    `processItems`, `blockFlushAll`).

    Every piece of text a writer produces goes through a FIFO of write items.
    A synchronous item carries its text and is ready at once; an asynchronous
    item is filled in later by a worker (`asyncDone`) and only then becomes
    ready.  The queue hands text to the file strictly in submission order: it
    drains ready items from the head and stops at the first one still pending.

    The worker threads and the atomic ready flag are replaced by an explicit
    completion event; the Python file is the sequence `sink` of strings passed
    to its `write` method. */
module WriteQueue {
  import opened Base

  /** `PluginWriter::WriteItem`: `data` is the synchronous text, `asyncData`
      the text a worker supplies, `ready` the completion flag. */
  datatype WriteItem = WriteItem(isAsync: bool, ready: bool, data: string, asyncData: string)
  {
    /** `isDone`: the completion flag. */
    predicate IsDone() { ready }

    /** `getData`: the worker's text for an asynchronous item, the stored
        string otherwise. */
    function GetData(): string { if isAsync then asyncData else data }
  }

  /** The default-constructed item the move constructor starts from. Its
      initialisers live in a header outside this model: it is assumed to be
      synchronous, not ready, with an empty string and an empty worker text.
      `Move`'s empty moved-from data rests on the first of these and on the
      empty default string. */
  const DefaultItem := WriteItem(false, false, "", "")

  /** `WriteItem(val)`: a synchronous item, ready from the start, whose data is
      its own stored string. */
  function SyncItem(text: string): (w: WriteItem)
    ensures w.IsDone() && !w.isAsync
    ensures w.GetData() == text
  {
    WriteItem(false, true, text, "")
  }

  /** An asynchronous item a worker has yet to fill in. */
  function PendingItem(): (w: WriteItem)
    ensures w.isAsync && !w.IsDone()
  {
    WriteItem(true, false, "", "")
  }

  /** The text `asyncDone` stores: a null pointer becomes the empty string. */
  function AsyncText(data: Option<string>): string
  {
    if data.Some? then data.value else ""
  }

  /** `asyncDone(data)`: copy the data in, then mark the item ready.  The
      source asserts the item is asynchronous. */
  function AsyncDone(w: WriteItem, data: Option<string>): (r: WriteItem)
    requires w.isAsync
    ensures r.isAsync && r.IsDone()
    ensures data.Some? ==> r.GetData() == data.value
    ensures data.None? ==> r.GetData() == ""
    ensures r.data == w.data
  {
    w.(asyncData := AsyncText(data), ready := true)
  }

  /** The move constructor: the new item takes every field of `other`, and the
      moved-from item is left with the default fields and not ready.
      Returns (new item, moved-from item). */
  function Move(other: WriteItem): (r: (WriteItem, WriteItem))
    ensures r.0 == other
    ensures !r.1.IsDone()
    ensures r.1.GetData() == ""
  {
    var init := DefaultItem;
    (WriteItem(other.isAsync, other.ready, other.data, other.asyncData),
     WriteItem(init.isAsync, false, init.data, init.asyncData))
  }

  /** A queued item together with the handle its worker uses to complete it
      (the handle stands for the pointer the worker task keeps). */
  datatype Slot = Slot(handle: nat, item: WriteItem)

  /** A writer's queue (`m_items`) and the text already handed to the file. */
  datatype Queue = Queue(items: seq<Slot>, sink: seq<string>)

  const EmptyQueue := Queue([], [])

  /** The texts of a run of slots, in order. */
  function Texts(items: seq<Slot>): (r: seq<string>)
    ensures |r| == |items|
    ensures forall i :: 0 <= i < |items| ==> r[i] == items[i].item.GetData()
  {
    if |items| == 0 then [] else Texts(items[..|items| - 1]) + [items[|items| - 1].item.GetData()]
  }

  lemma TextsAppend(a: seq<Slot>, b: seq<Slot>)
    ensures Texts(a + b) == Texts(a) + Texts(b)
  {
  }

  predicate AllDone(items: seq<Slot>)
  {
    forall i :: 0 <= i < |items| ==> items[i].item.IsDone()
  }

  /** Length of the longest prefix of ready items. */
  function ReadyPrefixLen(items: seq<Slot>): (k: nat)
    ensures k <= |items|
    ensures AllDone(items[..k])
    ensures k < |items| ==> !items[k].item.IsDone()
  {
    if |items| == 0 || !items[0].item.IsDone() then 0
    else
      var k := 1 + ReadyPrefixLen(items[1..]);
      assert items[..k] == items[..1] + items[1..][..k - 1];
      k
  }

  /** Any prefix of ready items followed by a pending item (or the end) is the
      longest one. */
  lemma ReadyPrefixLenUnique(items: seq<Slot>, c: nat)
    requires c <= |items| && AllDone(items[..c])
    requires c < |items| ==> !items[c].item.IsDone()
    ensures c == ReadyPrefixLen(items)
  {
    var k := ReadyPrefixLen(items);
    forall j | 0 <= j < c
      ensures items[j].item.IsDone()
    {
      assert items[..c][j] == items[j];
    }
    forall j | 0 <= j < k
      ensures items[j].item.IsDone()
    {
      assert items[..k][j] == items[j];
    }
  }

  /** The first loop of `processItems`: pop and write ready items from the
      head, stopping at the first pending one. */
  function Drain(q: Queue): Queue
  {
    var k := ReadyPrefixLen(q.items);
    Queue(q.items[k..], q.sink + Texts(q.items[..k]))
  }

  /** `processItems(val)`: drain, then write a non-empty `val` straight to the
      file when the queue is empty, or append it as a ready item otherwise. */
  function Process(q: Queue, val: string): Queue
  {
    var d := Drain(q);
    if val == "" then d
    else if |d.items| == 0 then Queue([], d.sink + [val])
    else Queue(d.items + [Slot(0, SyncItem(val))], d.sink)
  }

  /** `processItems` as the source writes it: a counted loop that pops at most
      the initial number of items, and only while the head is ready. */
  method ProcessItems(q: Queue, val: string) returns (r: Queue)
    ensures r == Process(q, val)
  {
    var items := q.items;
    var sink := q.sink;
    var maxRep := |items|;
    var c := 0;
    while c < maxRep && items[0].item.IsDone()
      invariant 0 <= c <= maxRep == |q.items|
      invariant items == q.items[c..]
      invariant sink == q.sink + Texts(q.items[..c])
      invariant AllDone(q.items[..c])
    {
      ReadyStep(q.items, c);
      AppendAssocSlots(q.sink, Texts(q.items[..c]), [q.items[c].item.GetData()]);
      sink := sink + [items[0].item.GetData()];
      items := items[1..];
      c := c + 1;
    }
    ReadyPrefixLenUnique(q.items, c);
    if val != "" {
      if |items| == 0 {
        sink := sink + [val];
      } else {
        items := items + [Slot(0, SyncItem(val))];
      }
    }
    r := Queue(items, sink);
  }

  /** One more ready item at the end of a ready prefix. */
  lemma ReadyStep(items: seq<Slot>, c: nat)
    requires c < |items| && AllDone(items[..c]) && items[c].item.IsDone()
    ensures AllDone(items[..c + 1])
    ensures Texts(items[..c + 1]) == Texts(items[..c]) + [items[c].item.GetData()]
    ensures items[c..][1..] == items[c + 1..]
  {
    assert items[..c + 1][..c] == items[..c];
  }

  /** `blockFlushAll` once every item is done: write each item's text in
      submission order and clear the queue.  The source busy-waits on a
      pending item; here completion must already have happened. */
  function FlushAll(q: Queue): Queue
    requires AllDone(q.items)
  {
    Queue([], q.sink + Texts(q.items))
  }

  /** `blockFlushAll` as the source writes it: one pass over the queue. */
  method BlockFlushAll(q: Queue) returns (r: Queue)
    requires AllDone(q.items)
    ensures r.items == []
    ensures r.sink == q.sink + Texts(q.items)
  {
    var sink := q.sink;
    var c := 0;
    while c < |q.items|
      invariant 0 <= c <= |q.items|
      invariant sink == q.sink + Texts(q.items[..c])
    {
      assert q.items[..c + 1] == q.items[..c] + [q.items[c]];
      TextsAppend(q.items[..c], [q.items[c]]);
      sink := sink + [q.items[c].item.GetData()];
      c := c + 1;
    }
    assert q.items[..c] == q.items;
    r := Queue([], sink);
  }

  /** Index of the first asynchronous slot carrying `handle`. */
  function FindHandle(items: seq<Slot>, handle: nat): (r: Option<nat>)
    ensures r.Some? ==> r.value < |items| && items[r.value].handle == handle && items[r.value].item.isAsync
    ensures r.Some? ==> forall j :: 0 <= j < r.value ==> !(items[j].handle == handle && items[j].item.isAsync)
    ensures r.None? ==> forall j :: 0 <= j < |items| ==> !(items[j].handle == handle && items[j].item.isAsync)
  {
    if |items| == 0 then None
    else if items[0].handle == handle && items[0].item.isAsync then Some(0)
    else match FindHandle(items[1..], handle)
      case None => None
      case Some(j) => Some(j + 1)
  }

  /** A worker finishing the item behind `handle`.  Completing an item that is
      no longer queued is a dangling pointer in the source: an error here. */
  function Complete(q: Queue, handle: nat, data: Option<string>): Option<Queue>
  {
    match FindHandle(q.items, handle)
    case None => None
    case Some(i) => Some(q.(items := q.items[i := Slot(handle, AsyncDone(q.items[i].item, data))]))
  }

  /** The events a writer's queue sees: a synchronous write (`processItems`),
      a pending item queued for a worker, a worker's completion, and the
      `blockFlushAll` barrier. */
  datatype Event = Write(text: string) | Defer(handle: nat) | Done(handle: nat, data: Option<string>) | Flush

  function Step(q: Queue, e: Event): Option<Queue>
  {
    match e
    case Write(t) => Some(Process(q, t))
    case Defer(h) => Some(q.(items := q.items + [Slot(h, PendingItem())]))
    case Done(h, d) => Complete(q, h, d)
    case Flush => if AllDone(q.items) then Some(FlushAll(q)) else None
  }

  /** Running a trace from the empty queue; `None` when some event misuses
      the queue (completing an unknown item, flushing while an item can never
      finish). */
  function Run(es: seq<Event>): Option<Queue>
  {
    if |es| == 0 then Some(EmptyQueue)
    else match Run(es[..|es| - 1])
      case None => None
      case Some(q) => Step(q, es[|es| - 1])
  }

  /** The text the producers submitted, in submission order, given the text
      `fin(h)` each worker completes handle `h` with. */
  function Submitted(es: seq<Event>, fin: nat -> string): seq<string>
  {
    if |es| == 0 then []
    else Submitted(es[..|es| - 1], fin) + SubmittedBy(es[|es| - 1], fin)
  }

  function SubmittedBy(e: Event, fin: nat -> string): seq<string>
  {
    match e
    case Write(t) => if t == "" then [] else [t]
    case Defer(h) => [fin(h)]
    case _ => []
  }

  /** Every completion in the trace supplies the text `fin` assigns it. */
  predicate Consistent(es: seq<Event>, fin: nat -> string)
  {
    forall i :: 0 <= i < |es| && es[i].Done? ==> AsyncText(es[i].data) == fin(es[i].handle)
  }

  /** What the queue will eventually write: the text of each item, with a
      still-pending item's text taken from `fin`. */
  function Eventual(items: seq<Slot>, fin: nat -> string): (r: seq<string>)
    ensures |r| == |items|
    ensures forall i :: 0 <= i < |items| ==> r[i] == EventualText(items[i], fin)
  {
    if |items| == 0 then []
    else Eventual(items[..|items| - 1], fin) + [EventualText(items[|items| - 1], fin)]
  }

  function EventualText(s: Slot, fin: nat -> string): string
  {
    if s.item.isAsync then fin(s.handle) else s.item.data
  }

  /** The queue's own invariant: synchronous items are ready, and a ready
      asynchronous item holds the text it was completed with. */
  predicate Inv(q: Queue, fin: nat -> string)
  {
    forall i :: 0 <= i < |q.items| ==>
      (!q.items[i].item.isAsync ==> q.items[i].item.IsDone()) &&
      (q.items[i].item.isAsync && q.items[i].item.IsDone() ==> q.items[i].item.asyncData == fin(q.items[i].handle))
  }

  lemma {:induction false} EventualAppend(a: seq<Slot>, b: seq<Slot>, fin: nat -> string)
    ensures Eventual(a + b, fin) == Eventual(a, fin) + Eventual(b, fin)
    decreases |b|
  {
    if |b| == 0 {
      assert a + b == a;
    } else {
      assert (a + b)[..|a + b| - 1] == a + b[..|b| - 1];
      EventualAppend(a, b[..|b| - 1], fin);
    }
  }

  /** Under the invariant, a ready prefix's actual texts are its eventual texts. */
  lemma {:induction false} TextsAreEventual(items: seq<Slot>, fin: nat -> string)
    requires Inv(Queue(items, []), fin)
    requires AllDone(items)
    ensures Texts(items) == Eventual(items, fin)
    decreases |items|
  {
    if |items| > 0 {
      TextsAreEventual(items[..|items| - 1], fin);
    }
  }

  /** Draining moves text from the queue to the file without changing what
      will eventually be written. */
  lemma DrainPreserves(q: Queue, fin: nat -> string)
    requires Inv(q, fin)
    ensures Inv(Drain(q), fin)
    ensures Drain(q).sink + Eventual(Drain(q).items, fin) == q.sink + Eventual(q.items, fin)
  {
    var k := ReadyPrefixLen(q.items);
    var done := q.items[..k];
    var rest := q.items[k..];
    assert Drain(q) == Queue(rest, q.sink + Texts(done));
    InvSlice(q, 0, k, [], fin);
    InvSlice(q, k, |q.items|, q.sink + Texts(done), fin);
    assert q.items[0..k] == done && q.items[k..|q.items|] == rest;
    EventualSplit(q.items, k, fin);
    TextsAreEventual(done, fin);
    AppendAssocSlots(q.sink, Texts(done), Eventual(rest, fin));
  }

  /** The invariant holds of every run of a queue's items, whatever the
      file holds. */
  lemma InvSlice(q: Queue, lo: nat, hi: nat, sink: seq<string>, fin: nat -> string)
    requires lo <= hi <= |q.items|
    requires Inv(q, fin)
    ensures Inv(Queue(q.items[lo..hi], sink), fin)
  {
    forall i | 0 <= i < hi - lo
      ensures q.items[lo..hi][i] == q.items[lo + i]
    {
    }
  }

  lemma EventualSplit(items: seq<Slot>, k: nat, fin: nat -> string)
    requires k <= |items|
    ensures Eventual(items, fin) == Eventual(items[..k], fin) + Eventual(items[k..], fin)
  {
    assert items == items[..k] + items[k..];
    EventualAppend(items[..k], items[k..], fin);
  }

  lemma AppendAssocSlots(a: seq<string>, b: seq<string>, c: seq<string>)
    ensures (a + b) + c == a + (b + c)
  {
  }

  lemma WritePreserves(q: Queue, t: string, fin: nat -> string)
    requires Inv(q, fin)
    ensures Inv(Process(q, t), fin)
    ensures Process(q, t).sink + Eventual(Process(q, t).items, fin)
         == q.sink + Eventual(q.items, fin) + SubmittedBy(Write(t), fin)
  {
    DrainPreserves(q, fin);
    var d := Drain(q);
    if t == "" {
      assert Process(q, t) == d;
      assert SubmittedBy(Write(t), fin) == [];
    } else if |d.items| == 0 {
      assert Process(q, t) == Queue([], d.sink + [t]);
      assert Eventual(d.items, fin) == [];
    } else {
      QueuedWritePreserves(d, t, fin);
    }
  }

  /** A write behind a non-empty queue goes to its tail as a ready item. */
  lemma QueuedWritePreserves(d: Queue, t: string, fin: nat -> string)
    requires Inv(d, fin) && t != "" && |d.items| > 0
    ensures Inv(Queue(d.items + [Slot(0, SyncItem(t))], d.sink), fin)
    ensures d.sink + Eventual(d.items + [Slot(0, SyncItem(t))], fin) == d.sink + Eventual(d.items, fin) + [t]
  {
    var s := Slot(0, SyncItem(t));
    EventualAppend(d.items, [s], fin);
    assert Eventual([s], fin) == [t];
    AppendAssocSlots(d.sink, Eventual(d.items, fin), [t]);
    var items := d.items + [s];
    forall j | 0 <= j < |items|
      ensures items[j] == if j < |d.items| then d.items[j] else s
    {
    }
  }

  lemma DonePreserves(q: Queue, h: nat, data: Option<string>, fin: nat -> string)
    requires Inv(q, fin)
    requires AsyncText(data) == fin(h)
    requires Complete(q, h, data).Some?
    ensures Inv(Complete(q, h, data).value, fin)
    ensures Complete(q, h, data).value.sink + Eventual(Complete(q, h, data).value.items, fin)
         == q.sink + Eventual(q.items, fin)
  {
    var i := FindHandle(q.items, h).value;
    var items' := Complete(q, h, data).value.items;
    assert items' == q.items[i := Slot(h, AsyncDone(q.items[i].item, data))];
    assert forall j :: 0 <= j < |q.items| ==> EventualText(items'[j], fin) == EventualText(q.items[j], fin);
    assert Eventual(items', fin) == Eventual(q.items, fin);
  }

  /** One event extends what will eventually be written by exactly what the
      event submits. */
  lemma StepPreserves(q: Queue, e: Event, fin: nat -> string)
    requires Inv(q, fin)
    requires e.Done? ==> AsyncText(e.data) == fin(e.handle)
    requires Step(q, e).Some?
    ensures Inv(Step(q, e).value, fin)
    ensures Step(q, e).value.sink + Eventual(Step(q, e).value.items, fin)
         == q.sink + Eventual(q.items, fin) + SubmittedBy(e, fin)
  {
    match e
    case Write(t) =>
      WritePreserves(q, t, fin);
    case Defer(h) =>
      EventualAppend(q.items, [Slot(h, PendingItem())], fin);
    case Done(h, d) =>
      DonePreserves(q, h, d, fin);
    case Flush =>
      TextsAreEventual(q.items, fin);
  }

  /** Whatever the order of completions, the file plus the queue always holds
      exactly the submitted text, in submission order. */
  lemma {:induction false} RunKeepsOrder(es: seq<Event>, fin: nat -> string)
    requires Consistent(es, fin)
    requires Run(es).Some?
    ensures Inv(Run(es).value, fin)
    ensures Run(es).value.sink + Eventual(Run(es).value.items, fin) == Submitted(es, fin)
  {
    if |es| > 0 {
      var pre := es[..|es| - 1];
      assert Consistent(pre, fin) by {
        forall i | 0 <= i < |pre| && pre[i].Done?
          ensures AsyncText(pre[i].data) == fin(pre[i].handle)
        {
          assert pre[i] == es[i];
        }
      }
      RunKeepsOrder(pre, fin);
      StepPreserves(Run(pre).value, es[|es| - 1], fin);
    }
  }

  /** After the flush barrier the queue is empty and the file holds exactly the
      submitted texts in submission order. */
  lemma FlushDeliversInOrder(es: seq<Event>, fin: nat -> string)
    requires Consistent(es, fin)
    requires |es| > 0 && es[|es| - 1] == Flush
    requires Run(es).Some?
    ensures Run(es).value.items == []
    ensures Run(es).value.sink == Submitted(es, fin)
  {
    RunKeepsOrder(es, fin);
  }

  /** The producers' side of a trace: its writes and deferrals, in order. */
  function Producers(es: seq<Event>): seq<Event>
  {
    if |es| == 0 then []
    else Producers(es[..|es| - 1]) + (if es[|es| - 1].Write? || es[|es| - 1].Defer? then [es[|es| - 1]] else [])
  }

  lemma {:induction false} SubmittedByProducers(es: seq<Event>, fin: nat -> string)
    ensures Submitted(es, fin) == Submitted(Producers(es), fin)
  {
    if |es| > 0 {
      var pre := es[..|es| - 1];
      var e := es[|es| - 1];
      SubmittedByProducers(pre, fin);
      if e.Write? || e.Defer? {
        var p := Producers(pre) + [e];
        assert p[..|p| - 1] == Producers(pre);
      } else {
        assert Producers(es) == Producers(pre);
      }
    }
  }

  /** Two runs with the same writes and deferrals in the same order, whose
      completions arrive in any order at all, write the same file. */
  lemma CompletionOrderIrrelevant(es1: seq<Event>, es2: seq<Event>, fin: nat -> string)
    requires Producers(es1) == Producers(es2)
    requires Consistent(es1, fin) && Consistent(es2, fin)
    requires |es1| > 0 && es1[|es1| - 1] == Flush && Run(es1).Some?
    requires |es2| > 0 && es2[|es2| - 1] == Flush && Run(es2).Some?
    ensures Run(es1).value.sink == Run(es2).value.sink
  {
    FlushDeliversInOrder(es1, fin);
    FlushDeliversInOrder(es2, fin);
    SubmittedByProducers(es1, fin);
    SubmittedByProducers(es2, fin);
  }

  /** Draining stops at a pending head even when later items are ready. */
  lemma DrainStopsAtPending(q: Queue)
    requires |q.items| > 0 && !q.items[0].item.IsDone()
    ensures Drain(q) == q
  {
    assert q.items[0..] == q.items;
  }

  /** Draining pops a run of items from the head and writes their texts, in
      queue order, after what the file already holds; what remains starts
      with a pending item. */
  lemma DrainShape(q: Queue)
    ensures |Drain(q).items| <= |q.items|
    ensures |Drain(q).items| > 0 ==> !Drain(q).items[0].item.IsDone()
    ensures |Drain(q).sink| - |q.sink| + |Drain(q).items| == |q.items|
    ensures var k := |q.items| - |Drain(q).items|;
      Drain(q).items == q.items[k..] && Drain(q).sink == q.sink + Texts(q.items[..k])
    ensures var k := |q.items| - |Drain(q).items|;
      forall i :: 0 <= i < k ==> q.items[i].item.IsDone()
  {
  }
}
